=== FILE: README.md ===
# Interconnect interface and 3D mesh of the GPGPU-Sim network model

A Dafny model of three integer-only parts of the `intersim2` interconnect simulator (GPGPU-Sim with a 3D-mesh extension):

- **The host-facing interface `InterconnectInterface`.** This covers:
  - how many flits a packet needs;
  - the buffer checks `HasBuffer` and `NetworkHasBuffer`;
  - the subnet choice `NetworkSelection` and the subnet-trial loop of `Push`;
  - the round-robin `Pop`, with a corrected fair variant, and `Busy`;
  - the ejection path `WriteOutBuffer` → `Transfer2BoundaryBuffer` → `GetEjectedFlit`;
  - the packet reassembly buffer `_BoundaryBufferItem`;
  - the device-to-node map `_CreateNodeMap`.
- **The 3D mesh `Mesh3D`.** This covers:
  - the sizes `_ComputeSize` fixes;
  - coordinate decoding `findCoordinate`;
  - neighbour lookup `_adjacentNode`;
  - the closed-form planar channel index `_adjacentChannel`;
  - the ports, channels and arbiters `_BuildNet` gives each router;
  - the order of the three phases of `Evaluate`.
- **The vertical bus `VerticalChannel`.** This covers:
  - its append-only source and sink registries, where the first registration fixes the port;
  - lookup by id and by layer;
  - the utilisation accessors.

The interface is a state record (`Interconnect.State`):

- Buffers are keyed by (subnet, node, VC) index tuples.
- Round-robin cursors and the node map are stored in the same record.
- Of the traffic manager, only the length of each injection queue `_input_queue[s][n][0]` is kept.

Every operation maps a state to a result without side effects: a function, or a method where the source loops. When the simulator gives up, through a failing C++ `assert` or booksim's `Error(...)`, the result is `Outcome.Error` with the failed check as its reason. A NULL pointer return is `Outcome.None`.

## Modules

| file | module | what it holds |
|---|---|---|
| outcome.dfy | Outcome | `Option`, `Result` |
| cpp_int.dfy | CppInt | C++ truncating division, `short` conversion, division facts |
| ring.dfy | Ring | round-robin cursors: one step, the slot j steps ahead, the distance between two slots |
| interconnect.dfy | Interconnect | configuration and its reading, state, invariant, `_CreateBuffer` |
| boundary_buffer.dfy | BoundaryBuffer | `_BoundaryBufferItem`: `PushFlitData`, `PopPacket` |
| admission.dfy | Admission | flit count, `NetworkHasBuffer`, `HasBuffer`, `NetworkSelection`, `Push` |
| delivery.dfy | Delivery | `Pop`, its corrected fair variant, `Busy` |
| ejection.dfy | Ejection | `WriteOutBuffer`, `Transfer2BoundaryBuffer`, `GetEjectedFlit` |
| node_map.dfy | NodeMap | `_CreateNodeMap` and the reverse map |
| mesh3d.dfy | Mesh3D | `_ComputeSize`, `findCoordinate`, `_adjacentNode`, `_adjacentChannel` |
| mesh_channels.dfy | MeshChannels | the planar channel numbering as a bijection |
| mesh_build.dfy | MeshBuild | constructor, `_AllocVerChan`, `_BuildNet`, `Evaluate` |
| vertical_channel.dfy | VerticalChannel | the vertical bus |

## Model

| member | source | states |
|---|---|---|
| CppInt.ToShort | src/intersim2/vertical_channel.hpp:53-55 | an `int` passed as a `short` keeps its value modulo 2^16 and is unchanged when it fits |
| Ring.Next | src/intersim2/interconnect_interface.cpp:224-229 | the `++`-then-wrap cursor step is one step modulo n and stays in range |
| Ring.RingCovers | src/intersim2/interconnect_interface.cpp:213-229 | within one lap from any cursor, every subnet or VC is reached |
| Ring.RingOffset | src/intersim2/interconnect_interface.cpp:213-229 | within one lap no slot is visited twice |
| Interconnect.PolicyCodeRoundTrip | src/intersim2/interconnect_interface.cpp:49 | the policy enum's numbering decodes back to the policy, and exactly the four values 0-3 decode |
| Interconnect.ReadConfig | src/intersim2/interconnect_interface.cpp:99-131 | reading the settings fails iff there are no subnets, the boundary capacity is zero or the net-selection value is outside the enum; otherwise each field is the setting read, a zero ejection buffer size falls back to `vc_buf_size` and a zero input buffer size to 16 |
| Interconnect.ReadConfigRoundTrip | src/intersim2/interconnect_interface.cpp:99-131 | a configuration with subnets and non-zero capacities is read back unchanged from its own settings, also when its ejection capacity comes from the `vc_buf_size` fallback |
| Interconnect.CreateBuffer | src/intersim2/interconnect_interface.cpp:472-494 | every buffer and queue starts empty and every cursor starts at zero |
| Interconnect.CreateBufferInv | src/intersim2/interconnect_interface.cpp:472-494 | the fresh interface satisfies the invariant that every later operation keeps |
| Admission.FlitCountBounds | src/intersim2/interconnect_interface.cpp:154-155 | the flit count is the ceiling of bits / flit width: its flits hold every bit and one fewer would not |
| Admission.NetworkHasBuffer | src/intersim2/interconnect_interface.cpp:314-317 | the node's injection queue on the subnet can take the flits within `_input_buffer_capacity`; `AnySubnetMeaning` and `HasBufferMeaning` state what the tests built on it promise |
| Admission.HasBuffer | src/intersim2/interconnect_interface.cpp:319-363 | the admission test as written; its per-policy meaning is stated by `HasBufferMeaning`, and its disagreement with `Push` by `AdmittedPushFails`, `PacketSizeAdmittedPushFails` and `RandomAdmittedPushFails` |
| Admission.AnySubnetMeaning | src/intersim2/interconnect_interface.cpp:337-344 | the subnet loop's flag holds iff some subnet's queue has room for the flits |
| Admission.HasBufferMeaning | src/intersim2/interconnect_interface.cpp:319-363 | per policy: packet-type tests the one subnet `deviceID > _n_shader`; round-robin and random hold iff some subnet has room; packet-size tests subnet 0 at the normal width or subnet 1 at the asymmetric width |
| Admission.NetworkSelection | src/intersim2/interconnect_interface.cpp:277-311 | the subnet each policy picks, with the round-robin cursor advanced; its contract is `NetworkSelectionSpec` |
| Admission.NetworkSelectionSpec | src/intersim2/interconnect_interface.cpp:277-311 | the subnet is in range; packet-type gives 0 for ids below `_n_shader` and 1 otherwise; random gives its draw; round-robin hands out the cursor and advances it modulo `_subnets`; packet-size sends read requests and write acks to 0; nothing but the cursor changes |
| Admission.TrySubnets | src/intersim2/interconnect_interface.cpp:171-180 | `Push`'s trial loop; `TrySubnetsSound` states what it commits to, `RoundRobinTrial` and `FixedSubnetTrial` when it finds a subnet |
| Admission.Push | src/intersim2/interconnect_interface.cpp:145-194 | the push as written; `PushSound` states what a successful push did, `RoundRobinPushComplete` and `RandomPushComplete` when it succeeds, and the three admission Findings when an admitted push fails |
| Admission.TrySubnetsSound | src/intersim2/interconnect_interface.cpp:171-180 | the trial loop commits only to an in-range subnet whose queue has room, else yields -1, and changes only the round-robin cursor |
| Admission.PushSound | src/intersim2/interconnect_interface.cpp:145-194 | a successful push passed `HasBuffer` and queued exactly the packet's flits on one subnet that had room, within capacity; every other queue and all buffers are unchanged |
| Admission.RoundRobinTrial | src/intersim2/interconnect_interface.cpp:172-177 | under round robin the loop asks each subnet once, starting at the cursor, and finds one iff one of them has room |
| Admission.RoundRobinPushComplete | src/intersim2/interconnect_interface.cpp:145-180 | under round robin, `Push` succeeds exactly when `HasBuffer` holds |
| Admission.FixedAdmissionFindsSubnet | src/intersim2/interconnect_interface.cpp:333-335 | with the packet-type test aligned to `NetworkSelection`, an admitted packet always finds its subnet |
| Admission.ForKindExtendsFixed | src/intersim2/interconnect_interface.cpp:333-335 | outside the packet-size policy the kind-aware admission test is the corrected packet-type test |
| Admission.FixedSubnetTrial | src/intersim2/interconnect_interface.cpp:171-180 | when the policy fixes the subnet, the trial loop returns that subnet if it has room and -1 otherwise, leaving the state unchanged |
| Admission.KindAdmissionFindsSubnet | src/intersim2/interconnect_interface.cpp:294-305 | with admission tested on the subnet `NetworkSelection` picks, for the flits `Push` queues, the trial loop finds a subnet iff the packet was admitted, and it is the selected one |
| Admission.RandomAdmittedPushFails | src/intersim2/interconnect_interface.cpp:338-343 | as written, the random policy admits when any subnet has room, yet two draws both naming the full subnet 0 make `Push` fail `assert(subnet >= 0)` although subnet 1 is empty |
| Admission.RandomTrial | src/intersim2/interconnect_interface.cpp:171-180 | under the random policy the trial loop asks the drawn subnets in order without changing the state: it finds a subnet iff a remaining draw names one with room, and the subnet found is among the draws |
| Admission.DistinctFill | src/intersim2/interconnect_interface.cpp:171-180 | `_subnets` distinct draws in [0, `_subnets`) name every subnet, so draws without replacement reach every subnet the loop could use |
| Admission.RandomPushComplete | src/intersim2/interconnect_interface.cpp:145-180 | corrected: when one push draws its `_subnets` subnets without replacement (no subnet twice), `Push` succeeds exactly when `HasBuffer` holds |
| Admission.PacketSizeAdmittedPushFails | src/intersim2/interconnect_interface.cpp:345-353 | as written, the packet-size policy can admit a packet on subnet 0 that `Push` routes to a full subnet 1, failing `subnet >= 0` |
| Admission.FixedDiffersOnlyAtBoundary | src/intersim2/interconnect_interface.cpp:334 | the corrected test differs from the written one only for the device whose id is `_n_shader` |
| Admission.AdmittedPushFails | src/intersim2/interconnect_interface.cpp:333-335 | as written, a packet `HasBuffer` admits can make `Push` fail its `subnet >= 0` assertion |
| BoundaryBuffer.PushFlitData | src/intersim2/interconnect_interface.cpp:661-668 | the flit joins the back of the queue, earlier flits stay, and the packet count rises iff the flit is a tail |
| BoundaryBuffer.PushPreservesValid | src/intersim2/interconnect_interface.cpp:661-668 | pushing keeps the packet count equal to the number of buffered tails |
| BoundaryBuffer.DrainShrinks | src/intersim2/interconnect_interface.cpp:634-642 | a completed pop loop returns a non-null payload, leaves a proper suffix and lowers the count by the tails it removed |
| BoundaryBuffer.PopPacket | src/intersim2/interconnect_interface.cpp:629-644 | the pop as written; `PopPacketShrinks`, `PopPacketFramed`, `PopPacketFifo` and `PacketRoundTrip` state its contract |
| BoundaryBuffer.PopPacketShrinks | src/intersim2/interconnect_interface.cpp:629-644 | a successful pop keeps the buffer valid, makes it strictly smaller and returns a non-null payload |
| BoundaryBuffer.DrainFramed | src/intersim2/interconnect_interface.cpp:634-642 | on whole packets the loop stops at the first tail, all removed flits carry the front payload, and one packet leaves |
| BoundaryBuffer.PopPacketFramed | src/intersim2/interconnect_interface.cpp:629-644 | `PopPacket` returns the front packet's payload, removes exactly the flits up to the first tail and lowers the count by one |
| BoundaryBuffer.PopPacketKeepsFramed | src/intersim2/interconnect_interface.cpp:629-644 | after that pop the buffer still holds whole packets with a matching count |
| BoundaryBuffer.MixedPacketFails | src/intersim2/interconnect_interface.cpp:635 | a packet whose flits carry two payloads trips the same-packet assertion |
| BoundaryBuffer.PushFlitsAppends | src/intersim2/interconnect_interface.cpp:661-668 | pushing flits one by one appends them all and adds their tails to the count |
| BoundaryBuffer.PacketRoundTrip | src/intersim2/interconnect_interface.cpp:629-668 | the flits of one packet pushed into an empty buffer pop back out as that packet's payload and leave it empty |
| BoundaryBuffer.PopPacketFifo | src/intersim2/interconnect_interface.cpp:629-668 | a packet pushed behind buffered ones does not change which packet pops, and stays queued behind the rest |
| BoundaryBuffer.AppendPacketFramed | src/intersim2/interconnect_interface.cpp:661-668 | appending a whole packet keeps the buffer valid and made of whole packets |
| Delivery.Pop | src/intersim2/interconnect_interface.cpp:196-240 | the pop as written, which never changes the node map; `PopComplete`, `PopServes` and `PopInv` state its contract, and `PopStarves` shows it is not fair |
| Delivery.ScanVcsSound | src/intersim2/interconnect_interface.cpp:216-226 | the VC loop serves the first VC around the ring from the subnet's cursor that holds a packet, or reports that none does |
| Delivery.ScanVcsOk | src/intersim2/interconnect_interface.cpp:218-222 | on buffers of whole packets, the VC loop's pop never fails |
| Delivery.LapIdle | src/intersim2/interconnect_interface.cpp:218-226 | a full lap that finds nothing means no VC of the subnet holds a packet |
| Delivery.ScanSubnetsSound | src/intersim2/interconnect_interface.cpp:211-236 | the subnet loop serves the first non-idle subnet around the ring from the node's subnet cursor, or reports all idle |
| Delivery.ScanSubnetsOk | src/intersim2/interconnect_interface.cpp:211-236 | on buffers of whole packets the subnet loop never fails |
| Delivery.PopComplete | src/intersim2/interconnect_interface.cpp:196-240 | `Pop` returns a payload iff some buffer of the device's node holds a packet; when it returns NULL nothing changes |
| Delivery.PopServes | src/intersim2/interconnect_interface.cpp:196-240 | a returned payload comes from the first buffer in scan order, which loses exactly its front packet; the subnet cursor moves on and the advanced VC cursor is stored under the next subnet |
| Delivery.HitPopped | src/intersim2/interconnect_interface.cpp:228-233 | storing the served buffer and cursors changes only that buffer, that subnet cursor and the VC cursor of the next subnet |
| Delivery.PopInv | src/intersim2/interconnect_interface.cpp:196-240 | `Pop` keeps the interface invariant |
| Delivery.HitInv | src/intersim2/interconnect_interface.cpp:228-233 | storing a served buffer and the new cursors keeps the invariant |
| Delivery.Pops | src/intersim2/interconnect_interface.cpp:196-240 | successive pops of one device, as the host calls `Pop` repeatedly (`Iterate` of `PopStep`): `k` pops that succeed return `k` payloads |
| Delivery.IterateSplit | src/intersim2/interconnect_interface.cpp:196-240 | `a` steps followed by `b` more are `a + b` steps, with the results concatenated; this is how the pops of the two halves of the starvation example compose |
| Delivery.StarveFirstHalf | src/intersim2/interconnect_interface.cpp:211-233 | from all cursors at zero with every buffer holding two packets, two pops serve (0, 0) then (1, 1) |
| Delivery.StarveSecondHalf | src/intersim2/interconnect_interface.cpp:211-233 | from there, two more pops serve (0, 0) and (1, 1) again |
| Delivery.StarveCursors | src/intersim2/interconnect_interface.cpp:228-233 | after those four pops (0, 1) and (1, 0) still hold both packets, and the cursors equal those after two pops |
| Delivery.PopStarves | src/intersim2/interconnect_interface.cpp:228-233 | as written, four pops return 1, 12, 1, 12: the VC cursor stored under the next subnet makes the pops alternate between two of the four pairs |
| Delivery.CursorScan | src/intersim2/interconnect_interface.cpp:211-226 | when the buffer under the subnet cursor's VC cursor holds a packet, the scan serves that buffer at once |
| Delivery.PopFair | src/intersim2/interconnect_interface.cpp:196-240 | the corrected pop, which stores the VC cursor under the subnet served, never changes the node map |
| Delivery.FairStepState | src/intersim2/interconnect_interface.cpp:228-233 | the corrected pop steps the subnet cursor and the served subnet's VC cursor once each, keeps the buffers well formed and changes only the served one |
| Delivery.Schedule | src/intersim2/interconnect_interface.cpp:211-233 | the abstract cursor schedule has one pair per pop |
| Delivery.ScheduleAt | src/intersim2/interconnect_interface.cpp:211-233 | pop i of the schedule serves the subnet i steps from the subnet cursor, at its VC cursor moved on by the whole laps before i |
| Delivery.ScheduleDistinct | src/intersim2/interconnect_interface.cpp:211-233 | within `subnets·vcs` pops the schedule never serves a pair twice |
| Delivery.ScheduleCovers | src/intersim2/interconnect_interface.cpp:211-233 | within `subnets·vcs` pops the schedule serves every pair |
| Delivery.ScheduleCoversOnce | src/intersim2/interconnect_interface.cpp:211-233 | over `subnets·vcs` pops the schedule serves every (subnet, VC) pair exactly once |
| Delivery.FairFollowsSchedule | src/intersim2/interconnect_interface.cpp:211-233 | while the scheduled buffers are distinct and hold packets, the corrected pops serve exactly the schedule |
| Delivery.FairServedTracesPopFair | src/intersim2/interconnect_interface.cpp:211-233 | the served pairs are the trace of the corrected pop: a pair is recorded exactly when `PopFair` returns a packet, that buffer held a packet whose payload it returns and whose rest it keeps, and the next pairs are those of the state it leaves |
| Delivery.PopFairServesEach | src/intersim2/interconnect_interface.cpp:211-233 | corrected: with every buffer of the node holding a packet, `subnets·vcs` successive pops serve every (subnet, VC) pair exactly once |
| Delivery.Busy | src/intersim2/interconnect_interface.cpp:247-271 | busy while flits are in flight; otherwise a non-empty injection queue is an error, and busy iff some boundary buffer holds a packet |
| Ejection.WriteOutBuffer | src/intersim2/interconnect_interface.cpp:445-450 | the write as written; `WriteOutBufferSpec` states its contract |
| Ejection.WriteOutBufferSpec | src/intersim2/interconnect_interface.cpp:445-450 | the write succeeds iff the VC's ejection buffer is below capacity; it then appends the flit there only and keeps the invariant |
| Ejection.TransferFromFails | src/intersim2/interconnect_interface.cpp:427-442 | the transfer loop fails iff some VC moves a head flit addressed to another node |
| Ejection.TransferFromEffect | src/intersim2/interconnect_interface.cpp:427-442 | each VC with a flit and boundary room loses its front flit, which goes to its boundary buffer and joins the credit-return queue in VC order; nothing else changes |
| Ejection.Transfer | src/intersim2/interconnect_interface.cpp:423-443 | `Transfer2BoundaryBuffer` as written; `TransferSpec`, `TransferInv` and `TransferThenTake` state its contract |
| Ejection.TransferSpec | src/intersim2/interconnect_interface.cpp:423-443 | `Transfer2BoundaryBuffer` fails exactly on a misrouted head flit and otherwise has exactly that effect |
| Ejection.TransferInv | src/intersim2/interconnect_interface.cpp:423-443 | a transfer keeps boundary buffers within capacity and valid, and ejection buffers within capacity |
| Ejection.GetEjectedFlit | src/intersim2/interconnect_interface.cpp:462-470 | returns NULL iff the queue is empty; otherwise returns its front and leaves the rest, touching no other queue |
| Ejection.TakeEjectedFifo | src/intersim2/interconnect_interface.cpp:462-470 | taking as many flits as are queued returns the queue front first and empties it |
| Ejection.TransferThenTake | src/intersim2/interconnect_interface.cpp:423-443 | the flits a transfer queues come back after those queued before, in VC order |
| NodeMap.ToUnsigned | src/intersim2/interconnect_interface.cpp:561-562 | copying an `int` into an `unsigned` keeps its value modulo 2^32 |
| NodeMap.PresetMemoryNodes | src/intersim2/interconnect_interface.cpp:545-551 | the built-in list puts memory device i on node `n_shader + i` |
| NodeMap.MemoryNodes | src/intersim2/interconnect_interface.cpp:554-570 | a non-empty configured list must have `n_mem` entries and replaces the built-in one; the lookup fails iff the configured list has the wrong length or the list in use is empty (no memory devices) |
| NodeMap.Skip | src/intersim2/interconnect_interface.cpp:576-579 | the skip advances node and index in step and never past the list |
| NodeMap.SkipSpec | src/intersim2/interconnect_interface.cpp:576-579 | on an increasing list the skip lands on the first node at or after `next_node` that is not a memory node |
| NodeMap.ShaderNodesSpec | src/intersim2/interconnect_interface.cpp:573-582 | the shader nodes increase strictly from `next_node`, are never memory nodes and stay within the free nodes |
| NodeMap.CreateNodeMap | src/intersim2/interconnect_interface.cpp:496-590 | corrected (the shader loop stops skipping once the memory list is used up; see Findings): without a map every device is its own node; with one it fails iff no list is usable, and memory device `n_shader + i` sits on the list's i-th node |
| NodeMap.SkipAsWritten | src/intersim2/interconnect_interface.cpp:576-579 | the skip as written, which reads `memory_node[memory_node_index]` unchecked; `SkipAgrees` relates it to the checked skip |
| NodeMap.ShaderNodesAsWritten | src/intersim2/interconnect_interface.cpp:573-582 | the shader loop as written; `ShaderNodesAgree` relates it to the corrected loop |
| NodeMap.CreateNodeMapAsWritten | src/intersim2/interconnect_interface.cpp:496-590 | the map as written, which can read past the memory list (`MeshLayoutReadsPastEnd`); `CreateNodeMapAgrees` shows it equals the corrected map wherever it exists |
| NodeMap.SkipAgrees | src/intersim2/interconnect_interface.cpp:576-579 | the unchecked skip fails iff the checked one reaches the end of the list, and otherwise agrees with it |
| NodeMap.ShaderNodesAgree | src/intersim2/interconnect_interface.cpp:575-582 | where the as-written shader loop completes, it computes the corrected result |
| NodeMap.CreateNodeMapAgrees | src/intersim2/interconnect_interface.cpp:496-590 | the as-written map, where it exists, is the corrected one |
| NodeMap.MeshLayoutReadsPastEnd | src/intersim2/interconnect_interface.cpp:576-579 | with 8 shaders and memory nodes {1, 3, 4, 6, 9, 11, 12, 14} the written loop reads past the list |
| NodeMap.MeshLayoutCorrected | src/intersim2/interconnect_interface.cpp:572-585 | the corrected loop maps that layout to shaders {0, 2, 5, 7, 8, 10, 13, 15} followed by the memory nodes |
| NodeMap.MeshShaders | src/intersim2/interconnect_interface.cpp:575-582 | the shader loop places the eight shaders of that layout on the free nodes |
| NodeMap.MeshMemoryConfigured | src/intersim2/interconnect_interface.cpp:554-566 | a configured list of the right length is used as given |
| NodeMap.CreateNodeMapLayout | src/intersim2/interconnect_interface.cpp:572-585 | with an increasing list, shader nodes lie in range, increase strictly and avoid every memory node; memory devices sit on the list's nodes |
| NodeMap.PresetIsIdentity | src/intersim2/interconnect_interface.cpp:545-582 | with the built-in list the map is the identity |
| NodeMap.PresetShaders | src/intersim2/interconnect_interface.cpp:575-582 | below the first built-in memory node the shaders keep their own numbers |
| NodeMap.FirstIndexOf | src/intersim2/interconnect_interface.cpp:593-597 | the search finds the first device in range on the node, or shows there is none |
| NodeMap.ReverseNodeMapInverts | src/intersim2/interconnect_interface.cpp:592-599 | the reverse map sends a node to the first device on it, and inverts a one-to-one map |
| NodeMap.NodeMapRoundTrip | src/intersim2/interconnect_interface.cpp:572-599 | with an increasing list inside the network the map is one-to-one into the nodes, and `reverse[map[j]] == j` for every device |
| Mesh3D.ComputeSize | src/intersim2/networks/mesh3D.cpp:21-35 | one router per position of each of the `s` layers (`_nodes == _size == k·n·s`), an up and a down bus per column (2·k·n), and the per-layer planar count times `s` channels; `MeshChannels.ChannelSurjective` shows that count is exactly the number of directed links |
| Mesh3D.FindCoordinate | src/intersim2/networks/mesh3D.cpp:321-341 | defined exactly for the selectors `_x`, `_y`, `_z`, each giving its coordinate |
| Mesh3D.EncodeDecodes | src/intersim2/networks/mesh3D.cpp:321-341 | decoding a grid position's index gives the position back |
| Mesh3D.DecodeEncodes | src/intersim2/networks/mesh3D.cpp:321-341 | every router index decodes to a grid position that encodes back to it |
| Mesh3D.AdjacentNode | src/intersim2/networks/mesh3D.cpp:285-319 | defined exactly for the four planar directions |
| Mesh3D.EdgeIsNotNode | src/intersim2/networks/mesh3D.hpp:4 | `NETWORK_EDGE` is never a router index |
| Mesh3D.AdjacentNodeMeaning | src/intersim2/networks/mesh3D.cpp:285-319 | the edge is reported exactly at that direction's boundary; otherwise the result is the same-layer router one step away in x or y |
| Mesh3D.NeighbourCoordinates | src/intersim2/networks/mesh3D.cpp:285-319 | the neighbour is a router whose coordinates differ by the direction's step |
| Mesh3D.NeighbourSymmetric | src/intersim2/networks/mesh3D.cpp:156 | the neighbour in direction p sees the router again in the opposite direction |
| Mesh3D.AdjacentChannel | src/intersim2/networks/mesh3D.cpp:221-283 | a channel index exists only for a planar direction |
| Mesh3D.AdjacentChannelDefined | src/intersim2/networks/mesh3D.cpp:221-283 | for a router of the mesh, the channel index is defined iff the direction is planar |
| MeshChannels.LayerSplit | src/intersim2/networks/mesh3D.cpp:32 | a layer's channels are its row blocks plus the last row's right/left pairs |
| MeshChannels.LocalInRange | src/intersim2/networks/mesh3D.cpp:229-275 | every link's index within its layer lies inside the layer's block |
| MeshChannels.DecodeLocalIndex | src/intersim2/networks/mesh3D.cpp:229-275 | decoding a link's local index gives the link back |
| MeshChannels.DecodeLocalValid | src/intersim2/networks/mesh3D.cpp:229-275 | every index of a layer's block is the local index of some link |
| MeshChannels.ChannelOfLink | src/intersim2/networks/mesh3D.cpp:221-283 | `_adjacentChannel` is the layer's base plus the link's local index |
| MeshChannels.LayerBase | src/intersim2/networks/mesh3D.cpp:230 | the source's layer offset `ch_per_n` is z whole layer blocks |
| MeshChannels.ChannelInRange | src/intersim2/networks/mesh3D.cpp:221-283 | every link's channel index lies in [0, `_channels`) |
| MeshChannels.ChannelInjective | src/intersim2/networks/mesh3D.cpp:221-283 | distinct links get distinct channel indices |
| MeshChannels.ChannelSurjective | src/intersim2/networks/mesh3D.cpp:32 | every index in [0, `_channels`) is the channel of some link, so the count is exactly the number of links |
| MeshBuild.PortsMatchNeighbours | src/intersim2/networks/mesh3D.cpp:124-126 | the 5/6/7 port count covers every planar neighbour plus three ports, with equality when the mesh is at least 2 wide in both directions |
| MeshBuild.VerticalIndexing | src/intersim2/networks/mesh3D.cpp:176-190 | the up index is the position in the layer, the down index is that plus k·n, both are buses, and their credit channels follow the planar ones |
| MeshBuild.ColumnSharesBuses | src/intersim2/networks/mesh3D.cpp:128-129 | routers share buses and arbiters exactly when they stand in the same column |
| MeshBuild.PlanarHead | src/intersim2/networks/mesh3D.cpp:139-167 | a direction with a neighbour contributes one correctly wired attachment ahead of the later ones |
| MeshBuild.PlanarAttachmentsSound | src/intersim2/networks/mesh3D.cpp:139-167 | one attachment per planar neighbour, in direction order, each wired to the router's own channel and its neighbour's returning one |
| MeshBuild.RouterPorts | src/intersim2/networks/mesh3D.cpp:116-218 | each router gets the planar attachments, then the up bus, the down bus and the node port, with its column's arbiters |
| MeshBuild.RouterPlanarInputs | src/intersim2/networks/mesh3D.cpp:155-166 | the channel a router reads in direction d is the one its neighbour in d sends back on, and both indices are in range |
| MeshBuild.InputChannelUnique | src/intersim2/networks/mesh3D.cpp:156-158 | no two router ports read the same planar channel |
| MeshBuild.StampColumnStep | src/intersim2/networks/mesh3D.cpp:199-206 | one router's stamping labels its column's buses and keeps every other label and every registry |
| MeshBuild.LabelVerticalChannels | src/intersim2/networks/mesh3D.cpp:199-206 | after `_BuildNet` every column's up bus carries (x, y, up) and its down bus (x, y, down); the coordinate stamping leaves each bus's source and sink registries as they were |
| MeshBuild.VerticalModules | src/intersim2/networks/mesh3D.cpp:42-52 | each bus is followed by its credit channel `_channels + cv` in the timed-module list |
| MeshBuild.RouterModules | src/intersim2/networks/mesh3D.cpp:116-133 | routers join the timed-module list in index order |
| MeshBuild.NewMesh3D | src/intersim2/networks/mesh3D.cpp:11-66 | the constructor's sizes, 2·k·n buses (`VerticalChannels()` equals `GetVerticalChannels()`'s length), one s-input arbiter per bus, labelled columns, routers and module order |
| MeshBuild.EvaluatePhases | src/intersim2/networks/mesh3D.cpp:72-98 | the three phases never interleave, and each router takes part in each later phase once, in order |
| VerticalChannel.New | src/intersim2/vertical_channel.cpp:17-23 | a new bus has both ports unset, empty registries, `_idle` 0 and one zero counter per class |
| VerticalChannel.SetVerticalSource | src/intersim2/vertical_channel.cpp:25-29 | the router is appended; the port is taken only while none is recorded; nothing else changes |
| VerticalChannel.SetVerticalSink | src/intersim2/vertical_channel.cpp:31-35 | the same first-wins, append-only rule for sinks |
| VerticalChannel.RegisterSourcesAppends | src/intersim2/vertical_channel.cpp:25-29 | a run of registrations appends the routers in order and leaves the sinks alone |
| VerticalChannel.RegisterSourcesPort | src/intersim2/vertical_channel.cpp:25-29 | after a run of registrations the source port is the one the first-wins rule picks |
| VerticalChannel.FirstRegistrationWins | src/intersim2/vertical_channel.cpp:27 | the first valid port registered on a fresh bus stays for good |
| VerticalChannel.RegisterSinksSpec | src/intersim2/vertical_channel.cpp:31-35 | sinks are appended in order, sources untouched, and the first valid port kept |
| VerticalChannel.SourcesInRegistrationOrder | src/intersim2/vertical_channel.hpp:40-43 | `Sources()` on a new bus lists exactly the registered routers in registration order |
| VerticalChannel.GetVerticalSource | src/intersim2/vertical_channel.cpp:37-47 | succeeds iff the id was registered as a source, returning that router |
| VerticalChannel.GetVerticalSink | src/intersim2/vertical_channel.cpp:49-60 | succeeds iff some sink lies in the id's layer, returning the first such |
| VerticalChannel.AccessorsRoundTrip | src/intersim2/vertical_channel.hpp:47-57 | each getter returns what its setter stored, and each setter leaves the other fields and both registries unchanged |

## Left out

- DSENT power modelling, the traffic manager (`_GeneratePacket`, `_Step`, statistics), parsing of the configuration file and stream setup: floating point, I/O or code outside the model. `Push` returns the injection it would hand to `_GeneratePacket` instead of calling it, and adds the packet's flits to the modelled length of that subnet's injection queue, which stands for `_GeneratePacket`'s effect on `_input_queue`.
- `Advance`, `Init`, `DisplayStats`, `DisplayState`, `_DisplayMap`, `GetIcntTime`, `GetIcntStats`: they only forward to the traffic manager or print.
- `_BoundaryBufferItem::TopPacket`: its loop never advances, so it does not terminate unless the front flit is a tail.
- `Mesh3D::Capacity`: a floating-point constant.
- Object construction, pointer ownership and destructors. Routers, flits and payloads are integers.
- `RandomInt`: the random policy's draws are a parameter, each in [0, `_subnets`). `Push` promises success under that policy only for draws without replacement (`RandomPushComplete`); with repeated draws an admitted push can fail (see Findings).
- `Busy`'s `_total_in_flight_flits` test: the traffic manager's state, given as the parameter `inFlight`.
- `HasPacket()` and `Size()` of `_BoundaryBufferItem`: interconnect_interface.hpp is not part of this model. They are taken as "packet count non-zero" and "flits buffered".
- `std::queue::front()` on an empty queue, which is undefined behaviour in C++, is modelled as an `Error` outcome.
- Out-of-range vector indices in the source are undefined behaviour. They become preconditions (`ValidDevice`, indices in range), except for the node-map read listed under Findings.
- `size * 8` overflow of 32-bit `unsigned` in `Push` and `HasBuffer`: bits are unbounded naturals.
- `_packet_n` is an `int` whose wrap-around is not modelled, and the `unsigned` loop counters of `_CreateNodeMap` are modelled as unbounded.
- `_node_map[...]` on a missing key: `std::map::operator[]` inserts a zero entry. The model requires a known device instead.
- NodeMap.CreateNodeMap: requires `n_node <= n_shader + n_mem`. It also requires `n_node == n_shader + n_mem` when the built-in list is used. These are the conditions under which the source's fixed-size array fill stays in bounds.
- Node ids of 2^31 and above: a configured list is copied into `unsigned` (`ToUnsigned`). Its use as an `int` network node is not modelled.
- The Network base class (`_Alloc`, `_routers`, `_chan`, `Router::NewRouter`, `AddInputChannel`, `updatePortMap`): its modules are a parameter of `NewMesh3D`. Router wiring is recorded as data, not as calls.
- MeshBuild.NewMesh3D: does not state the buses' source and sink registries after construction. Each router registers on its column's two buses through `AddInputChannel`/`AddOutputChannel` with the vertical flag (mesh3D.cpp:181-193), in router code that is not part of this model.
- Mesh3D, MeshChannels and MeshBuild: mesh sizes, node ids and channel indices (`_size`, `_channels`, `_vchannels`, the `ch_per_n`/offset arithmetic, `node ± _k`) are unbounded integers, where the source uses 32-bit `int`. The results hold while 2·s·(k(n−1) + n(k−1)) + 2·k·n < 2^31; for example `_channels` overflows at k = n = 32768, s = 1.
- The arbiters' and routers' own behaviour (`Evaluate_AfterSA`, `ClearVerticalArbiters`, round-robin arbitration): only the order of `Evaluate`'s calls is modelled.
- VerticalChannel.New: `_x`, `_y` and `_dir` are not initialised by the constructor. The model takes their starting values as parameters. The inherited `FlitChannel` behaviour is left out.
- Delivery.PopComplete and Delivery.PopServes: stated for buffers holding whole packets of non-null payloads (`Ready`), as the network delivers them. For other contents, `PopPacket` may fail, and the model returns that error.
- `assert(flit)` in `Transfer2BoundaryBuffer`: flits are values in the model and are never NULL.
- `NetworkSelection` compares a `Flit::FlitType` with `mem_fetch` request constants. The model matches the kinds by name, because the two enums' numeric values are defined in files outside this model.
- `_CreateNodeMap` keys the built-in list by its parameters `n_shader`, `n_mem`, but the configured list by the members `_n_shader`, `_n_mem`. The model takes the two pairs to be equal, as `CreateInterconnect` passes them.
- Interconnect.ReadConfig: `gNetSelec` is a global set outside the visible code, and an unknown value fails only at the first `NetworkSelection` or `HasBuffer`. The model rejects it when the settings are read. The `assert(sim_type == "gpgpusim")` and the subnet networks `Network::New` builds are not modelled.
- `Flit::FlitType` and `mem_fetch` types: a packet kind is one of four constructors. The `default: assert(0)` of the type switch cannot be reached.

## Findings

| source | as written | input that shows it | evidently intended | confidence | as-written member | corrected member |
|---|---|---|---|---|---|---|
| src/intersim2/interconnect_interface.cpp:334 | under the packet-type policy `HasBuffer` tests subnet `deviceID > _n_shader`, while `NetworkSelection` (line 283) sends device ids `>= _n_shader` to subnet 1 | 1 shader, 1 memory node, device 1, subnet 1's queue full and subnet 0's empty: `HasBuffer` holds and `Push` fails `assert(subnet >= 0)` | test subnet `deviceID >= _n_shader`, the subnet `Push` will try | high, not executed | Admission.AdmittedPushFails | Admission.FixedAdmissionFindsSubnet |
| src/intersim2/interconnect_interface.cpp:228-233 | `Pop` stores the advanced VC cursor under the next subnet, the one the subnet cursor moves to, instead of under the subnet it served, although line 211 calls the loop a fair check of all the networks | 2 subnets of 2 VCs, every boundary buffer of the node holding packets, all cursors at 0: the pops serve (0, 0), (1, 1), (0, 0), (1, 1), … and never (0, 1) or (1, 0) | store the cursor under the subnet served, so that `subnets·vcs` pops with every buffer full serve each (subnet, VC) pair once | high, not executed | Delivery.PopStarves | Delivery.PopFairServesEach |
| src/intersim2/interconnect_interface.cpp:345-353 | under the packet-size policy `HasBuffer` picks the subnet by packet size and counts flits at the normal width, while `NetworkSelection` (lines 294-305) picks it by kind and `Push` (line 157) counts at the asymmetric width | 64-bit flits, 8-bit asymmetric flits, a one-byte write request from device 0, subnet 1's queue full and subnet 0's empty: `HasBuffer` holds and `Push` fails `assert(subnet >= 0)` | test the subnet `NetworkSelection` picks for the packet's kind, for the flits `Push` queues | medium, not executed: the simulator's packet sizes may never pair a small size with a write request | Admission.PacketSizeAdmittedPushFails | Admission.KindAdmissionFindsSubnet |
| src/intersim2/interconnect_interface.cpp:338-343 | under the random policy `HasBuffer` admits when any subnet has room, while `Push` (lines 172-177) tries only the `_subnets` subnets `RandomInt` draws (line 292), which may repeat | 2 subnets, device 0's subnet-0 queue full and subnet-1 queue empty, both draws 0: `HasBuffer` holds and `Push` fails `assert(subnet >= 0)` | try every subnet once, in a random order, so an admitted packet always finds the subnet with room | medium, not executed: the failure needs every draw to miss the subnets with room, which is rare for many subnets but likely for two | Admission.RandomAdmittedPushFails | Admission.RandomPushComplete |
| src/intersim2/interconnect_interface.cpp:576 | the shader loop reads `memory_node[memory_node_index]` without checking the index against the list's size | 8 shaders, 8 memory nodes {1, 3, 4, 6, 9, 11, 12, 14}: after shader 13 the index reaches 8 and the loop reads past the list | stop skipping once the list is used up | high, not executed | NodeMap.MeshLayoutReadsPastEnd | NodeMap.MeshLayoutCorrected |

=== FILE: admission.dfy ===
/** Packet admission on the host side: the flit count, the buffer checks
    `NetworkHasBuffer` and `HasBuffer`, the subnet choice
    `NetworkSelection`, and `Push`, which tries subnets until one has room
    and queues the packet's flits there. */
module Admission {
  import opened Outcome
  import opened Ring
  import opened Interconnect

  /** Flits needed for `bits` bits at `width` bits per flit. */
  function FlitCount(bits: nat, width: int): nat
    requires width >= 1
  {
    bits / width + (if bits % width != 0 then 1 else 0)
  }

  /** The flit count is the ceiling of bits / width: the flits hold every
      bit, and one flit fewer would not. */
  lemma FlitCountBounds(bits: nat, width: int)
    requires width >= 1
    ensures FlitCount(bits, width) * width >= bits
    ensures (FlitCount(bits, width) - 1) * width < bits || bits == 0
    ensures bits == 0 <==> FlitCount(bits, width) == 0
  {
    var q, r := bits / width, bits % width;
    assert bits == q * width + r;
    if r != 0 {
      assert FlitCount(bits, width) * width == q * width + width;
    }
  }

  /** Bits in a packet of `size` bytes (`size * 8`). */
  function Bits(size: nat): nat {
    size * 8
  }

  /** `NetworkHasBuffer`: the node's injection queue on `subnet` can take
      `flits` more flits. */
  predicate NetworkHasBuffer(c: Config, st: State, subnet: int, node: int, flits: nat) {
    QueueLen(st, subnet, node) + flits <= c.inputCapacity
  }

  /** The loop over subnets [net, _subnets) that stops at the first with
      room; its flag is the last one tested. */
  function AnySubnetHasBuffer(c: Config, st: State, net: int, node: int, flits: nat): bool
    decreases c.subnets - net
  {
    if net >= c.subnets then false
    else NetworkHasBuffer(c, st, net, node, flits) || AnySubnetHasBuffer(c, st, net + 1, node, flits)
  }

  lemma {:induction false} AnySubnetMeaning(c: Config, st: State, net: int, node: int, flits: nat)
    requires 0 <= net
    ensures AnySubnetHasBuffer(c, st, net, node, flits)
            <==> exists s :: net <= s < c.subnets && NetworkHasBuffer(c, st, s, node, flits)
    decreases c.subnets - net
  {
    if net < c.subnets {
      AnySubnetMeaning(c, st, net + 1, node, flits);
      if exists s :: net <= s < c.subnets && NetworkHasBuffer(c, st, s, node, flits) {
        var s :| net <= s < c.subnets && NetworkHasBuffer(c, st, s, node, flits);
        if s != net {
          assert net + 1 <= s < c.subnets;
        }
      }
    }
  }

  /** `HasBuffer(deviceID, size)` as written: the packet-type policy tests
      subnet `deviceID > _n_shader`; the packet-size policy tests subnet 0
      with the normal flit width for packets of at most one flit, and
      subnet 1 with the asymmetric width otherwise. */
  function HasBuffer(c: Config, st: State, dev: int, size: nat): bool
    requires ConfigOk(c) && ValidDevice(c, st, dev)
  {
    var node := st.nodeMap[dev];
    var bits := Bits(size);
    var flits := FlitCount(bits, c.flitSize);
    match c.policy
    case PacketType =>
      NetworkHasBuffer(c, st, if dev > c.nShader then 1 else 0, node, flits)
    case RoundRobin => AnySubnetHasBuffer(c, st, 0, node, flits)
    case Random => AnySubnetHasBuffer(c, st, 0, node, flits)
    case PacketSize =>
      if bits <= c.flitSize then NetworkHasBuffer(c, st, 0, node, flits)
      else NetworkHasBuffer(c, st, 1, node, FlitCount(bits, c.asymFlitSize))
  }

  /** What `HasBuffer` promises under each policy. */
  lemma HasBufferMeaning(c: Config, st: State, dev: int, size: nat)
    requires ConfigOk(c) && ValidDevice(c, st, dev)
    ensures var node := st.nodeMap[dev];
            var flits := FlitCount(Bits(size), c.flitSize);
            (c.policy == PacketType ==>
               (HasBuffer(c, st, dev, size) <==>
                QueueLen(st, if dev > c.nShader then 1 else 0, node) + flits <= c.inputCapacity)) &&
            (c.policy == RoundRobin || c.policy == Random ==>
               (HasBuffer(c, st, dev, size) <==>
                exists s :: 0 <= s < c.subnets && NetworkHasBuffer(c, st, s, node, flits))) &&
            (c.policy == PacketSize && Bits(size) <= c.flitSize ==>
               (HasBuffer(c, st, dev, size) <==> QueueLen(st, 0, node) + flits <= c.inputCapacity)) &&
            (c.policy == PacketSize && Bits(size) > c.flitSize ==>
               (HasBuffer(c, st, dev, size) <==>
                QueueLen(st, 1, node) + FlitCount(Bits(size), c.asymFlitSize) <= c.inputCapacity))
  {
    AnySubnetMeaning(c, st, 0, st.nodeMap[dev], FlitCount(Bits(size), c.flitSize));
  }

  /** `NetworkSelection(pckt_info, icntID)`: the subnet to try next, and
      the state with the global round-robin cursor advanced. The random
      policy's `RandomInt(_subnets - 1)` is the parameter `draw`. */
  function NetworkSelection(c: Config, st: State, kind: PacketKind, id: int, draw: int): (int, State) {
    match c.policy
    case PacketType => (if id < c.nShader then 0 else 1, st)
    case RoundRobin =>
      (st.gSubnet, st.(gSubnet := Next(st.gSubnet, c.subnets)))
    case Random => (draw, st)
    case PacketSize =>
      (match kind
       case ReadRequest => 0
       case WriteAck => 0
       case ReadReply => 1
       case WriteRequest => 1, st)
  }

  /** The chosen subnet is in range; round robin hands out its cursor and
      advances it by one modulo `_subnets`; the packet-type policy sends
      devices below `_n_shader` to subnet 0 and all others to subnet 1,
      the packet-size policy sends read requests and write acks to 0 and
      the rest to 1, and the random policy takes its draw; nothing but the
      cursor changes. */
  lemma NetworkSelectionSpec(c: Config, st: State, kind: PacketKind, id: int, draw: int)
    requires ConfigOk(c) && 0 <= st.gSubnet < c.subnets && 0 <= draw < c.subnets
    ensures 0 <= NetworkSelection(c, st, kind, id, draw).0 < c.subnets
    ensures 0 <= NetworkSelection(c, st, kind, id, draw).1.gSubnet < c.subnets
    ensures NetworkSelection(c, st, kind, id, draw).1
            == st.(gSubnet := NetworkSelection(c, st, kind, id, draw).1.gSubnet)
    ensures c.policy == RoundRobin ==>
              NetworkSelection(c, st, kind, id, draw).0 == st.gSubnet &&
              NetworkSelection(c, st, kind, id, draw).1.gSubnet == (st.gSubnet + 1) % c.subnets
    ensures c.policy != RoundRobin ==> NetworkSelection(c, st, kind, id, draw).1 == st
    ensures c.policy == PacketType ==>
              NetworkSelection(c, st, kind, id, draw).0 == (if id < c.nShader then 0 else 1)
    ensures c.policy == PacketSize ==>
              NetworkSelection(c, st, kind, id, draw).0 == (if kind == ReadRequest || kind == WriteAck then 0 else 1)
    ensures c.policy == Random ==> NetworkSelection(c, st, kind, id, draw).0 == draw
  {
    if c.policy == RoundRobin {
      var g' := Next(st.gSubnet, c.subnets);
      assert NetworkSelection(c, st, kind, id, draw) == (st.gSubnet, st.(gSubnet := g'));
    }
  }

  /** `Push`'s trial loop from iteration `net` on: each iteration asks
      `NetworkSelection` (with the device id, as the source passes it) and
      stops at a subnet with room; -1 when none is found. */
  function TrySubnets(c: Config, st: State, kind: PacketKind, dev: int, node: int, flits: nat,
                      draws: seq<int>, net: nat): (int, State)
    requires |draws| >= c.subnets
    decreases c.subnets - net
  {
    if net >= c.subnets then (-1, st)
    else
      var (s, st1) := NetworkSelection(c, st, kind, dev, draws[net]);
      if NetworkHasBuffer(c, st1, s, node, flits) then (s, st1)
      else TrySubnets(c, st1, kind, dev, node, flits, draws, net + 1)
  }

  /** The flits `Push` queues: the asymmetric width under the packet-size
      policy, the normal width otherwise. */
  function PushFlits(c: Config, size: nat): nat
    requires ConfigOk(c)
  {
    if c.policy == PacketSize then FlitCount(Bits(size), c.asymFlitSize)
    else FlitCount(Bits(size), c.flitSize)
  }

  /** What `Push` hands to the traffic manager. */
  datatype Injection = Injection(source: int, dest: int, subnet: int, flits: nat, kind: PacketKind)

  /** Random draws fit `RandomInt(_subnets - 1)`. */
  predicate DrawsOk(c: Config, draws: seq<int>) {
    |draws| >= c.subnets && forall i :: 0 <= i < |draws| ==> 0 <= draws[i] < c.subnets
  }

  /** `Push(input, output, data, size)`: asserts `HasBuffer`, tries up to
      `_subnets` subnets, asserts one was found, and queues the packet's
      flits on it. */
  function Push(c: Config, st: State, src: int, dst: int, kind: PacketKind, size: nat,
                draws: seq<int>): Result<(State, Injection)>
    requires ConfigOk(c) && ValidDevice(c, st, src) && ValidDevice(c, st, dst) && DrawsOk(c, draws)
  {
    if !HasBuffer(c, st, src, size) then Error("assert(HasBuffer(input_deviceID, size))")
    else
      var node := st.nodeMap[src];
      var flits := PushFlits(c, size);
      var (s, st1) := TrySubnets(c, st, kind, src, node, flits, draws, 0);
      if s < 0 then Error("assert(subnet >= 0)")
      else
        Ok((st1.(inputQueue := st1.inputQueue[(s, node) := QueueLen(st1, s, node) + flits]),
            Injection(node, st.nodeMap[dst], s, flits, kind)))
  }

  /** The trial loop commits only to an in-range subnet that had room, and
      changes nothing but the round-robin cursor, which stays in range. */
  lemma {:induction false} TrySubnetsSound(c: Config, st: State, kind: PacketKind, dev: int, node: int,
                                           flits: nat, draws: seq<int>, net: nat)
    requires ConfigOk(c) && 0 <= st.gSubnet < c.subnets && DrawsOk(c, draws)
    ensures var (s, st') := TrySubnets(c, st, kind, dev, node, flits, draws, net);
            st' == st.(gSubnet := st'.gSubnet) && 0 <= st'.gSubnet < c.subnets &&
            (s >= 0 ==> s < c.subnets && NetworkHasBuffer(c, st, s, node, flits)) &&
            (s < 0 ==> s == -1)
    decreases c.subnets - net
  {
    if net < c.subnets {
      NetworkSelectionSpec(c, st, kind, dev, draws[net]);
      var (s, st1) := NetworkSelection(c, st, kind, dev, draws[net]);
      if !NetworkHasBuffer(c, st1, s, node, flits) {
        TrySubnetsSound(c, st1, kind, dev, node, flits, draws, net + 1);
      }
    }
  }

  /** A successful `Push` queues exactly the packet's flits on one subnet
      that had room for them, so that queue stays within
      `_input_buffer_capacity`; every other queue is unchanged and the
      cursor stays in range. */
  lemma PushSound(c: Config, st: State, src: int, dst: int, kind: PacketKind, size: nat, draws: seq<int>)
    requires ConfigOk(c) && ValidDevice(c, st, src) && ValidDevice(c, st, dst) && DrawsOk(c, draws)
    requires 0 <= st.gSubnet < c.subnets
    ensures var r := Push(c, st, src, dst, kind, size, draws);
            r.Ok? ==>
              var (st', inj) := r.value;
              var node := st.nodeMap[src];
              HasBuffer(c, st, src, size) &&
              0 <= inj.subnet < c.subnets && inj.source == node && inj.dest == st.nodeMap[dst] &&
              inj.flits == PushFlits(c, size) &&
              QueueLen(st', inj.subnet, node) == QueueLen(st, inj.subnet, node) + inj.flits <= c.inputCapacity &&
              (forall s, n :: (s, n) != (inj.subnet, node) ==> QueueLen(st', s, n) == QueueLen(st, s, n)) &&
              st'.boundary == st.boundary && st'.ejection == st.ejection && st'.ejected == st.ejected &&
              st'.rrTurn == st.rrTurn && st'.rrSubnetTurn == st.rrSubnetTurn &&
              st'.nodeMap == st.nodeMap && 0 <= st'.gSubnet < c.subnets
  {
    if HasBuffer(c, st, src, size) {
      TrySubnetsSound(c, st, kind, src, st.nodeMap[src], PushFlits(c, size), draws, 0);
    }
  }

  /** Under round robin the trial loop asks each subnet exactly once,
      starting at the cursor: from iteration `net`, it finds a subnet iff
      one of the cursor's next `_subnets - net` subnets has room. */
  lemma {:induction false} RoundRobinTrial(c: Config, st: State, kind: PacketKind, dev: int, node: int,
                                           flits: nat, draws: seq<int>, net: nat)
    requires ConfigOk(c) && c.policy == RoundRobin && 0 <= st.gSubnet < c.subnets && DrawsOk(c, draws)
    requires net <= c.subnets
    ensures TrySubnets(c, st, kind, dev, node, flits, draws, net).0 >= 0
            <==> exists j :: 0 <= j < c.subnets - net &&
                   NetworkHasBuffer(c, st, RingAt(st.gSubnet, j, c.subnets), node, flits)
    decreases c.subnets - net
  {
    if net < c.subnets {
      var g := st.gSubnet;
      NetworkSelectionSpec(c, st, kind, dev, draws[net]);
      var st1 := NetworkSelection(c, st, kind, dev, draws[net]).1;
      assert NetworkSelection(c, st, kind, dev, draws[net]) == (g, st1);
      RingStart(g, c.subnets);
      assert forall s :: NetworkHasBuffer(c, st1, s, node, flits) == NetworkHasBuffer(c, st, s, node, flits);
      if NetworkHasBuffer(c, st, g, node, flits) {
        assert TrySubnets(c, st, kind, dev, node, flits, draws, net) == (g, st1);
        assert NetworkHasBuffer(c, st, RingAt(g, 0, c.subnets), node, flits);
      } else {
        assert TrySubnets(c, st, kind, dev, node, flits, draws, net)
               == TrySubnets(c, st1, kind, dev, node, flits, draws, net + 1);
        RoundRobinTrial(c, st1, kind, dev, node, flits, draws, net + 1);
        RingStep(c, st, st1, node, flits, net);
      }
    }
  }

  /** The ring seen from the advanced cursor is the ring seen from the old
      one, shifted by one step. */
  lemma RingStep(c: Config, st: State, st1: State, node: int, flits: nat, net: nat)
    requires c.subnets >= 1 && 0 <= st.gSubnet < c.subnets && net < c.subnets
    requires st1.gSubnet == Next(st.gSubnet, c.subnets)
    requires forall s :: NetworkHasBuffer(c, st1, s, node, flits) == NetworkHasBuffer(c, st, s, node, flits)
    requires !NetworkHasBuffer(c, st, RingAt(st.gSubnet, 0, c.subnets), node, flits)
    ensures (exists j :: 0 <= j < c.subnets - (net + 1) &&
               NetworkHasBuffer(c, st1, RingAt(st1.gSubnet, j, c.subnets), node, flits))
            <==> (exists j :: 0 <= j < c.subnets - net &&
                    NetworkHasBuffer(c, st, RingAt(st.gSubnet, j, c.subnets), node, flits))
  {
    var g, n := st.gSubnet, c.subnets;
    forall j | 0 <= j
      ensures RingAt(st1.gSubnet, j, n) == RingAt(g, j + 1, n)
    {
      NextIsRingStep(g, j, n);
    }
    if exists j :: 0 <= j < n - net && NetworkHasBuffer(c, st, RingAt(g, j, n), node, flits) {
      var j :| 0 <= j < n - net && NetworkHasBuffer(c, st, RingAt(g, j, n), node, flits);
      assert j != 0;
      assert NetworkHasBuffer(c, st1, RingAt(st1.gSubnet, j - 1, n), node, flits);
    }
  }

  /** Under round robin, a packet `HasBuffer` admits always finds a subnet:
      `Push` succeeds exactly when `HasBuffer` holds. */
  lemma RoundRobinPushComplete(c: Config, st: State, src: int, dst: int, kind: PacketKind, size: nat,
                               draws: seq<int>)
    requires ConfigOk(c) && c.policy == RoundRobin && 0 <= st.gSubnet < c.subnets
    requires ValidDevice(c, st, src) && ValidDevice(c, st, dst) && DrawsOk(c, draws)
    ensures Push(c, st, src, dst, kind, size, draws).Ok? <==> HasBuffer(c, st, src, size)
  {
    var node := st.nodeMap[src];
    var flits := PushFlits(c, size);
    if HasBuffer(c, st, src, size) {
      HasBufferMeaning(c, st, src, size);
      var s :| 0 <= s < c.subnets && NetworkHasBuffer(c, st, s, node, flits);
      RingCovers(st.gSubnet, s, c.subnets);
      var j := Offset(st.gSubnet, s, c.subnets);
      assert NetworkHasBuffer(c, st, RingAt(st.gSubnet, j, c.subnets), node, flits);
      RoundRobinTrial(c, st, kind, src, node, flits, draws, 0);
    }
  }

  /** `HasBuffer` with the packet-type test made to agree with
      `NetworkSelection`: shader devices (`deviceID < _n_shader`) use
      subnet 0, all others subnet 1. */
  function HasBufferFixed(c: Config, st: State, dev: int, size: nat): bool
    requires ConfigOk(c) && ValidDevice(c, st, dev)
  {
    if c.policy == PacketType then
      NetworkHasBuffer(c, st, if dev >= c.nShader then 1 else 0, st.nodeMap[dev],
                       FlitCount(Bits(size), c.flitSize))
    else HasBuffer(c, st, dev, size)
  }

  /** With the corrected test, a packet admitted under the packet-type
      policy always finds its subnet in `Push`'s trial loop. */
  lemma FixedAdmissionFindsSubnet(c: Config, st: State, src: int, kind: PacketKind, size: nat,
                                  draws: seq<int>)
    requires ConfigOk(c) && c.policy == PacketType && ValidDevice(c, st, src) && DrawsOk(c, draws)
    requires HasBufferFixed(c, st, src, size)
    ensures TrySubnets(c, st, kind, src, st.nodeMap[src], PushFlits(c, size), draws, 0).0
            == (if src < c.nShader then 0 else 1)
  {
  }

  /** The two tests differ only for the device whose id equals
      `_n_shader`. */
  lemma FixedDiffersOnlyAtBoundary(c: Config, st: State, dev: int, size: nat)
    requires ConfigOk(c) && ValidDevice(c, st, dev) && dev != c.nShader
    ensures HasBufferFixed(c, st, dev, size) == HasBuffer(c, st, dev, size)
  {
  }

  /** As written, the device whose id equals `_n_shader` is admitted by
      `HasBuffer` on subnet 0 while `Push` tries only subnet 1: with one
      shader, one memory node, subnet 1's queue full and subnet 0's empty,
      `HasBuffer` holds and `Push` fails its `subnet >= 0` assertion. */
  lemma AdmittedPushFails()
    ensures var c := Config(1, 1, 2, 1, 8, 8, 4, 4, 4, PacketType);
            var st := CreateBuffer(c, [0, 1]).(inputQueue := map[(1, 1) := 4]);
            ConfigOk(c) && ValidDevice(c, st, 1) &&
            HasBuffer(c, st, 1, 1) && !HasBufferFixed(c, st, 1, 1) &&
            Push(c, st, 1, 0, ReadReply, 1, [0, 0]) == Error("assert(subnet >= 0)")
  {
    var c := Config(1, 1, 2, 1, 8, 8, 4, 4, 4, PacketType);
    var st := CreateBuffer(c, [0, 1]).(inputQueue := map[(1, 1) := 4]);
    assert QueueLen(st, 0, 1) == 0 && QueueLen(st, 1, 1) == 4;
    assert FlitCount(8, 8) == 1;
  }

  /** The admission test made to agree with `Push` under the two policies
      whose subnet is fixed by the packet: it tests the subnet
      `NetworkSelection` picks, for the flits `Push` queues. Under the
      packet-size policy that needs the packet's kind, which
      `HasBuffer(deviceID, size)` is not given. */
  function HasBufferForKind(c: Config, st: State, dev: int, kind: PacketKind, size: nat): bool
    requires ConfigOk(c) && ValidDevice(c, st, dev)
  {
    if c.policy == PacketType || c.policy == PacketSize then
      NetworkHasBuffer(c, st, NetworkSelection(c, st, kind, dev, 0).0, st.nodeMap[dev], PushFlits(c, size))
    else HasBuffer(c, st, dev, size)
  }

  /** Under the packet-type policy the kind-aware test is the corrected
      test of the first finding. */
  lemma ForKindExtendsFixed(c: Config, st: State, dev: int, kind: PacketKind, size: nat)
    requires ConfigOk(c) && ValidDevice(c, st, dev) && c.policy != PacketSize
    ensures HasBufferForKind(c, st, dev, kind, size) == HasBufferFixed(c, st, dev, size)
  {
  }

  /** When the policy fixes the subnet, the trial loop asks that one subnet
      on every remaining iteration: it returns it if it has room and -1
      otherwise. */
  lemma {:induction false} FixedSubnetTrial(c: Config, st: State, kind: PacketKind, dev: int, node: int,
                                            flits: nat, draws: seq<int>, net: nat)
    requires ConfigOk(c) && (c.policy == PacketType || c.policy == PacketSize) && DrawsOk(c, draws)
    requires net <= c.subnets
    ensures var sel := NetworkSelection(c, st, kind, dev, 0).0;
            TrySubnets(c, st, kind, dev, node, flits, draws, net)
            == (if net < c.subnets && NetworkHasBuffer(c, st, sel, node, flits) then sel else -1, st)
    decreases c.subnets - net
  {
    if net < c.subnets {
      assert NetworkSelection(c, st, kind, dev, draws[net]) == NetworkSelection(c, st, kind, dev, 0);
      FixedSubnetTrial(c, st, kind, dev, node, flits, draws, net + 1);
    }
  }

  /** With the kind-aware test, `Push`'s trial loop finds a subnet exactly
      when the packet was admitted, and it is the subnet the policy
      selects. */
  lemma KindAdmissionFindsSubnet(c: Config, st: State, src: int, kind: PacketKind, size: nat,
                                 draws: seq<int>)
    requires ConfigOk(c) && (c.policy == PacketType || c.policy == PacketSize)
    requires ValidDevice(c, st, src) && DrawsOk(c, draws)
    ensures var s := TrySubnets(c, st, kind, src, st.nodeMap[src], PushFlits(c, size), draws, 0).0;
            (s >= 0 <==> HasBufferForKind(c, st, src, kind, size)) &&
            (s >= 0 ==> s == NetworkSelection(c, st, kind, src, 0).0)
  {
    FixedSubnetTrial(c, st, kind, src, st.nodeMap[src], PushFlits(c, size), draws, 0);
  }

  /** As written, the packet-size policy admits by size but `Push` routes
      by kind: a one-byte write request fits one 64-bit flit, so
      `HasBuffer` tests subnet 0, while `NetworkSelection` sends write
      requests to subnet 1. With subnet 1's queue full and subnet 0's
      empty, `HasBuffer` holds and `Push` fails its `subnet >= 0`
      assertion. */
  lemma PacketSizeAdmittedPushFails()
    ensures var c := Config(1, 1, 2, 1, 64, 8, 4, 4, 4, PacketSize);
            var st := CreateBuffer(c, [0, 1]).(inputQueue := map[(1, 0) := 4]);
            ConfigOk(c) && ValidDevice(c, st, 0) &&
            HasBuffer(c, st, 0, 1) && !HasBufferForKind(c, st, 0, WriteRequest, 1) &&
            Push(c, st, 0, 1, WriteRequest, 1, [0, 0]) == Error("assert(subnet >= 0)")
  {
    var c := Config(1, 1, 2, 1, 64, 8, 4, 4, 4, PacketSize);
    var st := CreateBuffer(c, [0, 1]).(inputQueue := map[(1, 0) := 4]);
    assert QueueLen(st, 0, 0) == 0 && QueueLen(st, 1, 0) == 4;
    assert FlitCount(8, 64) == 1 && FlitCount(8, 8) == 1;
  }

  /** As written, the random policy admits a packet when any subnet has
      room, but `Push` makes only `_subnets` independent draws, which may
      all land on a full subnet: with two subnets, subnet 0's queue full,
      subnet 1's empty and both draws 0, `HasBuffer` holds and `Push`
      fails its `subnet >= 0` assertion. */
  lemma RandomAdmittedPushFails()
    ensures var c := Config(1, 1, 2, 1, 8, 8, 4, 4, 4, Random);
            var st := CreateBuffer(c, [0, 1]).(inputQueue := map[(0, 0) := 4]);
            ConfigOk(c) && ValidDevice(c, st, 0) && ValidDevice(c, st, 1) && DrawsOk(c, [0, 0]) &&
            HasBuffer(c, st, 0, 1) && !WithoutReplacement(c, [0, 0]) && !Drawn(c, [0, 0], 1) &&
            Push(c, st, 0, 1, ReadRequest, 1, [0, 0]) == Error("assert(subnet >= 0)")
  {
    var c := Config(1, 1, 2, 1, 8, 8, 4, 4, 4, Random);
    var st := CreateBuffer(c, [0, 1]).(inputQueue := map[(0, 0) := 4]);
    assert QueueLen(st, 0, 0) == 4 && QueueLen(st, 1, 0) == 0;
    assert FlitCount(8, 8) == 1;
    assert !NetworkHasBuffer(c, st, 0, 0, 1) && NetworkHasBuffer(c, st, 1, 0, 1);
    assert [0, 0][0] == [0, 0][1] == 0;
  }

  /** The draws the random policy needs for every admitted packet to find
      a subnet: the `_subnets` draws of one push are drawn without
      replacement, so no subnet is drawn twice. */
  predicate WithoutReplacement(c: Config, draws: seq<int>)
    requires |draws| >= c.subnets
  {
    forall i, j :: 0 <= i < j < c.subnets ==> draws[i] != draws[j]
  }

  /** Subnet `s` is among the `_subnets` draws of one push. */
  predicate Drawn(c: Config, draws: seq<int>, s: int)
    requires |draws| >= c.subnets
  {
    exists j :: 0 <= j < c.subnets && draws[j] == s
  }

  /** Under the random policy the trial loop asks the drawn subnets in
      order, leaving the state as it was: from iteration `net`, it finds a
      subnet iff one of the remaining draws names a subnet with room, and
      the subnet it finds is one of them. */
  lemma {:induction false} RandomTrial(c: Config, st: State, kind: PacketKind, dev: int, node: int,
                                       flits: nat, draws: seq<int>, net: nat)
    requires ConfigOk(c) && c.policy == Random && DrawsOk(c, draws)
    requires net <= c.subnets
    ensures var (s, st') := TrySubnets(c, st, kind, dev, node, flits, draws, net);
            st' == st &&
            (s >= 0 <==> exists j :: net <= j < c.subnets && NetworkHasBuffer(c, st, draws[j], node, flits)) &&
            (s >= 0 ==> NetworkHasBuffer(c, st, s, node, flits) && Drawn(c, draws, s))
    decreases c.subnets - net
  {
    if net < c.subnets {
      assert NetworkSelection(c, st, kind, dev, draws[net]) == (draws[net], st);
      if !NetworkHasBuffer(c, st, draws[net], node, flits) {
        RandomTrial(c, st, kind, dev, node, flits, draws, net + 1);
        if exists j :: net <= j < c.subnets && NetworkHasBuffer(c, st, draws[j], node, flits) {
          var j :| net <= j < c.subnets && NetworkHasBuffer(c, st, draws[j], node, flits);
          assert j != net;
        }
      }
    }
  }

  /** Distinct values in [0, m) number at most `m`. */
  lemma {:induction false} DistinctBound(xs: seq<int>, m: nat)
    requires forall i :: 0 <= i < |xs| ==> 0 <= xs[i] < m
    requires forall i, j :: 0 <= i < j < |xs| ==> xs[i] != xs[j]
    ensures |xs| <= m
    decreases |xs|
  {
    if |xs| > 0 {
      // Drop the last value, and let it stand in for `m - 1` if that occurs.
      var last := xs[|xs| - 1];
      var ys := seq(|xs| - 1, i requires 0 <= i < |xs| - 1 => if xs[i] == m - 1 then last else xs[i]);
      forall i | 0 <= i < |ys|
        ensures 0 <= ys[i] < m - 1
      {
      }
      forall i, j | 0 <= i < j < |ys|
        ensures ys[i] != ys[j]
      {
      }
      DistinctBound(ys, m - 1);
    }
  }

  /** `n` distinct values in [0, n) take every value in [0, n). */
  lemma DistinctFill(xs: seq<int>, n: nat)
    requires |xs| == n
    requires forall i :: 0 <= i < n ==> 0 <= xs[i] < n
    requires forall i, j :: 0 <= i < j < n ==> xs[i] != xs[j]
    ensures forall s :: 0 <= s < n ==> s in xs
  {
    forall s | 0 <= s < n
      ensures s in xs
    {
      if s !in xs {
        // Without `s`, the values would fit in [0, n - 1) with `s` standing in for `n - 1`.
        var zs := seq(n, i requires 0 <= i < n => if xs[i] == n - 1 then s else xs[i]);
        forall i | 0 <= i < n
          ensures 0 <= zs[i] < n - 1
        {
          assert xs[i] != s;
        }
        forall i, j | 0 <= i < j < n
          ensures zs[i] != zs[j]
        {
          assert xs[i] != s && xs[j] != s;
        }
        DistinctBound(zs, n - 1);
        assert false;
      }
    }
  }

  /** Draws without replacement name every subnet. */
  lemma WithoutReplacementCovers(c: Config, draws: seq<int>, s: int)
    requires DrawsOk(c, draws) && WithoutReplacement(c, draws) && 0 <= s < c.subnets
    ensures Drawn(c, draws, s)
  {
    DistinctFill(draws[..c.subnets], c.subnets);
    assert s in draws[..c.subnets];
    var j :| 0 <= j < c.subnets && draws[..c.subnets][j] == s;
    assert draws[j] == s;
  }

  /** Corrected: when one push draws its subnets without replacement, a
      packet `HasBuffer` admits under the random policy finds a subnet, so
      `Push` succeeds exactly when `HasBuffer` holds (the subnet it uses
      is one of the draws, by `RandomTrial`). */
  lemma RandomPushComplete(c: Config, st: State, src: int, dst: int, kind: PacketKind, size: nat,
                           draws: seq<int>)
    requires ConfigOk(c) && c.policy == Random
    requires ValidDevice(c, st, src) && ValidDevice(c, st, dst) && DrawsOk(c, draws)
    requires WithoutReplacement(c, draws)
    ensures Push(c, st, src, dst, kind, size, draws).Ok? <==> HasBuffer(c, st, src, size)
  {
    var node := st.nodeMap[src];
    var flits := PushFlits(c, size);
    RandomTrial(c, st, kind, src, node, flits, draws, 0);
    HasBufferMeaning(c, st, src, size);
    if HasBuffer(c, st, src, size) {
      var s :| 0 <= s < c.subnets && NetworkHasBuffer(c, st, s, node, flits);
      WithoutReplacementCovers(c, draws, s);
      var j :| 0 <= j < c.subnets && draws[j] == s;
      assert NetworkHasBuffer(c, st, draws[j], node, flits);
    }
  }
}

=== FILE: boundary_buffer.dfy ===
/** The packet reassembly buffer between the network and the host
    (`InterconnectInterface::_BoundaryBufferItem`).

    The source keeps two parallel queues, the flits' payload pointers and
    their tail flags, plus a count of complete packets. The model zips the
    two queues into one sequence of slots. Payload pointers are integers
    with 0 standing for NULL. */
module BoundaryBuffer {
  import opened Outcome

  /** A payload pointer; `Null` is the null pointer. */
  type Ptr = int
  const Null: Ptr := 0

  /** One buffered flit: its payload and whether it ends a packet. */
  datatype Slot = Slot(data: Ptr, tail: bool)

  /** `_buffer`/`_tail_flag` as one queue, front first, and `_packet_n`. */
  datatype Item = Item(slots: seq<Slot>, packets: int)

  /** A freshly constructed buffer. */
  const Empty: Item := Item([], 0)

  /** `Size()`: buffered flits. */
  function Size(b: Item): nat {
    |b.slots|
  }

  /** `HasPacket()`: some complete packet is buffered. */
  predicate HasPacket(b: Item) {
    b.packets != 0
  }

  /** Tail flits in a queue. */
  function TailCount(slots: seq<Slot>): nat {
    if |slots| == 0 then 0 else (if slots[0].tail then 1 else 0) + TailCount(slots[1..])
  }

  /** The packet count agrees with the buffered tail flits. */
  predicate Valid(b: Item) {
    b.packets == TailCount(b.slots)
  }

  /** Every buffered flit has a payload, and every flit that does not end a
      packet is followed by another flit of the same packet. */
  predicate Framed(slots: seq<Slot>) {
    (forall i :: 0 <= i < |slots| ==> slots[i].data != Null) &&
    (|slots| > 0 ==> slots[|slots| - 1].tail) &&
    (forall i, j :: 0 <= i < |slots| && j == i + 1 && j < |slots| && !slots[i].tail ==>
       slots[j].data == slots[i].data)
  }

  /** `PushFlitData`: the flit joins the back of the queue; a tail
      completes one more packet. */
  function PushFlitData(b: Item, data: Ptr, tail: bool): (b': Item)
    ensures Size(b') == Size(b) + 1 && b'.slots[Size(b)] == Slot(data, tail)
    ensures b'.slots[..Size(b)] == b.slots
    ensures b'.packets == b.packets + (if tail then 1 else 0)
  {
    Item(b.slots + [Slot(data, tail)], if tail then b.packets + 1 else b.packets)
  }

  lemma {:induction false} TailCountAppend(a: seq<Slot>, c: seq<Slot>)
    ensures TailCount(a + c) == TailCount(a) + TailCount(c)
  {
    if |a| > 0 {
      assert (a + c)[0] == a[0];
      assert (a + c)[1..] == a[1..] + c;
      TailCountAppend(a[1..], c);
    } else {
      assert a + c == c;
    }
  }

  /** Pushing keeps the packet count in step with the tails. */
  lemma PushPreservesValid(b: Item, data: Ptr, tail: bool)
    requires Valid(b)
    ensures Valid(PushFlitData(b, data, tail))
  {
    TailCountAppend(b.slots, [Slot(data, tail)]);
  }

  /** The body of `PopPacket`'s loop over the queue `slots`: each flit must
      carry the front flit's payload `first`; a tail flit ends one packet
      and, when its payload is not NULL, ends the loop. Running off the end
      of the queue reads the front of an empty queue. */
  function Drain(first: Ptr, slots: seq<Slot>, packets: int): Result<(Ptr, seq<Slot>, int)>
    decreases |slots|
  {
    if |slots| == 0 then Error("front() of an empty queue")
    else if slots[0].data != first then Error("all flits must belong to the same packet")
    else if slots[0].tail && slots[0].data != Null then Ok((slots[0].data, slots[1..], packets - 1))
    else Drain(first, slots[1..], if slots[0].tail then packets - 1 else packets)
  }

  /** `PopPacket`: takes one packet off the front and returns its payload.
      It asserts that a packet is buffered. */
  function PopPacket(b: Item): Result<(Ptr, Item)> {
    if b.packets == 0 then Error("assert(_packet_n)")
    else if |b.slots| == 0 then Error("front() of an empty queue")
    else
      match Drain(b.slots[0].data, b.slots, b.packets)
      case Error(e) => Error(e)
      case Ok((data, rest, packets)) => Ok((data, Item(rest, packets)))
  }

  /** Whatever the queue holds, a successful loop returns a non-null
      payload, leaves a proper suffix of the queue, and lowers the packet
      count by the tails it removed. */
  lemma {:induction false} DrainShrinks(first: Ptr, slots: seq<Slot>, packets: int)
    requires Drain(first, slots, packets).Ok?
    ensures var (d, rest, p) := Drain(first, slots, packets).value;
            d != Null && |rest| < |slots| && rest == slots[|slots| - |rest|..] &&
            packets - p == TailCount(slots) - TailCount(rest)
    decreases |slots|
  {
    if !(slots[0].tail && slots[0].data != Null) {
      var p1 := if slots[0].tail then packets - 1 else packets;
      DrainShrinks(first, slots[1..], p1);
      var rest := Drain(first, slots[1..], p1).value.1;
      assert slots[1..][|slots[1..]| - |rest|..] == slots[|slots| - |rest|..];
    }
  }

  /** A successful `PopPacket` keeps a valid buffer valid, makes it
      strictly smaller and returns a non-null payload. */
  lemma PopPacketShrinks(b: Item)
    requires Valid(b) && PopPacket(b).Ok?
    ensures PopPacket(b).value.0 != Null
    ensures Valid(PopPacket(b).value.1) && Size(PopPacket(b).value.1) < Size(b)
  {
    DrainShrinks(b.slots[0].data, b.slots, b.packets);
  }

  /** Some flit in the queue is a tail. */
  predicate HasTail(slots: seq<Slot>) {
    exists i :: 0 <= i < |slots| && slots[i].tail
  }

  /** The position of the first tail flit. */
  function FirstTail(slots: seq<Slot>): (t: nat)
    requires HasTail(slots)
    ensures t < |slots| && slots[t].tail
    ensures forall i :: 0 <= i < t ==> !slots[i].tail
  {
    if slots[0].tail then 0
    else
      assert HasTail(slots[1..]) by {
        var i :| 0 <= i < |slots| && slots[i].tail;
        assert slots[1..][i - 1] == slots[i];
      }
      1 + FirstTail(slots[1..])
  }

  lemma TailCountPositive(slots: seq<Slot>)
    requires TailCount(slots) > 0
    ensures HasTail(slots)
  {
    if !slots[0].tail {
      TailCountPositive(slots[1..]);
      var i :| 0 <= i < |slots[1..]| && slots[1..][i].tail;
      assert slots[i + 1].tail;
    }
  }

  /** On a framed queue whose front flit carries `first`, the loop stops at
      the first tail: everything up to it carries `first`, everything after
      it stays, and exactly one packet leaves. */
  lemma {:induction false} DrainFramed(first: Ptr, slots: seq<Slot>, packets: int)
    requires Framed(slots) && |slots| > 0 && slots[0].data == first && HasTail(slots)
    ensures Drain(first, slots, packets) == Ok((first, slots[FirstTail(slots) + 1..], packets - 1))
    ensures forall i :: 0 <= i <= FirstTail(slots) ==> slots[i].data == first
    ensures TailCount(slots[FirstTail(slots) + 1..]) == TailCount(slots) - 1
    decreases |slots|
  {
    FramedAt(slots, 0);
    if !slots[0].tail {
      var rest := slots[1..];
      FramedSuffix(slots, 1);
      assert HasTail(rest) && FirstTail(slots) == 1 + FirstTail(rest);
      DrainFramed(first, rest, packets);
      var t := FirstTail(rest);
      assert Drain(first, slots, packets) == Drain(first, rest, packets);
      assert TailCount(slots) == TailCount(rest);
      assert rest[t + 1..] == slots[t + 2..];
      forall i | 0 <= i <= t + 1
        ensures slots[i].data == first
      {
        if i > 0 {
          assert slots[i] == rest[i - 1];
        }
      }
    }
  }

  /** On a valid, framed buffer holding a packet, `PopPacket` returns the
      front packet's payload, removes exactly the flits up to and including
      the first tail (all of which carry that payload) and decrements the
      packet count by one; the result is again valid and framed. */
  lemma PopPacketFramed(b: Item)
    requires Valid(b) && Framed(b.slots) && HasPacket(b)
    ensures HasTail(b.slots) && b.slots[0].data != Null
    ensures PopPacket(b) == Ok((b.slots[0].data, Item(b.slots[FirstTail(b.slots) + 1..], b.packets - 1)))
    ensures forall i :: 0 <= i <= FirstTail(b.slots) ==> b.slots[i].data == b.slots[0].data
  {
    TailCountPositive(b.slots);
    FramedAt(b.slots, 0);
    var d := b.slots[0].data;
    DrainFramed(d, b.slots, b.packets);
    var t := FirstTail(b.slots);
    assert PopPacket(b) == Ok((d, Item(b.slots[t + 1..], b.packets - 1)));
  }

  /** What remains after that pop is again valid and framed. */
  lemma PopPacketKeepsFramed(b: Item)
    requires Valid(b) && Framed(b.slots) && HasPacket(b)
    ensures PopPacket(b).Ok?
    ensures Valid(PopPacket(b).value.1) && Framed(PopPacket(b).value.1.slots)
  {
    PopPacketFramed(b);
    DrainFramed(b.slots[0].data, b.slots, b.packets);
    FramedSuffix(b.slots, FirstTail(b.slots) + 1);
  }

  /** An unframed buffer can make `PopPacket` fail: a packet whose flits
      carry two different payloads trips the same-packet assertion. */
  lemma MixedPacketFails()
    ensures PopPacket(Item([Slot(1, false), Slot(2, true)], 1)).Error?
  {
  }

  /** The flits of one packet of `n` flits with payload `d`. */
  function Packet(d: Ptr, n: nat): (fs: seq<Slot>)
    ensures |fs| == n
    ensures forall i :: 0 <= i < n ==> fs[i] == Slot(d, i == n - 1)
  {
    seq(n, i requires 0 <= i < n => Slot(d, i == n - 1))
  }

  /** `PushFlitData` for each flit in turn. */
  function PushFlits(b: Item, fs: seq<Slot>): Item
    decreases |fs|
  {
    if |fs| == 0 then b
    else PushFlits(PushFlitData(b, fs[0].data, fs[0].tail), fs[1..])
  }

  lemma {:induction false} PushFlitsAppends(b: Item, fs: seq<Slot>)
    ensures PushFlits(b, fs).slots == b.slots + fs
    ensures PushFlits(b, fs).packets == b.packets + TailCount(fs)
    decreases |fs|
  {
    if |fs| > 0 {
      PushFlitsAppends(PushFlitData(b, fs[0].data, fs[0].tail), fs[1..]);
      assert b.slots + [fs[0]] + fs[1..] == b.slots + fs;
    }
  }

  lemma PacketTails(d: Ptr, n: nat)
    requires n >= 1
    ensures TailCount(Packet(d, n)) == 1
    ensures HasTail(Packet(d, n))
    ensures FirstTail(Packet(d, n)) == n - 1
  {
    var p := Packet(d, n);
    assert p[n - 1].tail;
    if n == 1 {
      assert p[1..] == [];
    } else {
      assert p[1..] == Packet(d, n - 1);
      PacketTails(d, n - 1);
    }
  }

  /** Reassembly round trip: the flits of one packet pushed into an empty
      buffer come back out as that packet's payload, leaving the buffer
      empty. */
  lemma PacketRoundTrip(d: Ptr, n: nat)
    requires d != Null && n >= 1
    ensures PopPacket(PushFlits(Empty, Packet(d, n))) == Ok((d, Empty))
  {
    var p := Packet(d, n);
    var b := Item(p, 1);
    PushPacket([], 0, d, n);
    assert [] + p == p;
    PacketTails(d, n);
    PopPacketFramed(b);
    assert p[n..] == [];
    assert PopPacket(b) == Ok((d, Empty));
  }

  /** First in, first out: pushing a complete packet behind the buffered
      ones does not change which packet `PopPacket` returns, and the new
      packet stays queued behind what remains. */
  lemma PopPacketFifo(b: Item, d: Ptr, n: nat)
    requires Valid(b) && Framed(b.slots) && HasPacket(b) && d != Null && n >= 1
    ensures PopPacket(b).Ok? && PopPacket(PushFlits(b, Packet(d, n))).Ok?
    ensures PopPacket(PushFlits(b, Packet(d, n))).value.0 == PopPacket(b).value.0
    ensures PopPacket(PushFlits(b, Packet(d, n))).value.1 == PushFlits(PopPacket(b).value.1, Packet(d, n))
  {
    PopPacketFramed(b);
    var p := Packet(d, n);
    var t := FirstTail(b.slots);
    var rest := Item(b.slots[t + 1..], b.packets - 1);
    PopAfterAppend(b, d, n);
    PushPacket(rest.slots, rest.packets, d, n);
  }

  /** Pushing a packet onto a buffer adds its flits and one packet. */
  lemma PushPacket(slots: seq<Slot>, packets: int, d: Ptr, n: nat)
    requires n >= 1
    ensures PushFlits(Item(slots, packets), Packet(d, n)) == Item(slots + Packet(d, n), packets + 1)
  {
    PushFlitsAppends(Item(slots, packets), Packet(d, n));
    PacketTails(d, n);
  }
  lemma PopAfterAppend(b: Item, d: Ptr, n: nat)
    requires Valid(b) && Framed(b.slots) && HasPacket(b) && d != Null && n >= 1
    ensures HasTail(b.slots)
    ensures PopPacket(PushFlits(b, Packet(d, n)))
            == Ok((b.slots[0].data, Item(b.slots[FirstTail(b.slots) + 1..] + Packet(d, n), b.packets)))
  {
    AppendPacketFramed(b, d, n);
    var p := Packet(d, n);
    var b2 := Item(b.slots + p, b.packets + 1);
    assert PushFlits(b, p) == b2;
    TailCountPositive(b.slots);
    var t := FirstTail(b.slots);
    FirstTailPrefix(b.slots, b2.slots);
    PopPacketFramed(b2);
    assert b2.slots[0] == b.slots[0];
    SliceAppend(b.slots, p, t + 1);
  }

  lemma SliceAppend(a: seq<Slot>, c: seq<Slot>, k: int)
    requires 0 <= k <= |a|
    ensures (a + c)[k..] == a[k..] + c
  {
  }

  /** Appending a complete packet to a valid, framed buffer keeps it valid
      and framed. */
  lemma AppendPacketFramed(b: Item, d: Ptr, n: nat)
    requires Valid(b) && Framed(b.slots) && d != Null && n >= 1
    ensures PushFlits(b, Packet(d, n)).slots == b.slots + Packet(d, n)
    ensures PushFlits(b, Packet(d, n)).packets == b.packets + 1
    ensures Valid(PushFlits(b, Packet(d, n))) && Framed(PushFlits(b, Packet(d, n)).slots)
  {
    var p := Packet(d, n);
    PushFlitsAppends(b, p);
    PacketTails(d, n);
    TailCountAppend(b.slots, p);
    var s := b.slots + p;
    forall i, j | 0 <= i && j == i + 1 && j < |s| && !s[i].tail
      ensures s[j].data == s[i].data
    {
      if i < |b.slots| - 1 {
        FramedAt(b.slots, i);
        assert s[j] == b.slots[j];
      } else if i == |b.slots| - 1 {
        FramedEndsWithTail(b.slots);
      } else {
        assert s[i] == p[i - |b.slots|];
        assert s[j] == p[j - |b.slots|];
      }
    }
    assert s[|s| - 1] == p[n - 1];
  }

  /** Extending a queue does not move its first tail. */
  lemma FirstTailPrefix(a: seq<Slot>, c: seq<Slot>)
    requires HasTail(a) && |a| <= |c| && forall i :: 0 <= i < |a| ==> c[i] == a[i]
    ensures HasTail(c) && FirstTail(c) == FirstTail(a)
  {
    var t := FirstTail(a);
    assert c[t].tail;
  }

  /** A framed queue never ends in the middle of a packet. */
  lemma FramedEndsWithTail(s: seq<Slot>)
    requires Framed(s) && |s| > 0
    ensures s[|s| - 1].tail
  {
    FramedAt(s, |s| - 1);
  }

  lemma FramedAt(s: seq<Slot>, i: int)
    requires Framed(s) && 0 <= i < |s|
    ensures s[i].data != Null
    ensures !s[i].tail ==> i + 1 < |s| && s[i + 1].data == s[i].data
  {
    if !s[i].tail && i + 1 < |s| {
      var j := i + 1;
      assert s[j].data == s[i].data;
    }
  }

  /** Dropping whole flits from the front keeps a queue framed. */
  lemma FramedSuffix(s: seq<Slot>, k: int)
    requires Framed(s) && 0 <= k <= |s|
    ensures Framed(s[k..])
  {
    var r := s[k..];
    forall i, j | 0 <= i && j == i + 1 && j < |r| && !r[i].tail
      ensures r[j].data == r[i].data
    {
      assert r[i] == s[i + k] && r[j] == s[j + k];
      FramedAt(s, i + k);
    }
    if |r| > 0 {
      assert r[|r| - 1] == s[|s| - 1];
    }
  }
}

=== FILE: cpp_int.dfy ===
/** C++ integer semantics that differ from Dafny's mathematical integers,
    and the small facts about Dafny's own division the proofs rely on. */
module CppInt {

  /** Division as C++ performs it on `int`: the quotient is truncated
      toward zero (Dafny's own `/` is Euclidean). */
  function Quot(a: int, b: int): (q: int)
    requires b > 0
    ensures a >= 0 ==> q * b <= a < q * b + b
    ensures a < 0 ==> q * b - b < a <= q * b
  {
    if a >= 0 then a / b else -((-a) / b)
  }

  /** The C++ remainder `a % b`, whose sign follows the dividend. */
  function Rem(a: int, b: int): (r: int)
    requires b > 0
    ensures a >= 0 ==> 0 <= r < b
    ensures a < 0 ==> -b < r <= 0
    ensures a == Quot(a, b) * b + r
  {
    a - Quot(a, b) * b
  }

  /** On a non-negative dividend the C++ and Dafny operators agree. */
  lemma QuotRemNonNegative(a: int, b: int)
    requires a >= 0 && b > 0
    ensures Quot(a, b) == a / b && Rem(a, b) == a % b
  {
  }

  /** The 16-bit `short` the vertical channel stores its coordinates in. */
  type Short = v: int | -0x8000 <= v < 0x8000

  /** Conversion of an `int` argument to a `short` parameter: the value is
      taken modulo 2^16 into the signed range. */
  function ToShort(v: int): (r: Short)
    ensures (v - r) % 0x1_0000 == 0
    ensures -0x8000 <= v < 0x8000 ==> r == v
  {
    (v + 0x8000) % 0x1_0000 - 0x8000
  }

  /** `a == q * b + r` with `0 <= r < b` determines quotient and remainder. */
  lemma DivModUnique(a: int, b: int, q: int, r: int)
    requires b > 0 && 0 <= r < b && a == q * b + r
    ensures a / b == q && a % b == r
  {
    var d := q - a / b;
    assert d * b == q * b - (a / b) * b;
    assert d * b == a % b - r;
    if d >= 1 {
      MulMono(1, d, b);
    } else if d <= -1 {
      MulMono(d, -1, b);
    }
  }

  /** A non-negative dividend has a non-negative quotient. */
  lemma DivNonNegative(a: int, b: int)
    requires a >= 0 && b > 0
    ensures a / b >= 0 && 0 <= a % b < b && a == a / b * b + a % b
  {
    if a / b < 0 {
      MulMono(a / b, -1, b);
    }
  }

  lemma MulMono(a: int, b: int, c: int)
    requires a <= b && c >= 0
    ensures c * a <= c * b
  {
  }
}

=== FILE: delivery.dfy ===
/** Delivery to the host: `InterconnectInterface::Pop`, which hands one
    reassembled packet of an interface node to its device, and `Busy`,
    which says whether the interconnect still holds work.

    `Pop` scans the subnets round robin, starting at the node's subnet
    cursor, and within each subnet scans the VCs round robin, starting at
    that subnet's VC cursor. The first buffer holding a packet is served.
    The source then stores the advanced VC cursor under the NEXT subnet
    (the one the subnet cursor moves to), not under the subnet served;
    `Pop` keeps that, and `PopStarves` shows the pairs it then starves.
    `PopFair` stores the cursor under the subnet served, and
    `PopFairServesEach` shows it serves every pair in turn. */
module Delivery {
  import opened Outcome
  import opened CppInt
  import opened Ring
  import opened BoundaryBuffer
  import opened Interconnect

  /** A packet the scan found: the subnet and VC it came from, its payload,
      the buffer without it, and the VC cursor after the hit. */
  datatype Hit = Hit(subnet: int, vc: int, data: Ptr, rest: Item, turn: int)

  /** The VC loop of one subnet: `left` VCs still to look at, starting at
      `turn`. A buffer with a packet ends the loop; `PopPacket` failing is
      an error. */
  function ScanVcs(c: Config, st: State, s: int, node: int, turn: int, left: nat): Result<Option<Hit>>
    decreases left
  {
    if left == 0 then Ok(None)
    else if HasPacket(Boundary(st, s, node, turn)) then
      match PopPacket(Boundary(st, s, node, turn))
      case Error(e) => Error(e)
      case Ok((d, rest)) => Ok(Some(Hit(s, turn, d, rest, Next(turn, c.vcs))))
    else ScanVcs(c, st, s, node, Next(turn, c.vcs), left - 1)
  }

  /** The subnet loop: `left` subnets still to scan, starting at `s`. */
  function ScanSubnets(c: Config, st: State, node: int, s: int, left: nat): Result<Option<Hit>>
    requires c.vcs >= 0
    decreases left
  {
    if left == 0 then Ok(None)
    else
      match ScanVcs(c, st, s, node, Turn(st, s, node), c.vcs)
      case Error(e) => Error(e)
      case Ok(Some(h)) => Ok(Some(h))
      case Ok(None) => ScanSubnets(c, st, node, Next(s, c.subnets), left - 1)
  }

  /** `Pop(deviceID)`: the payload of the packet served (`None` for NULL)
      and the interface afterwards. */
  function Pop(c: Config, st: State, dev: int): (r: Result<(Option<Ptr>, State)>)
    requires ConfigOk(c) && ValidDevice(c, st, dev)
    ensures r.Ok? ==> r.value.1.nodeMap == st.nodeMap
  {
    var node := st.nodeMap[dev];
    match ScanSubnets(c, st, node, SubnetTurn(st, node), c.subnets)
    case Error(e) => Error(e)
    case Ok(None) => Ok((None, st))
    case Ok(Some(h)) =>
      var next := Next(h.subnet, c.subnets);
      Ok((Some(h.data),
          st.(boundary := st.boundary[(h.subnet, node, h.vc) := h.rest],
              rrTurn := st.rrTurn[(next, node) := h.turn],
              rrSubnetTurn := st.rrSubnetTurn[node := next])))
  }

  /** No VC of subnet `s` holds a packet for `node`. */
  predicate Idle(c: Config, st: State, s: int, node: int) {
    forall v :: 0 <= v < c.vcs ==> !HasPacket(Boundary(st, s, node, v))
  }

  /** Every buffer of `node` counts its packets right and holds whole
      packets of non-null payloads, as the network delivers them. */
  predicate Ready(c: Config, st: State, node: int) {
    forall s, v :: 0 <= s < c.subnets && 0 <= v < c.vcs ==>
      Valid(Boundary(st, s, node, v)) && Framed(Boundary(st, s, node, v).slots)
  }

  /** The node's subnet cursor and VC cursors are in range. */
  predicate CursorsOk(c: Config, st: State, node: int) {
    0 <= SubnetTurn(st, node) < c.subnets &&
    forall s :: 0 <= s < c.subnets ==> 0 <= Turn(st, s, node) < c.vcs
  }

  /** `h` is what the VC loop of subnet `s` must serve within `left` steps
      from `turn`: the first VC around the ring holding a packet, popped. */
  ghost predicate FirstVc(c: Config, st: State, s: int, node: int, turn: int, left: int, h: Hit)
    requires c.vcs > 0
  {
    0 <= h.vc < c.vcs && h.subnet == s && Offset(turn, h.vc, c.vcs) < left &&
    (forall k :: 0 <= k < Offset(turn, h.vc, c.vcs) ==>
       !HasPacket(Boundary(st, s, node, RingAt(turn, k, c.vcs)))) &&
    HasPacket(Boundary(st, s, node, h.vc)) &&
    PopPacket(Boundary(st, s, node, h.vc)) == Ok((h.data, h.rest)) &&
    h.turn == Next(h.vc, c.vcs)
  }

  /** The VC loop serves the first VC around the ring from `turn` that
      holds a packet, or reports that none of the `left` VCs it looked at
      holds one. */
  lemma {:induction false} ScanVcsSound(c: Config, st: State, s: int, node: int, turn: int, left: nat)
    requires c.vcs > 0 && 0 <= turn < c.vcs
    ensures var r := ScanVcs(c, st, s, node, turn, left);
            (r == Ok(None) ==> forall k :: 0 <= k < left ==>
               !HasPacket(Boundary(st, s, node, RingAt(turn, k, c.vcs)))) &&
            (r.Ok? && r.value.Some? ==> FirstVc(c, st, s, node, turn, left, r.value.value))
    decreases left
  {
    var n := c.vcs;
    RingStart(turn, n);
    if left > 0 && !HasPacket(Boundary(st, s, node, turn)) {
      var t1 := Next(turn, n);
      ScanVcsSound(c, st, s, node, t1, left - 1);
      forall k | 0 <= k
        ensures RingAt(t1, k, n) == RingAt(turn, k + 1, n)
      {
        NextIsRingStep(turn, k, n);
      }
      var r := ScanVcs(c, st, s, node, t1, left - 1);
      if r.Ok? && r.value.Some? {
        var h := r.value.value;
        OffsetNext(turn, h.vc, n);
        forall k | 0 <= k < Offset(turn, h.vc, n)
          ensures !HasPacket(Boundary(st, s, node, RingAt(turn, k, n)))
        {
          if k > 0 {
            assert RingAt(turn, k, n) == RingAt(t1, k - 1, n);
          }
        }
      }
      if r == Ok(None) {
        forall k | 0 <= k < left
          ensures !HasPacket(Boundary(st, s, node, RingAt(turn, k, n)))
        {
          if k > 0 {
            assert RingAt(turn, k, n) == RingAt(t1, k - 1, n);
          }
        }
      }
    } else if left > 0 {
      RingOffset(turn, 0, n);
    }
  }

  /** On well-formed buffers the VC loop never fails. */
  lemma {:induction false} ScanVcsOk(c: Config, st: State, s: int, node: int, turn: int, left: nat)
    requires ConfigOk(c) && Ready(c, st, node) && 0 <= s < c.subnets && 0 <= turn < c.vcs
    ensures ScanVcs(c, st, s, node, turn, left).Ok?
    decreases left
  {
    if left > 0 {
      if HasPacket(Boundary(st, s, node, turn)) {
        PopPacketFramed(Boundary(st, s, node, turn));
      } else {
        ScanVcsOk(c, st, s, node, Next(turn, c.vcs), left - 1);
      }
    }
  }

  /** A full lap of the VC loop that finds nothing means the subnet is
      idle. */
  lemma LapIdle(c: Config, st: State, s: int, node: int, turn: int)
    requires c.vcs > 0 && 0 <= turn < c.vcs
    requires forall k :: 0 <= k < c.vcs ==> !HasPacket(Boundary(st, s, node, RingAt(turn, k, c.vcs)))
    ensures Idle(c, st, s, node)
  {
    forall v | 0 <= v < c.vcs
      ensures !HasPacket(Boundary(st, s, node, v))
    {
      RingCovers(turn, v, c.vcs);
    }
  }

  /** `h` is what the subnet loop must serve within `left` subnets from
      `start`: the first subnet around the ring that is not idle, served by
      its own VC loop. */
  ghost predicate FirstSubnet(c: Config, st: State, node: int, start: int, left: int, h: Hit)
    requires ConfigOk(c)
  {
    0 <= h.subnet < c.subnets && Offset(start, h.subnet, c.subnets) < left &&
    (forall k :: 0 <= k < Offset(start, h.subnet, c.subnets) ==>
       Idle(c, st, RingAt(start, k, c.subnets), node)) &&
    FirstVc(c, st, h.subnet, node, Turn(st, h.subnet, node), c.vcs, h)
  }

  /** The subnet loop serves the first subnet around the ring from `start`
      that holds a packet, or reports that all `left` it scanned are
      idle. */
  lemma {:induction false} ScanSubnetsSound(c: Config, st: State, node: int, start: int, left: nat)
    requires ConfigOk(c) && CursorsOk(c, st, node) && 0 <= start < c.subnets
    ensures var r := ScanSubnets(c, st, node, start, left);
            (r == Ok(None) ==> forall k :: 0 <= k < left ==> Idle(c, st, RingAt(start, k, c.subnets), node)) &&
            (r.Ok? && r.value.Some? ==> FirstSubnet(c, st, node, start, left, r.value.value))
    decreases left
  {
    var n := c.subnets;
    RingStart(start, n);
    if left > 0 {
      var turn := Turn(st, start, node);
      ScanVcsSound(c, st, start, node, turn, c.vcs);
      var rv := ScanVcs(c, st, start, node, turn, c.vcs);
      if rv.Ok? && rv.value.Some? {
        RingOffset(start, 0, n);
      } else if rv == Ok(None) {
        LapIdle(c, st, start, node, turn);
        var s1 := Next(start, n);
        ScanSubnetsSound(c, st, node, s1, left - 1);
        forall k | 0 <= k
          ensures RingAt(s1, k, n) == RingAt(start, k + 1, n)
        {
          NextIsRingStep(start, k, n);
        }
        var r := ScanSubnets(c, st, node, s1, left - 1);
        if r.Ok? && r.value.Some? {
          var h := r.value.value;
          assert h.subnet != start;
          OffsetNext(start, h.subnet, n);
          forall k | 0 <= k < Offset(start, h.subnet, n)
            ensures Idle(c, st, RingAt(start, k, n), node)
          {
            if k > 0 {
              assert RingAt(start, k, n) == RingAt(s1, k - 1, n);
            }
          }
        }
        if r == Ok(None) {
          forall k | 0 <= k < left
            ensures Idle(c, st, RingAt(start, k, n), node)
          {
            if k > 0 {
              assert RingAt(start, k, n) == RingAt(s1, k - 1, n);
            }
          }
        }
      }
    }
  }

  /** On well-formed buffers the subnet loop never fails. */
  lemma {:induction false} ScanSubnetsOk(c: Config, st: State, node: int, start: int, left: nat)
    requires ConfigOk(c) && Ready(c, st, node) && CursorsOk(c, st, node) && 0 <= start < c.subnets
    ensures ScanSubnets(c, st, node, start, left).Ok?
    decreases left
  {
    if left > 0 {
      ScanVcsOk(c, st, start, node, Turn(st, start, node), c.vcs);
      ScanSubnetsOk(c, st, node, Next(start, c.subnets), left - 1);
    }
  }

  /** Some buffer of `node` on some subnet holds a packet. */
  predicate PacketWaiting(c: Config, st: State, node: int) {
    exists s, v :: 0 <= s < c.subnets && 0 <= v < c.vcs && HasPacket(Boundary(st, s, node, v))
  }

  /** On well-formed buffers with cursors in range, `Pop` never fails, and
      it returns a payload exactly when some buffer of the device's node
      holds a packet; when it returns none, nothing changes. */
  lemma PopComplete(c: Config, st: State, dev: int)
    requires ConfigOk(c) && ValidDevice(c, st, dev)
    requires Ready(c, st, st.nodeMap[dev]) && CursorsOk(c, st, st.nodeMap[dev])
    ensures Pop(c, st, dev).Ok?
    ensures Pop(c, st, dev).value.0.Some? <==> PacketWaiting(c, st, st.nodeMap[dev])
    ensures Pop(c, st, dev).value.0.None? ==> Pop(c, st, dev).value.1 == st
  {
    var node := st.nodeMap[dev];
    var start := SubnetTurn(st, node);
    ScanSubnetsOk(c, st, node, start, c.subnets);
    ScanSubnetsSound(c, st, node, start, c.subnets);
    var r := ScanSubnets(c, st, node, start, c.subnets);
    if r == Ok(None) && PacketWaiting(c, st, node) {
      var s, v :| 0 <= s < c.subnets && 0 <= v < c.vcs && HasPacket(Boundary(st, s, node, v));
      RingCovers(start, s, c.subnets);
      assert false;
    }
  }

  /** What a successful `Pop` did when it served VC `v` of subnet `s`:
      it returned the payload `PopPacket` takes off that buffer, left the
      rest in its place, moved the subnet cursor to the next subnet and
      stored the advanced VC cursor under that next subnet; no other
      buffer, cursor, queue or node mapping changed. */
  ghost predicate PoppedFrom(c: Config, st: State, st': State, node: int, s: int, v: int, d: Ptr)
    requires ConfigOk(c)
  {
    0 <= s < c.subnets && 0 <= v < c.vcs &&
    HasPacket(Boundary(st, s, node, v)) &&
    PopPacket(Boundary(st, s, node, v)) == Ok((d, Boundary(st', s, node, v))) &&
    (forall s', n, v' :: (s', n, v') != (s, node, v) ==> Boundary(st', s', n, v') == Boundary(st, s', n, v')) &&
    SubnetTurn(st', node) == Next(s, c.subnets) &&
    (forall n :: n != node ==> SubnetTurn(st', n) == SubnetTurn(st, n)) &&
    Turn(st', Next(s, c.subnets), node) == Next(v, c.vcs) &&
    (forall s', n :: (s', n) != (Next(s, c.subnets), node) ==> Turn(st', s', n) == Turn(st, s', n)) &&
    st'.inputQueue == st.inputQueue && st'.ejection == st.ejection && st'.ejected == st.ejected &&
    st'.gSubnet == st.gSubnet && st'.nodeMap == st.nodeMap
  }

  /** The buffer served is the first with a packet in scan order: every
      subnet the scan passed over was idle, and within the subnet served
      every VC passed over held no packet. */
  ghost predicate ServedInTurn(c: Config, st: State, node: int, s: int, v: int)
    requires ConfigOk(c)
  {
    var start := SubnetTurn(st, node);
    var turn := Turn(st, s, node);
    (forall k :: 0 <= k < Offset(start, s, c.subnets) ==> Idle(c, st, RingAt(start, k, c.subnets), node)) &&
    (forall k :: 0 <= k < Offset(turn, v, c.vcs) ==> !HasPacket(Boundary(st, s, node, RingAt(turn, k, c.vcs))))
  }

  /** With cursors in range, a payload `Pop` returns comes from exactly one
      buffer, the first in scan order, which loses exactly its front
      packet; the cursors move as described by `PoppedFrom`. */
  lemma PopServes(c: Config, st: State, dev: int)
    requires ConfigOk(c) && ValidDevice(c, st, dev) && CursorsOk(c, st, st.nodeMap[dev])
    requires Pop(c, st, dev).Ok? && Pop(c, st, dev).value.0.Some?
    ensures exists s, v :: PoppedFrom(c, st, Pop(c, st, dev).value.1, st.nodeMap[dev], s, v, Pop(c, st, dev).value.0.value) &&
                           ServedInTurn(c, st, st.nodeMap[dev], s, v)
  {
    var node := st.nodeMap[dev];
    var start := SubnetTurn(st, node);
    ScanSubnetsSound(c, st, node, start, c.subnets);
    var h := ScanSubnets(c, st, node, start, c.subnets).value.value;
    var next := Next(h.subnet, c.subnets);
    var st' := st.(boundary := st.boundary[(h.subnet, node, h.vc) := h.rest],
                   rrTurn := st.rrTurn[(next, node) := h.turn],
                   rrSubnetTurn := st.rrSubnetTurn[node := next]);
    assert Pop(c, st, dev) == Ok((Some(h.data), st'));
    HitPopped(c, st, st', node, h);
    assert ServedInTurn(c, st, node, h.subnet, h.vc);
  }

  /** Storing a hit's buffer and cursors is a pop from that buffer. */
  lemma HitPopped(c: Config, st: State, st': State, node: int, h: Hit)
    requires ConfigOk(c)
    requires 0 <= h.subnet < c.subnets && 0 <= h.vc < c.vcs && h.turn == Next(h.vc, c.vcs)
    requires HasPacket(Boundary(st, h.subnet, node, h.vc))
    requires PopPacket(Boundary(st, h.subnet, node, h.vc)) == Ok((h.data, h.rest))
    requires st' == st.(boundary := st.boundary[(h.subnet, node, h.vc) := h.rest],
                        rrTurn := st.rrTurn[(Next(h.subnet, c.subnets), node) := h.turn],
                        rrSubnetTurn := st.rrSubnetTurn[node := Next(h.subnet, c.subnets)])
    ensures PoppedFrom(c, st, st', node, h.subnet, h.vc, h.data)
  {
    assert Boundary(st', h.subnet, node, h.vc) == h.rest;
  }

  /** `Pop` keeps the interface invariant. */
  lemma PopInv(c: Config, st: State, dev: int)
    requires ConfigOk(c) && ValidDevice(c, st, dev) && Inv(c, st)
    requires Pop(c, st, dev).Ok?
    ensures Inv(c, Pop(c, st, dev).value.1)
  {
    var node := st.nodeMap[dev];
    var start := SubnetTurn(st, node);
    ScanSubnetsSound(c, st, node, start, c.subnets);
    var r := ScanSubnets(c, st, node, start, c.subnets);
    if r.value.Some? {
      HitInv(c, st, node, r.value.value);
    }
  }

  /** Storing a hit's buffer and cursors keeps the invariant. */
  lemma HitInv(c: Config, st: State, node: int, h: Hit)
    requires ConfigOk(c) && Inv(c, st) && 0 <= node < Nodes(c)
    requires 0 <= h.subnet < c.subnets && 0 <= h.vc < c.vcs && h.turn == Next(h.vc, c.vcs)
    requires PopPacket(Boundary(st, h.subnet, node, h.vc)) == Ok((h.data, h.rest))
    ensures var next := Next(h.subnet, c.subnets);
            Inv(c, st.(boundary := st.boundary[(h.subnet, node, h.vc) := h.rest],
                       rrTurn := st.rrTurn[(next, node) := h.turn],
                       rrSubnetTurn := st.rrSubnetTurn[node := next]))
  {
    var next := Next(h.subnet, c.subnets);
    var st' := st.(boundary := st.boundary[(h.subnet, node, h.vc) := h.rest],
                   rrTurn := st.rrTurn[(next, node) := h.turn],
                   rrSubnetTurn := st.rrSubnetTurn[node := next]);
    PopPacketShrinks(Boundary(st, h.subnet, node, h.vc));
    forall s, n, v
      ensures Valid(Boundary(st', s, n, v)) && Size(Boundary(st', s, n, v)) <= c.boundaryCapacity
    {
      if (s, n, v) != (h.subnet, node, h.vc) {
        assert Boundary(st', s, n, v) == Boundary(st, s, n, v);
      }
    }
    forall s, n, v
      ensures |Ejection(st', s, n, v)| <= c.ejectionCapacity
    {
      assert Ejection(st', s, n, v) == Ejection(st, s, n, v);
    }
    forall n | 0 <= n < Nodes(c)
      ensures 0 <= SubnetTurn(st', n) < c.subnets
    {
      if n != node {
        assert SubnetTurn(st', n) == SubnetTurn(st, n);
      }
    }
    forall s, n | 0 <= s < c.subnets && 0 <= n < Nodes(c)
      ensures 0 <= Turn(st', s, n) < c.vcs
    {
      if (s, n) != (next, node) {
        assert Turn(st', s, n) == Turn(st, s, n);
      }
    }
  }

  /** `k` successive applications of `step`: what each returned, in order,
      and the state after the last. The first error ends the run. */
  function Iterate(step: State -> Result<(Option<Ptr>, State)>, st: State, k: nat): (r: Result<(seq<Option<Ptr>>, State)>)
    ensures r.Ok? ==> |r.value.0| == k
    decreases k
  {
    if k == 0 then Ok(([], st))
    else
      match Iterate(step, st, k - 1)
      case Error(e) => Error(e)
      case Ok((ds, st1)) =>
        match step(st1)
        case Error(e) => Error(e)
        case Ok((d, st2)) => Ok((ds + [d], st2))
  }

  /** One `Pop` of device `dev`, as a step for `Iterate`. */
  function PopStep(c: Config, dev: int): State -> Result<(Option<Ptr>, State)> {
    st => if ConfigOk(c) && ValidDevice(c, st, dev) then Pop(c, st, dev) else Error("device out of range")
  }

  /** `k` successive pops of one device: the payloads in the order they
      were returned, and the interface afterwards. */
  function Pops(c: Config, st: State, dev: int, k: nat): (r: Result<(seq<Option<Ptr>>, State)>)
    requires ConfigOk(c) && ValidDevice(c, st, dev)
    ensures r.Ok? ==> |r.value.0| == k
  {
    Iterate(PopStep(c, dev), st, k)
  }

  /** A buffer of two one-flit packets, both carrying payload `d`. */
  function TwoPackets(d: Ptr): Item {
    Item([Slot(d, true), Slot(d, true)], 2)
  }

  /** `a` steps returning `ds` followed by `b` steps returning `es` are
      `a + b` steps returning `ds + es`. */
  lemma {:induction false} IterateSplit(step: State -> Result<(Option<Ptr>, State)>, st: State, a: nat, b: nat,
                                        ds: seq<Option<Ptr>>, st1: State, es: seq<Option<Ptr>>, st2: State)
    requires Iterate(step, st, a) == Ok((ds, st1))
    requires Iterate(step, st1, b) == Ok((es, st2))
    ensures Iterate(step, st, a + b) == Ok((ds + es, st2))
    decreases b
  {
    if b == 0 {
      assert ds + es == ds;
    } else {
      var (es', st') := Iterate(step, st1, b - 1).value;
      IterateSplit(step, st, a, b - 1, ds, st1, es', st');
      var (e, _) := step(st').value;
      assert (ds + es') + [e] == ds + (es' + [e]);
    }
  }

  /** Two subnets of two VCs, one node. */
  function StarveConfig(): Config {
    Config(1, 0, 2, 2, 8, 8, 4, 8, 8, RoundRobin)
  }

  /** Every buffer of node 0 holds two one-flit packets, payload
      `10 * subnet + vc + 1`, and every cursor is at zero. */
  function StarveStart(): State {
    CreateBuffer(StarveConfig(), [0]).(boundary := map[(0, 0, 0) := TwoPackets(1), (0, 0, 1) := TwoPackets(2),
                                                         (1, 0, 0) := TwoPackets(11), (1, 0, 1) := TwoPackets(12)])
  }

  /** The interface after two pops from `StarveStart`. */
  function StarveMiddle(): State {
    StarveStart().(boundary := StarveStart().boundary[(0, 0, 0) := Item([Slot(1, true)], 1)]
                                                     [(1, 0, 1) := Item([Slot(12, true)], 1)],
                   rrTurn := map[(1, 0) := 1][(0, 0) := 0],
                   rrSubnetTurn := map[0 := 1][0 := 0])
  }

  /** The interface after two more pops. */
  function StarveEnd(): State {
    StarveMiddle().(boundary := StarveMiddle().boundary[(0, 0, 0) := Item([], 0)][(1, 0, 1) := Item([], 0)],
                    rrTurn := StarveMiddle().rrTurn[(1, 0) := 1][(0, 0) := 0],
                    rrSubnetTurn := StarveMiddle().rrSubnetTurn[0 := 1][0 := 0])
  }

  lemma StarveFirstHalf()
    ensures ConfigOk(StarveConfig()) && ValidDevice(StarveConfig(), StarveStart(), 0)
    ensures Pops(StarveConfig(), StarveStart(), 0, 2) == Ok(([Some(1), Some(12)], StarveMiddle()))
  {
    var c, st := StarveConfig(), StarveStart();
    var b := [Slot(1, true), Slot(1, true)];
    var e := [Slot(12, true), Slot(12, true)];
    var st1 := st.(boundary := st.boundary[(0, 0, 0) := Item(b[1..], 1)],
                   rrTurn := st.rrTurn[(1, 0) := 1], rrSubnetTurn := st.rrSubnetTurn[0 := 1]);
    assert Pop(c, st, 0) == Ok((Some(1), st1));
    assert Pops(c, st, 0, 0) == Ok(([], st));
    assert [] + [Some(1)] == [Some(1)];
    assert Pops(c, st, 0, 1) == Ok(([Some(1)], st1));
    var st2 := st1.(boundary := st1.boundary[(1, 0, 1) := Item(e[1..], 1)],
                    rrTurn := st1.rrTurn[(0, 0) := 0], rrSubnetTurn := st1.rrSubnetTurn[0 := 0]);
    assert Pop(c, st1, 0) == Ok((Some(12), st2));
    assert b[1..] == [Slot(1, true)] && e[1..] == [Slot(12, true)];
    assert st2 == StarveMiddle();
    assert [Some(1)] + [Some(12)] == [Some(1), Some(12)];
  }

  lemma StarveSecondHalf()
    ensures ConfigOk(StarveConfig()) && ValidDevice(StarveConfig(), StarveMiddle(), 0)
    ensures Pops(StarveConfig(), StarveMiddle(), 0, 2) == Ok(([Some(1), Some(12)], StarveEnd()))
  {
    var c, st := StarveConfig(), StarveMiddle();
    var b, e := [Slot(1, true)], [Slot(12, true)];
    assert b[1..] == [] && e[1..] == [];
    var st1 := st.(boundary := st.boundary[(0, 0, 0) := Item([], 0)],
                   rrTurn := st.rrTurn[(1, 0) := 1], rrSubnetTurn := st.rrSubnetTurn[0 := 1]);
    assert Pop(c, st, 0) == Ok((Some(1), st1));
    assert Pops(c, st, 0, 0) == Ok(([], st));
    assert [] + [Some(1)] == [Some(1)];
    assert Pops(c, st, 0, 1) == Ok(([Some(1)], st1));
    var st2 := st1.(boundary := st1.boundary[(1, 0, 1) := Item([], 0)],
                    rrTurn := st1.rrTurn[(0, 0) := 0], rrSubnetTurn := st1.rrSubnetTurn[0 := 0]);
    assert Pop(c, st1, 0) == Ok((Some(12), st2));
    assert st2 == StarveEnd();
    assert [Some(1)] + [Some(12)] == [Some(1), Some(12)];
  }

  /** In the starvation example, the two buffers `Pop` never reaches keep
      both their packets, and the cursors after four pops are those after
      two. */
  lemma StarveCursors()
    ensures Boundary(StarveEnd(), 0, 0, 1) == TwoPackets(2) && Boundary(StarveEnd(), 1, 0, 0) == TwoPackets(11)
    ensures SubnetTurn(StarveMiddle(), 0) == SubnetTurn(StarveEnd(), 0) == 0
    ensures Turn(StarveMiddle(), 0, 0) == Turn(StarveEnd(), 0, 0) == 0
    ensures Turn(StarveMiddle(), 1, 0) == Turn(StarveEnd(), 1, 0) == 1
  {
  }

  /** As written, `Pop` is not fair across (subnet, VC) pairs. With two
      subnets of two VCs, every buffer of node 0 holding two packets and
      every cursor at zero, the VC cursor advanced in subnet 0 is stored
      under subnet 1 and the other way round, so the pops alternate
      between (0, 0) and (1, 1): payloads 1, 12, 1, 12. Four pops leave
      (0, 1) and (1, 0) untouched (`StarveCursors`), and after every
      second pop the cursors are back at subnet 0, VC 0 and subnet 1,
      VC 1. */
  lemma PopStarves()
    ensures ConfigOk(StarveConfig()) && ValidDevice(StarveConfig(), StarveStart(), 0)
    ensures Pops(StarveConfig(), StarveStart(), 0, 4) == Ok(([Some(1), Some(12), Some(1), Some(12)], StarveEnd()))
  {
    StarveFirstHalf();
    StarveSecondHalf();
    StarveCompose(PopStep(StarveConfig(), 0), StarveStart(), StarveMiddle(), StarveEnd());
  }

  /** Two pops returning 1 and 12, twice over, are four. */
  lemma StarveCompose(step: State -> Result<(Option<Ptr>, State)>, st: State, st1: State, st2: State)
    requires Iterate(step, st, 2) == Ok(([Some(1), Some(12)], st1))
    requires Iterate(step, st1, 2) == Ok(([Some(1), Some(12)], st2))
    ensures Iterate(step, st, 4) == Ok(([Some(1), Some(12), Some(1), Some(12)], st2))
  {
    IterateSplit(step, st, 2, 2, [Some(1), Some(12)], st1, [Some(1), Some(12)], st2);
    assert [Some(1), Some(12)] + [Some(1), Some(12)] == [Some(1), Some(12), Some(1), Some(12)];
  }

  /** When the buffer under both of the node's cursors holds a packet, the
      scan serves that buffer at once. */
  lemma CursorScan(c: Config, st: State, node: int)
    requires ConfigOk(c) && CursorsOk(c, st, node)
    requires var g := SubnetTurn(st, node);
             var b := Boundary(st, g, node, Turn(st, g, node));
             Valid(b) && Framed(b.slots) && HasPacket(b)
    ensures var g := SubnetTurn(st, node);
            var t := Turn(st, g, node);
            var b := Boundary(st, g, node, t);
            PopPacket(b).Ok? && Valid(PopPacket(b).value.1) && Framed(PopPacket(b).value.1.slots) &&
            ScanSubnets(c, st, node, g, c.subnets)
            == Ok(Some(Hit(g, t, PopPacket(b).value.0, PopPacket(b).value.1, Next(t, c.vcs))))
  {
    var g := SubnetTurn(st, node);
    var t := Turn(st, g, node);
    PopPacketKeepsFramed(Boundary(st, g, node, t));
  }

  /** After the corrected pop serves the buffer under the cursors, the
      subnet cursor and that subnet's VC cursor have each stepped once, the
      node's buffers are still well formed, and only the served buffer
      changed. */
  lemma FairStepState(c: Config, st: State, node: int, h: Hit)
    requires ConfigOk(c) && CursorsOk(c, st, node) && Ready(c, st, node)
    requires h.subnet == SubnetTurn(st, node) && h.vc == Turn(st, h.subnet, node) && h.turn == Next(h.vc, c.vcs)
    requires Valid(h.rest) && Framed(h.rest.slots)
    ensures var st' := StoreFair(c, st, node, h);
            CursorsOk(c, st', node) && Ready(c, st', node) &&
            SubnetTurn(st', node) == Next(h.subnet, c.subnets) &&
            TurnsOf(c, st', node) == TurnsOf(c, st, node)[h.subnet := h.turn] &&
            (forall s, v :: (s, v) != (h.subnet, h.vc) ==> Boundary(st', s, node, v) == Boundary(st, s, node, v))
  {
    var st' := StoreFair(c, st, node, h);
    forall s, v | 0 <= s < c.subnets && 0 <= v < c.vcs
      ensures Valid(Boundary(st', s, node, v)) && Framed(Boundary(st', s, node, v).slots)
    {
      if (s, v) != (h.subnet, h.vc) {
        assert Boundary(st', s, node, v) == Boundary(st, s, node, v);
      }
    }
    assert TurnsOf(c, st', node) == TurnsOf(c, st, node)[h.subnet := h.turn];
  }

  /** Storing a hit with the advanced VC cursor under the subnet served. */
  function StoreFair(c: Config, st: State, node: int, h: Hit): State {
    st.(boundary := st.boundary[(h.subnet, node, h.vc) := h.rest],
        rrTurn := st.rrTurn[(h.subnet, node) := h.turn],
        rrSubnetTurn := st.rrSubnetTurn[node := Next(h.subnet, c.subnets)])
  }

  /** `Pop` with the VC cursor kept by the subnet it belongs to: the scan
      is the same, and the subnet cursor still moves past the subnet
      served. */
  function PopFair(c: Config, st: State, dev: int): (r: Result<(Option<Ptr>, State)>)
    requires ConfigOk(c) && ValidDevice(c, st, dev)
    ensures r.Ok? ==> r.value.1.nodeMap == st.nodeMap
  {
    var node := st.nodeMap[dev];
    match ScanSubnets(c, st, node, SubnetTurn(st, node), c.subnets)
    case Error(e) => Error(e)
    case Ok(None) => Ok((None, st))
    case Ok(Some(h)) => Ok((Some(h.data), StoreFair(c, st, node, h)))
  }

  /** The (subnet, VC) pairs `k` successive corrected pops serve, up to
      the first pop that serves nothing or fails. */
  function FairServed(c: Config, st: State, dev: int, k: nat): seq<(int, int)>
    requires ConfigOk(c) && ValidDevice(c, st, dev)
    decreases k
  {
    if k == 0 then []
    else
      var node := st.nodeMap[dev];
      match ScanSubnets(c, st, node, SubnetTurn(st, node), c.subnets)
      case Ok(Some(h)) => [(h.subnet, h.vc)] + FairServed(c, StoreFair(c, st, node, h), dev, k - 1)
      case _ => []
  }

  /** `FairServed` is the trace of `PopFair`: it records a pair exactly
      when the pop returns a packet, that pair names a buffer holding a
      packet whose payload the pop returns, and the rest of the trace is
      that of the state the pop leaves. */
  lemma FairServedTracesPopFair(c: Config, st: State, dev: int, k: nat)
    requires ConfigOk(c) && ValidDevice(c, st, dev) && CursorsOk(c, st, st.nodeMap[dev]) && k >= 1
    ensures var served, r := FairServed(c, st, dev, k), PopFair(c, st, dev);
            var node := st.nodeMap[dev];
            (|served| >= 1 <==> r.Ok? && r.value.0.Some?) &&
            (|served| >= 1 ==>
               var (s, v) := served[0];
               0 <= s < c.subnets && 0 <= v < c.vcs &&
               HasPacket(Boundary(st, s, node, v)) &&
               PopPacket(Boundary(st, s, node, v)).Ok? &&
               r.value.0 == Some(PopPacket(Boundary(st, s, node, v)).value.0) &&
               Boundary(r.value.1, s, node, v) == PopPacket(Boundary(st, s, node, v)).value.1 &&
               served[1..] == FairServed(c, r.value.1, dev, k - 1))
  {
    var node := st.nodeMap[dev];
    ScanSubnetsSound(c, st, node, SubnetTurn(st, node), c.subnets);
  }

  /** The node's VC cursors, one per subnet. */
  function TurnsOf(c: Config, st: State, node: int): (turns: seq<int>)
    requires c.subnets >= 0
    ensures |turns| == c.subnets
    ensures forall s :: 0 <= s < c.subnets ==> turns[s] == Turn(st, s, node)
  {
    seq(c.subnets, s => Turn(st, s, node))
  }

  /** The pairs the corrected pop serves while the buffer under both
      cursors always holds a packet: the subnet cursor's VC cursor, after
      which both cursors step. */
  function Schedule(subnets: int, vcs: int, g: int, turns: seq<int>, k: nat): (r: seq<(int, int)>)
    requires 0 <= g < subnets == |turns|
    ensures |r| == k
    decreases k
  {
    if k == 0 then []
    else [(g, turns[g])] + Schedule(subnets, vcs, Next(g, subnets), turns[g := Next(turns[g], vcs)], k - 1)
  }

  /** Pop `i` lands back on the starting subnet exactly at whole laps, and
      the lap count rises there. */
  lemma LapArithmetic(g: int, i: int, n: int)
    requires 0 <= g < n && i >= 1
    ensures RingAt(g, i, n) == g <==> i % n == 0
    ensures i % n == 0 ==> (i - 1) / n + 1 == i / n
    ensures i % n != 0 ==> (i - 1) / n == i / n
  {
    var q, r := i / n, i % n;
    DivNonNegative(i, n);
    if g + r < n {
      DivModUnique(g + i, n, q, g + r);
    } else {
      DivModUnique(g + i, n, q + 1, g + r - n);
    }
    if r >= 1 {
      DivModUnique(i - 1, n, q, r - 1);
    } else {
      DivModUnique(i - 1, n, q - 1, n - 1);
    }
  }

  /** Pop `i` of the schedule serves the subnet `i` steps around from the
      subnet cursor, at that subnet's VC cursor moved on by the number of
      whole laps before it. */
  lemma {:induction false} ScheduleAt(subnets: int, vcs: int, g: int, turns: seq<int>, k: nat, i: int)
    requires 0 <= g < subnets == |turns| && vcs > 0 && 0 <= i < k
    requires forall s :: 0 <= s < subnets ==> 0 <= turns[s] < vcs
    ensures Schedule(subnets, vcs, g, turns, k)[i]
            == (RingAt(g, i, subnets), RingAt(turns[RingAt(g, i, subnets)], i / subnets, vcs))
    decreases k
  {
    if i == 0 {
      RingStart(g, subnets);
      RingStart(turns[g], vcs);
    } else {
      var g1 := Next(g, subnets);
      var turns1 := turns[g := Next(turns[g], vcs)];
      ScheduleAt(subnets, vcs, g1, turns1, k - 1, i - 1);
      NextIsRingStep(g, i - 1, subnets);
      var s := RingAt(g, i, subnets);
      LapArithmetic(g, i, subnets);
      if s == g {
        NextIsRingStep(turns[g], (i - 1) / subnets, vcs);
      }
    }
  }

  /** The subnet `i` steps around depends only on `i` modulo the ring. */
  lemma RingPeriodic(g: int, i: int, n: int)
    requires 0 <= g < n && i >= 0
    ensures RingAt(g, i, n) == RingAt(g, i % n, n)
  {
    DivNonNegative(i, n);
    var a := g + i % n;
    DivNonNegative(a, n);
    DivModUnique(g + i, n, a / n + i / n, a % n);
  }

  /** Two pops of the schedule within `subnets * vcs` of the start serve
      different pairs. */
  lemma ScheduleDistinct(subnets: int, vcs: int, g: int, turns: seq<int>, i: int, j: int)
    requires 0 <= g < subnets == |turns| && vcs > 0
    requires forall s :: 0 <= s < subnets ==> 0 <= turns[s] < vcs
    requires 0 <= i < j < subnets * vcs
    ensures Schedule(subnets, vcs, g, turns, subnets * vcs)[i] != Schedule(subnets, vcs, g, turns, subnets * vcs)[j]
  {
    var n := subnets * vcs;
    ScheduleAt(subnets, vcs, g, turns, n, i);
    ScheduleAt(subnets, vcs, g, turns, n, j);
    if RingAt(g, i, subnets) == RingAt(g, j, subnets) {
      LapIndex(subnets, vcs, i);
      LapIndex(subnets, vcs, j);
      RingPeriodic(g, i, subnets);
      RingPeriodic(g, j, subnets);
      RingOffset(g, i % subnets, subnets);
      RingOffset(g, j % subnets, subnets);
      assert i % subnets == j % subnets;
      var t := turns[RingAt(g, i, subnets)];
      assert i / subnets != j / subnets;
      RingOffset(t, i / subnets, vcs);
      RingOffset(t, j / subnets, vcs);
    }
  }

  /** Every (subnet, VC) pair is served within the first `subnets * vcs`
      pops of the schedule. */
  lemma ScheduleCovers(subnets: int, vcs: int, g: int, turns: seq<int>, s: int, v: int)
    requires 0 <= g < subnets == |turns| && vcs > 0
    requires forall s :: 0 <= s < subnets ==> 0 <= turns[s] < vcs
    requires 0 <= s < subnets && 0 <= v < vcs
    ensures exists i :: 0 <= i < subnets * vcs && Schedule(subnets, vcs, g, turns, subnets * vcs)[i] == (s, v)
  {
    var n := subnets * vcs;
    var a, b := Offset(g, s, subnets), Offset(turns[s], v, vcs);
    var i := b * subnets + a;
    MulMono(b, vcs - 1, subnets);
    DivModUnique(i, subnets, b, a);
    ScheduleAt(subnets, vcs, g, turns, n, i);
    RingPeriodic(g, i, subnets);
    RingCovers(g, s, subnets);
    RingCovers(turns[s], v, vcs);
  }

  /** Over `subnets * vcs` pops the schedule serves every (subnet, VC)
      pair exactly once. */
  lemma ScheduleCoversOnce(subnets: int, vcs: int, g: int, turns: seq<int>)
    requires 0 <= g < subnets == |turns| && vcs > 0
    requires forall s :: 0 <= s < subnets ==> 0 <= turns[s] < vcs
    ensures var sch := Schedule(subnets, vcs, g, turns, subnets * vcs);
            (forall i :: 0 <= i < |sch| ==> 0 <= sch[i].0 < subnets && 0 <= sch[i].1 < vcs) &&
            (forall i, j :: 0 <= i < j < |sch| ==> sch[i] != sch[j]) &&
            (forall s, v :: 0 <= s < subnets && 0 <= v < vcs ==> exists i :: 0 <= i < |sch| && sch[i] == (s, v))
  {
    var n := subnets * vcs;
    var sch := Schedule(subnets, vcs, g, turns, n);
    forall i | 0 <= i < n
      ensures 0 <= sch[i].0 < subnets && 0 <= sch[i].1 < vcs
    {
      ScheduleAt(subnets, vcs, g, turns, n, i);
    }
    forall i, j | 0 <= i < j < n
      ensures sch[i] != sch[j]
    {
      ScheduleDistinct(subnets, vcs, g, turns, i, j);
    }
    forall s, v | 0 <= s < subnets && 0 <= v < vcs
      ensures exists i :: 0 <= i < n && sch[i] == (s, v)
    {
      ScheduleCovers(subnets, vcs, g, turns, s, v);
    }
  }

  /** A pop index below `subnets * vcs` has fewer than `vcs` whole laps
      before it. */
  lemma LapIndex(subnets: int, vcs: int, i: int)
    requires subnets > 0 && vcs > 0 && 0 <= i < subnets * vcs
    ensures 0 <= i / subnets < vcs && 0 <= i % subnets < subnets
    ensures i == i / subnets * subnets + i % subnets
  {
    DivNonNegative(i, subnets);
    if i / subnets >= vcs {
      MulMono(vcs, i / subnets, subnets);
    }
  }

  /** The pairs in `sch` are distinct and each names a buffer of `node`
      that holds a packet. */
  predicate Pending(st: State, node: int, sch: seq<(int, int)>) {
    (forall i, j :: 0 <= i < j < |sch| ==> sch[i] != sch[j]) &&
    (forall i :: 0 <= i < |sch| ==> HasPacket(Boundary(st, sch[i].0, node, sch[i].1)))
  }

  /** While every pair the schedule names is distinct and holds a packet,
      the corrected pop serves exactly the schedule. */
  lemma {:induction false} FairFollowsSchedule(c: Config, st: State, dev: int, k: nat)
    requires ConfigOk(c) && ValidDevice(c, st, dev)
    requires Ready(c, st, st.nodeMap[dev]) && CursorsOk(c, st, st.nodeMap[dev])
    requires Pending(st, st.nodeMap[dev],
                     Schedule(c.subnets, c.vcs, SubnetTurn(st, st.nodeMap[dev]), TurnsOf(c, st, st.nodeMap[dev]), k))
    ensures FairServed(c, st, dev, k)
            == Schedule(c.subnets, c.vcs, SubnetTurn(st, st.nodeMap[dev]), TurnsOf(c, st, st.nodeMap[dev]), k)
    decreases k
  {
    if k > 0 {
      var node := st.nodeMap[dev];
      var g := SubnetTurn(st, node);
      var t := Turn(st, g, node);
      var turns := TurnsOf(c, st, node);
      var sch := Schedule(c.subnets, c.vcs, g, turns, k);
      assert sch[0] == (g, t);
      var b := Boundary(st, g, node, t);
      CursorScan(c, st, node);
      var h := Hit(g, t, PopPacket(b).value.0, PopPacket(b).value.1, Next(t, c.vcs));
      var st' := StoreFair(c, st, node, h);
      FairStepState(c, st, node, h);
      assert FairServed(c, st, dev, k) == [(g, t)] + FairServed(c, st', dev, k - 1);
      var sch' := Schedule(c.subnets, c.vcs, Next(g, c.subnets), turns[g := Next(t, c.vcs)], k - 1);
      assert sch' == sch[1..];
      forall i | 0 <= i < k - 1
        ensures HasPacket(Boundary(st', sch'[i].0, node, sch'[i].1))
      {
        assert sch'[i] == sch[i + 1] != sch[0];
      }
      assert Pending(st', node, sch');
      FairFollowsSchedule(c, st', dev, k - 1);
    }
  }

  /** When every buffer of the device's node holds a packet, well formed
      and with cursors in range, `subnets * vcs` successive corrected pops
      serve every (subnet, VC) pair exactly once. */
  lemma PopFairServesEach(c: Config, st: State, dev: int)
    requires ConfigOk(c) && ValidDevice(c, st, dev)
    requires Ready(c, st, st.nodeMap[dev]) && CursorsOk(c, st, st.nodeMap[dev])
    requires forall s, v :: 0 <= s < c.subnets && 0 <= v < c.vcs ==> HasPacket(Boundary(st, s, st.nodeMap[dev], v))
    ensures var served := FairServed(c, st, dev, c.subnets * c.vcs);
            |served| == c.subnets * c.vcs &&
            (forall i, j :: 0 <= i < j < |served| ==> served[i] != served[j]) &&
            (forall s, v :: 0 <= s < c.subnets && 0 <= v < c.vcs ==>
               exists i :: 0 <= i < |served| && served[i] == (s, v))
  {
    var node := st.nodeMap[dev];
    ScheduleCoversOnce(c.subnets, c.vcs, SubnetTurn(st, node), TurnsOf(c, st, node));
    FairFollowsSchedule(c, st, dev, c.subnets * c.vcs);
  }

  /** `Busy()`: true while flits are in flight in the network
      (`inFlight`). Otherwise every injection queue must be empty (the
      source asserts it), and the interface is busy exactly when some
      boundary buffer holds a packet. */
  method Busy(c: Config, st: State, inFlight: bool) returns (r: Result<bool>)
    ensures inFlight ==> r == Ok(true)
    ensures !inFlight ==> (r.Error? <==> exists s, n :: 0 <= s < c.subnets && 0 <= n < Nodes(c) && QueueLen(st, s, n) != 0)
    ensures !inFlight && r.Ok? ==>
              (r.value <==> exists s, n, v :: 0 <= s < c.subnets && 0 <= n < Nodes(c) && 0 <= v < c.vcs &&
                                              HasPacket(Boundary(st, s, n, v)))
  {
    if inFlight {
      return Ok(true);
    }
    var s := 0;
    while s < c.subnets
      invariant 0 <= s && (s <= c.subnets || s == 0)
      invariant forall s', n :: 0 <= s' < s && 0 <= n < Nodes(c) ==> QueueLen(st, s', n) == 0
    {
      var n := 0;
      while n < Nodes(c)
        invariant 0 <= n <= Nodes(c)
        invariant forall n' :: 0 <= n' < n ==> QueueLen(st, s, n') == 0
      {
        if QueueLen(st, s, n) != 0 {
          return Error("assert(_input_queue[s][n][0].empty())");
        }
        n := n + 1;
      }
      s := s + 1;
    }
    s := 0;
    while s < c.subnets
      invariant 0 <= s && (s <= c.subnets || s == 0)
      invariant forall s', n, v :: 0 <= s' < s && 0 <= n < Nodes(c) && 0 <= v < c.vcs ==>
                  !HasPacket(Boundary(st, s', n, v))
    {
      var n := 0;
      while n < Nodes(c)
        invariant 0 <= n <= Nodes(c)
        invariant forall n', v :: 0 <= n' < n && 0 <= v < c.vcs ==> !HasPacket(Boundary(st, s, n', v))
      {
        var v := 0;
        while v < c.vcs
          invariant 0 <= v && (v <= c.vcs || v == 0)
          invariant forall v' :: 0 <= v' < v ==> !HasPacket(Boundary(st, s, n, v'))
        {
          if HasPacket(Boundary(st, s, n, v)) {
            return Ok(true);
          }
          v := v + 1;
        }
        n := n + 1;
      }
      s := s + 1;
    }
    return Ok(false);
  }
}

=== FILE: ejection.dfy ===
/** The ejection path of the interconnect interface: the network writes
    flits into per-VC ejection buffers (`WriteOutBuffer`), each cycle one
    flit per VC moves on into the reassembly buffer and is queued for
    credit return (`Transfer2BoundaryBuffer`), and the traffic manager
    takes the queued flits back in order (`GetEjectedFlit`). */
module Ejection {
  import opened Outcome
  import opened BoundaryBuffer
  import opened Interconnect

  /** `WriteOutBuffer(subnet, output, flit)`: the flit joins the ejection
      buffer of its VC, which must have room. */
  function WriteOutBuffer(c: Config, st: State, s: int, node: int, f: Flit): Result<State>
    requires 0 <= s < c.subnets && 0 <= node < Nodes(c) && 0 <= f.vc < c.vcs
  {
    var q := Ejection(st, s, node, f.vc);
    if |q| >= c.ejectionCapacity then Error("assert(_ejection_buffer[subnet][output][vc].size() < capacity)")
    else Ok(st.(ejection := st.ejection[(s, node, f.vc) := q + [f]]))
  }

  /** The write succeeds exactly when the buffer has room; it then appends
      the flit to that one buffer and touches nothing else, so the
      occupancy bound of the invariant is kept. */
  lemma WriteOutBufferSpec(c: Config, st: State, s: int, node: int, f: Flit)
    requires 0 <= s < c.subnets && 0 <= node < Nodes(c) && 0 <= f.vc < c.vcs
    ensures var r := WriteOutBuffer(c, st, s, node, f);
            (r.Ok? <==> |Ejection(st, s, node, f.vc)| < c.ejectionCapacity) &&
            (r.Ok? ==>
               Ejection(r.value, s, node, f.vc) == Ejection(st, s, node, f.vc) + [f] &&
               (forall s', n, v :: (s', n, v) != (s, node, f.vc) ==>
                  Ejection(r.value, s', n, v) == Ejection(st, s', n, v)) &&
               r.value == st.(ejection := r.value.ejection)) &&
            (r.Ok? && Inv(c, st) ==> Inv(c, r.value))
  {
    var r := WriteOutBuffer(c, st, s, node, f);
    if r.Ok? && Inv(c, st) {
      assert forall n :: SubnetTurn(r.value, n) == SubnetTurn(st, n);
      assert forall s', n :: Turn(r.value, s', n) == Turn(st, s', n);
      assert forall s', n, v :: Boundary(r.value, s', n, v) == Boundary(st, s', n, v);
      forall s', n, v
        ensures |Ejection(r.value, s', n, v)| <= c.ejectionCapacity
      {
        if (s', n, v) != (s, node, f.vc) {
          assert Ejection(r.value, s', n, v) == Ejection(st, s', n, v);
        }
      }
    }
  }

  /** VC `v` moves a flit this cycle: its ejection buffer is not empty
      and its boundary buffer is below capacity. */
  predicate Moves(c: Config, st: State, s: int, out: int, v: int) {
    |Ejection(st, s, out, v)| > 0 && Size(Boundary(st, s, out, v)) < c.boundaryCapacity
  }

  /** VC `v` moves a head flit addressed to another node, which the
      source asserts against. */
  predicate Misrouted(c: Config, st: State, s: int, out: int, v: int) {
    Moves(c, st, s, out, v) && Ejection(st, s, out, v)[0].head && Ejection(st, s, out, v)[0].dest != out
  }

  /** One step of the loop: VC `vc` passes its front flit from its
      ejection buffer to its boundary buffer and queues it for credit
      return. */
  function MoveOne(c: Config, st: State, s: int, out: int, vc: int): State
    requires Moves(c, st, s, out, vc)
  {
    var q := Ejection(st, s, out, vc);
    st.(ejection := st.ejection[(s, out, vc) := q[1..]],
        boundary := st.boundary[(s, out, vc) := PushFlitData(Boundary(st, s, out, vc), q[0].data, q[0].tail)],
        ejected := st.ejected[(s, out) := Ejected(st, s, out) + [q[0]]])
  }

  /** The loop of `Transfer2BoundaryBuffer` from VC `vc` on. The source
      moves the flit before it checks the head flit's destination; the
      error discards the state either way. */
  function TransferFrom(c: Config, st: State, s: int, out: int, vc: int): Result<State>
    requires 0 <= vc <= c.vcs
    decreases c.vcs - vc
  {
    if vc == c.vcs then Ok(st)
    else if Moves(c, st, s, out, vc) then
      var f := Ejection(st, s, out, vc)[0];
      if f.head && f.dest != out then Error("assert(flit->dest == output)")
      else TransferFrom(c, MoveOne(c, st, s, out, vc), s, out, vc + 1)
    else TransferFrom(c, st, s, out, vc + 1)
  }

  /** `Transfer2BoundaryBuffer(subnet, output)`. */
  function Transfer(c: Config, st: State, s: int, out: int): Result<State>
    requires c.vcs >= 0
  {
    TransferFrom(c, st, s, out, 0)
  }

  /** The front flits of the VCs from `vc` on that move, in VC order: the
      flits queued for credit return. */
  function Fronts(c: Config, st: State, s: int, out: int, vc: int): (fs: seq<Flit>)
    requires 0 <= vc <= c.vcs
    ensures |fs| <= c.vcs - vc
    decreases c.vcs - vc
  {
    if vc == c.vcs then []
    else (if Moves(c, st, s, out, vc) then [Ejection(st, s, out, vc)[0]] else []) + Fronts(c, st, s, out, vc + 1)
  }

  /** The ejection buffers after a transfer from VC `vc` on: each moving
      VC lost its front flit. */
  ghost predicate EjectionAfter(c: Config, st: State, st': State, s: int, out: int, vc: int) {
    forall s', n, v :: Ejection(st', s', n, v) ==
      if s' == s && n == out && vc <= v < c.vcs && Moves(c, st, s, out, v)
      then Ejection(st, s, out, v)[1..] else Ejection(st, s', n, v)
  }

  /** The boundary buffers after a transfer from VC `vc` on: each moving
      VC's buffer received that VC's front flit. */
  ghost predicate BoundaryAfter(c: Config, st: State, st': State, s: int, out: int, vc: int) {
    forall s', n, v :: Boundary(st', s', n, v) ==
      if s' == s && n == out && vc <= v < c.vcs && Moves(c, st, s, out, v)
      then PushFlitData(Boundary(st, s, out, v), Ejection(st, s, out, v)[0].data, Ejection(st, s, out, v)[0].tail)
      else Boundary(st, s', n, v)
  }

  /** The credit-return queues after a transfer from VC `vc` on: the
      moved flits joined the back of the output's queue in VC order. */
  ghost predicate EjectedAfter(c: Config, st: State, st': State, s: int, out: int, vc: int)
    requires 0 <= vc <= c.vcs
  {
    forall s', n :: Ejected(st', s', n) ==
      if s' == s && n == out then Ejected(st, s, out) + Fronts(c, st, s, out, vc) else Ejected(st, s', n)
  }

  /** The effect of a transfer from VC `vc` on: the three above, and
      nothing else changes. */
  ghost predicate Transferred(c: Config, st: State, st': State, s: int, out: int, vc: int)
    requires 0 <= vc <= c.vcs
  {
    EjectionAfter(c, st, st', s, out, vc) && BoundaryAfter(c, st, st', s, out, vc) &&
    EjectedAfter(c, st, st', s, out, vc) &&
    st'.inputQueue == st.inputQueue && st'.rrTurn == st.rrTurn && st'.rrSubnetTurn == st.rrSubnetTurn &&
    st'.gSubnet == st.gSubnet && st'.nodeMap == st.nodeMap
  }

  /** Two states that agree on the buffers of VCs `vc` and up move the
      same flits. */
  lemma {:induction false} FrontsFrame(c: Config, st: State, st1: State, s: int, out: int, vc: int)
    requires 0 <= vc <= c.vcs
    requires forall v :: vc <= v < c.vcs ==>
               Ejection(st1, s, out, v) == Ejection(st, s, out, v) && Boundary(st1, s, out, v) == Boundary(st, s, out, v)
    ensures Fronts(c, st1, s, out, vc) == Fronts(c, st, s, out, vc)
    decreases c.vcs - vc
  {
    if vc < c.vcs {
      FrontsFrame(c, st, st1, s, out, vc + 1);
    }
  }

  /** A move at VC `vc` leaves the buffers of every other VC as they
      were. */
  lemma MoveOneFrame(c: Config, st: State, s: int, out: int, vc: int)
    requires Moves(c, st, s, out, vc)
    ensures forall s', n, v :: (s', n, v) != (s, out, vc) ==>
              Ejection(MoveOne(c, st, s, out, vc), s', n, v) == Ejection(st, s', n, v) &&
              Boundary(MoveOne(c, st, s, out, vc), s', n, v) == Boundary(st, s', n, v)
  {
  }

  /** The loop fails exactly when some VC from `vc` on moves a misrouted
      head flit. */
  lemma {:induction false} TransferFromFails(c: Config, st: State, s: int, out: int, vc: int)
    requires 0 <= vc <= c.vcs
    ensures TransferFrom(c, st, s, out, vc).Error? <==> exists v :: vc <= v < c.vcs && Misrouted(c, st, s, out, v)
    decreases c.vcs - vc, 1
  {
    if vc < c.vcs {
      if Misrouted(c, st, s, out, vc) {
        assert TransferFrom(c, st, s, out, vc).Error?;
      } else if Moves(c, st, s, out, vc) {
        MoveFails(c, st, s, out, vc);
      } else {
        TransferFromFails(c, st, s, out, vc + 1);
      }
    }
  }

  /** The step of `TransferFromFails` at a VC that moves a flit it
      accepts. */
  lemma {:induction false} MoveFails(c: Config, st: State, s: int, out: int, vc: int)
    requires 0 <= vc < c.vcs && Moves(c, st, s, out, vc) && !Misrouted(c, st, s, out, vc)
    ensures TransferFrom(c, st, s, out, vc).Error? <==> exists v :: vc <= v < c.vcs && Misrouted(c, st, s, out, v)
    decreases c.vcs - vc, 0
  {
    var st1 := MoveOne(c, st, s, out, vc);
    TransferFromFails(c, st1, s, out, vc + 1);
    MoveOneFrame(c, st, s, out, vc);
    forall v | vc < v < c.vcs
      ensures Misrouted(c, st1, s, out, v) == Misrouted(c, st, s, out, v)
    {
      assert Ejection(st1, s, out, v) == Ejection(st, s, out, v);
      assert Boundary(st1, s, out, v) == Boundary(st, s, out, v);
    }
  }

  /** A successful loop from VC `vc` has exactly the effect `Transferred`
      describes. */
  lemma {:induction false} TransferFromEffect(c: Config, st: State, s: int, out: int, vc: int)
    requires 0 <= vc <= c.vcs
    requires TransferFrom(c, st, s, out, vc).Ok?
    ensures Transferred(c, st, TransferFrom(c, st, s, out, vc).value, s, out, vc)
    decreases c.vcs - vc, 1
  {
    if vc == c.vcs {
      assert Fronts(c, st, s, out, vc) == [];
    } else if Moves(c, st, s, out, vc) {
      MoveEffect(c, st, s, out, vc);
    } else {
      TransferFromEffect(c, st, s, out, vc + 1);
      SkipStep(c, st, TransferFrom(c, st, s, out, vc + 1).value, s, out, vc);
    }
  }

  /** The step of `TransferFromEffect` at a VC that moves. */
  lemma {:induction false} MoveEffect(c: Config, st: State, s: int, out: int, vc: int)
    requires 0 <= vc < c.vcs && Moves(c, st, s, out, vc)
    requires TransferFrom(c, st, s, out, vc).Ok?
    ensures Transferred(c, st, TransferFrom(c, st, s, out, vc).value, s, out, vc)
    decreases c.vcs - vc, 0
  {
    var st1 := MoveOne(c, st, s, out, vc);
    TransferFromEffect(c, st1, s, out, vc + 1);
    MoveStep(c, st, st1, TransferFrom(c, st1, s, out, vc + 1).value, s, out, vc);
  }

  /** Composing a move at `vc` with the effect from `vc + 1` on. */
  lemma MoveStep(c: Config, st: State, st1: State, st': State, s: int, out: int, vc: int)
    requires 0 <= vc < c.vcs && Moves(c, st, s, out, vc) && st1 == MoveOne(c, st, s, out, vc)
    requires Transferred(c, st1, st', s, out, vc + 1)
    ensures Transferred(c, st, st', s, out, vc)
  {
    MoveOneFrame(c, st, s, out, vc);
    FrontsFrame(c, st, st1, s, out, vc + 1);
    MoveStepEjection(c, st, st1, st', s, out, vc);
    MoveStepBoundary(c, st, st1, st', s, out, vc);
    MoveStepEjected(c, st, st1, st', s, out, vc);
  }

  lemma MoveStepEjection(c: Config, st: State, st1: State, st': State, s: int, out: int, vc: int)
    requires 0 <= vc < c.vcs && Moves(c, st, s, out, vc) && st1 == MoveOne(c, st, s, out, vc)
    requires EjectionAfter(c, st1, st', s, out, vc + 1)
    requires forall s', n, v :: (s', n, v) != (s, out, vc) ==>
               Ejection(st1, s', n, v) == Ejection(st, s', n, v) && Boundary(st1, s', n, v) == Boundary(st, s', n, v)
    ensures EjectionAfter(c, st, st', s, out, vc)
  {
    forall s', n, v
      ensures Ejection(st', s', n, v) ==
                if s' == s && n == out && vc <= v < c.vcs && Moves(c, st, s, out, v)
                then Ejection(st, s, out, v)[1..] else Ejection(st, s', n, v)
    {
      assert Ejection(st', s', n, v) ==
               if s' == s && n == out && vc + 1 <= v < c.vcs && Moves(c, st1, s, out, v)
               then Ejection(st1, s, out, v)[1..] else Ejection(st1, s', n, v);
    }
  }

  lemma MoveStepBoundary(c: Config, st: State, st1: State, st': State, s: int, out: int, vc: int)
    requires 0 <= vc < c.vcs && Moves(c, st, s, out, vc) && st1 == MoveOne(c, st, s, out, vc)
    requires BoundaryAfter(c, st1, st', s, out, vc + 1)
    requires forall s', n, v :: (s', n, v) != (s, out, vc) ==>
               Ejection(st1, s', n, v) == Ejection(st, s', n, v) && Boundary(st1, s', n, v) == Boundary(st, s', n, v)
    ensures BoundaryAfter(c, st, st', s, out, vc)
  {
    forall s', n, v
      ensures Boundary(st', s', n, v) ==
                if s' == s && n == out && vc <= v < c.vcs && Moves(c, st, s, out, v)
                then PushFlitData(Boundary(st, s, out, v), Ejection(st, s, out, v)[0].data, Ejection(st, s, out, v)[0].tail)
                else Boundary(st, s', n, v)
    {
      assert Boundary(st', s', n, v) ==
               if s' == s && n == out && vc + 1 <= v < c.vcs && Moves(c, st1, s, out, v)
               then PushFlitData(Boundary(st1, s, out, v), Ejection(st1, s, out, v)[0].data, Ejection(st1, s, out, v)[0].tail)
               else Boundary(st1, s', n, v);
    }
  }

  lemma MoveStepEjected(c: Config, st: State, st1: State, st': State, s: int, out: int, vc: int)
    requires 0 <= vc < c.vcs && Moves(c, st, s, out, vc) && st1 == MoveOne(c, st, s, out, vc)
    requires EjectedAfter(c, st1, st', s, out, vc + 1)
    requires Fronts(c, st1, s, out, vc + 1) == Fronts(c, st, s, out, vc + 1)
    ensures EjectedAfter(c, st, st', s, out, vc)
  {
    var f := Ejection(st, s, out, vc)[0];
    assert Fronts(c, st, s, out, vc) == [f] + Fronts(c, st, s, out, vc + 1);
    assert Ejected(st1, s, out) == Ejected(st, s, out) + [f];
    SeqJoin(Ejected(st, s, out), f, Fronts(c, st, s, out, vc + 1), Fronts(c, st, s, out, vc), Ejected(st', s, out));
    forall s', n | (s', n) != (s, out)
      ensures Ejected(st', s', n) == Ejected(st, s', n)
    {
      assert Ejected(st', s', n) == Ejected(st1, s', n);
    }
  }

  /** Appending `f` and then `later` is appending `[f] + later`. */
  lemma SeqJoin(a: seq<Flit>, f: Flit, later: seq<Flit>, fronts: seq<Flit>, q: seq<Flit>)
    requires fronts == [f] + later && q == (a + [f]) + later
    ensures q == a + fronts
  {
  }

  /** Composing a VC that does not move with the effect from `vc + 1`
      on. */
  lemma SkipStep(c: Config, st: State, st': State, s: int, out: int, vc: int)
    requires 0 <= vc < c.vcs && !Moves(c, st, s, out, vc)
    requires Transferred(c, st, st', s, out, vc + 1)
    ensures Transferred(c, st, st', s, out, vc)
  {
    forall s', n, v
      ensures Ejection(st', s', n, v) ==
                if s' == s && n == out && vc <= v < c.vcs && Moves(c, st, s, out, v)
                then Ejection(st, s, out, v)[1..] else Ejection(st, s', n, v)
    {
    }
    forall s', n, v
      ensures Boundary(st', s', n, v) ==
                if s' == s && n == out && vc <= v < c.vcs && Moves(c, st, s, out, v)
                then PushFlitData(Boundary(st, s, out, v), Ejection(st, s, out, v)[0].data, Ejection(st, s, out, v)[0].tail)
                else Boundary(st, s', n, v)
    {
    }
  }

  /** `Transfer2BoundaryBuffer` fails exactly on a misrouted head flit;
      otherwise it moves at most one flit per VC, only out of a non-empty
      ejection buffer into a boundary buffer below capacity, and queues
      the moved flits for credit return in VC order behind those already
      queued. */
  lemma TransferSpec(c: Config, st: State, s: int, out: int)
    requires c.vcs >= 0
    ensures Transfer(c, st, s, out).Error? <==> exists v :: 0 <= v < c.vcs && Misrouted(c, st, s, out, v)
    ensures Transfer(c, st, s, out).Ok? ==> Transferred(c, st, Transfer(c, st, s, out).value, s, out, 0)
  {
    TransferFromFails(c, st, s, out, 0);
    if Transfer(c, st, s, out).Ok? {
      TransferFromEffect(c, st, s, out, 0);
    }
  }

  /** A transfer keeps the interface invariant: a flit enters a boundary
      buffer only below capacity, and ejection buffers only shrink. */
  lemma TransferInv(c: Config, st: State, s: int, out: int)
    requires c.vcs >= 0 && Inv(c, st) && Transfer(c, st, s, out).Ok?
    ensures Inv(c, Transfer(c, st, s, out).value)
  {
    var st' := Transfer(c, st, s, out).value;
    TransferSpec(c, st, s, out);
    forall s', n, v
      ensures Valid(Boundary(st', s', n, v)) && Size(Boundary(st', s', n, v)) <= c.boundaryCapacity
    {
      if s' == s && n == out && 0 <= v < c.vcs && Moves(c, st, s, out, v) {
        var f := Ejection(st, s, out, v)[0];
        PushPreservesValid(Boundary(st, s, out, v), f.data, f.tail);
      }
    }
    forall s', n, v
      ensures |Ejection(st', s', n, v)| <= c.ejectionCapacity
    {
    }
    assert forall n :: SubnetTurn(st', n) == SubnetTurn(st, n);
    assert forall s', n :: Turn(st', s', n) == Turn(st, s', n);
  }

  /** `GetEjectedFlit(subnet, node)`: the front of the credit-return
      queue, or `None` (NULL) when it is empty. */
  function GetEjectedFlit(st: State, s: int, node: int): (r: (Option<Flit>, State))
    ensures r.0.None? <==> Ejected(st, s, node) == []
    ensures r.0.Some? ==> Ejected(st, s, node) == [r.0.value] + Ejected(r.1, s, node)
    ensures r.0.None? ==> r.1 == st
    ensures forall s', n :: (s', n) != (s, node) ==> Ejected(r.1, s', n) == Ejected(st, s', n)
    ensures r.1 == st.(ejected := r.1.ejected)
  {
    var q := Ejected(st, s, node);
    if |q| == 0 then (None, st)
    else (Some(q[0]), st.(ejected := st.ejected[(s, node) := q[1..]]))
  }

  /** Takes `k` flits off the credit-return queue with `GetEjectedFlit`. */
  function TakeEjected(st: State, s: int, node: int, k: nat): (seq<Flit>, State)
    decreases k
  {
    if k == 0 then ([], st)
    else
      var (f, st1) := GetEjectedFlit(st, s, node);
      match f
      case None => ([], st1)
      case Some(x) =>
        var (rest, st2) := TakeEjected(st1, s, node, k - 1);
        ([x] + rest, st2)
  }

  /** First in, first out: taking as many flits as are queued returns
      exactly the queue, front first, and leaves it empty. */
  lemma {:induction false} TakeEjectedFifo(st: State, s: int, node: int)
    ensures TakeEjected(st, s, node, |Ejected(st, s, node)|).0 == Ejected(st, s, node)
    ensures Ejected(TakeEjected(st, s, node, |Ejected(st, s, node)|).1, s, node) == []
    decreases |Ejected(st, s, node)|
  {
    var q := Ejected(st, s, node);
    if |q| > 0 {
      var st1 := GetEjectedFlit(st, s, node).1;
      assert Ejected(st1, s, node) == q[1..];
      TakeEjectedFifo(st1, s, node);
    }
  }

  /** Flits a transfer queues come back, after everything queued before
      them, in VC order. */
  lemma TransferThenTake(c: Config, st: State, s: int, out: int)
    requires c.vcs >= 0 && Transfer(c, st, s, out).Ok?
    ensures var st' := Transfer(c, st, s, out).value;
            TakeEjected(st', s, out, |Ejected(st', s, out)|).0 ==
              Ejected(st, s, out) + Fronts(c, st, s, out, 0)
  {
    TransferSpec(c, st, s, out);
    TakeEjectedFifo(Transfer(c, st, s, out).value, s, out);
  }
}

=== FILE: interconnect.dfy ===
/** The state of the host-facing interconnect interface
    (`InterconnectInterface`): its configuration, the per-(subnet, node,
    VC) buffers, the round-robin cursors and the device-to-network node
    map.

    The source keeps the buffers in nested vectors. The model keys them by
    index tuples in maps and reads a missing key as an empty buffer or a
    zero cursor; every operation requires its indices to be in range, as
    the source does. Of the traffic manager, only the length of each
    injection queue `_input_queue[subnet][node][0]` is modelled. */
module Interconnect {
  import opened Outcome
  import opened BoundaryBuffer

  /** The subnet-selection policies of `enum NetSelection`. */
  datatype Policy = PacketType | RoundRobin | Random | PacketSize

  /** The enum's integer values. */
  function PolicyCode(p: Policy): int {
    match p
    case PacketType => 0
    case RoundRobin => 1
    case Random => 2
    case PacketSize => 3
  }

  /** The policy a configured integer selects; other values reach the
      `default: assert(0)` branch. */
  function PolicyOf(code: int): (r: Option<Policy>) {
    if code == 0 then Some(PacketType)
    else if code == 1 then Some(RoundRobin)
    else if code == 2 then Some(Random)
    else if code == 3 then Some(PacketSize)
    else None
  }

  /** Decoding inverts the enum's numbering, and exactly its four values
      decode. */
  lemma PolicyCodeRoundTrip(p: Policy, code: int)
    ensures PolicyOf(PolicyCode(p)) == Some(p)
    ensures PolicyOf(code).Some? <==> 0 <= code < 4
    ensures PolicyOf(code).Some? ==> PolicyCode(PolicyOf(code).value) == code
  {
  }

  /** The memory request kinds a pushed packet can carry. */
  datatype PacketKind = ReadRequest | WriteRequest | ReadReply | WriteAck

  /** A flit as the interface sees it. `id` stands for the flit's identity
      (its address in the source). */
  datatype Flit = Flit(id: int, data: Ptr, head: bool, tail: bool, dest: int, vc: int)

  /** The configuration `CreateInterconnect` reads. */
  datatype Config = Config(
    nShader: nat, nMem: nat,
    subnets: int, vcs: int,
    flitSize: int, asymFlitSize: int,
    inputCapacity: int, ejectionCapacity: int, boundaryCapacity: int,
    policy: Policy)

  /** What the operations need of the configuration: at least one subnet
      and one VC, a positive flit width (it is a divisor), a positive
      asymmetric width under the packet-size policy, and two subnets for
      the two policies that address subnet 1 directly. */
  predicate ConfigOk(c: Config) {
    c.subnets >= 1 && c.vcs >= 1 && c.flitSize >= 1 &&
    (c.policy == PacketSize ==> c.asymFlitSize >= 1) &&
    (c.policy == PacketType || c.policy == PacketSize ==> c.subnets >= 2)
  }

  /** The integer settings `CreateInterconnect` reads (`subnets`,
      `flit_size`, `asym_flit_size`, `ejection_buffer_size`, `vc_buf_size`,
      `boundary_buffer_size`, `input_buffer_size`, `num_vcs`), with the
      net-selection value the policy switches test. */
  datatype Settings = Settings(
    subnets: int, flitSize: int, asymFlitSize: int,
    ejectionBufferSize: int, vcBufSize: int, boundaryBufferSize: int,
    inputBufferSize: int, numVcs: int, netSelection: int)

  /** `CreateInterconnect`'s reading of the settings. Zero subnets or a zero
      boundary capacity fail its asserts; a zero ejection buffer size falls
      back to `vc_buf_size` and a zero input buffer size to 16; a
      net-selection value outside the enum fails as the policy switches'
      `default: assert(0)` does. */
  function ReadConfig(nShader: nat, nMem: nat, k: Settings): (r: Result<Config>)
    ensures r.Ok? <==> k.subnets != 0 && k.boundaryBufferSize != 0 && 0 <= k.netSelection < 4
    ensures r.Ok? ==>
              r.value.nShader == nShader && r.value.nMem == nMem &&
              r.value.subnets == k.subnets && r.value.vcs == k.numVcs &&
              r.value.flitSize == k.flitSize && r.value.asymFlitSize == k.asymFlitSize &&
              r.value.boundaryCapacity == k.boundaryBufferSize &&
              PolicyCode(r.value.policy) == k.netSelection
    ensures r.Ok? && k.ejectionBufferSize != 0 ==> r.value.ejectionCapacity == k.ejectionBufferSize
    ensures r.Ok? && k.ejectionBufferSize == 0 ==> r.value.ejectionCapacity == k.vcBufSize
    ensures r.Ok? && k.inputBufferSize != 0 ==> r.value.inputCapacity == k.inputBufferSize
    ensures r.Ok? && k.inputBufferSize == 0 ==> r.value.inputCapacity == 16
  {
    if k.subnets == 0 then Error("assert(_subnets)")
    else if k.boundaryBufferSize == 0 then Error("assert(_boundary_buffer_capacity)")
    else
      match PolicyOf(k.netSelection)
      case None => Error("assert(0)")
      case Some(policy) =>
        var ejection := if k.ejectionBufferSize != 0 then k.ejectionBufferSize else k.vcBufSize;
        var input := if k.inputBufferSize != 0 then k.inputBufferSize else 16;
        Ok(Config(nShader, nMem, k.subnets, k.numVcs, k.flitSize, k.asymFlitSize,
                  input, ejection, k.boundaryBufferSize, policy))
  }

  /** The settings that describe a configuration. */
  function SettingsOf(c: Config, vcBufSize: int): Settings {
    Settings(c.subnets, c.flitSize, c.asymFlitSize, c.ejectionCapacity, vcBufSize,
             c.boundaryCapacity, c.inputCapacity, c.vcs, PolicyCode(c.policy))
  }

  /** Every configuration with subnets and non-zero capacities is what
      `CreateInterconnect` reads from its own settings, and a zero ejection
      buffer size is the same as setting it to `vc_buf_size`. */
  lemma ReadConfigRoundTrip(c: Config, vcBufSize: int)
    requires c.subnets != 0 && c.boundaryCapacity != 0
    requires c.inputCapacity != 0 && c.ejectionCapacity != 0
    ensures ReadConfig(c.nShader, c.nMem, SettingsOf(c, vcBufSize)) == Ok(c)
    ensures ReadConfig(c.nShader, c.nMem, SettingsOf(c, c.ejectionCapacity).(ejectionBufferSize := 0)) == Ok(c)
  {
  }

  /** Devices, and so interface nodes: `_n_shader + _n_mem`. */
  function Nodes(c: Config): nat {
    c.nShader + c.nMem
  }

  datatype State = State(
    inputQueue: map<(int, int), nat>,            // flits queued for injection, by (subnet, node)
    ejection: map<(int, int, int), seq<Flit>>,   // _ejection_buffer, by (subnet, node, vc)
    boundary: map<(int, int, int), Item>,        // _boundary_buffer
    ejected: map<(int, int), seq<Flit>>,         // _ejected_flit_queue, by (subnet, node)
    rrTurn: map<(int, int), int>,                // _round_robin_turn, by (subnet, node)
    rrSubnetTurn: map<int, int>,                 // _round_robin_subnet_turn, by node
    gSubnet: int,                                // the global round-robin subnet cursor
    nodeMap: seq<int>)                           // _node_map, device id to network node

  function QueueLen(st: State, s: int, n: int): nat {
    if (s, n) in st.inputQueue then st.inputQueue[(s, n)] else 0
  }

  function Ejection(st: State, s: int, n: int, v: int): seq<Flit> {
    if (s, n, v) in st.ejection then st.ejection[(s, n, v)] else []
  }

  function Boundary(st: State, s: int, n: int, v: int): Item {
    if (s, n, v) in st.boundary then st.boundary[(s, n, v)] else Empty
  }

  function Ejected(st: State, s: int, n: int): seq<Flit> {
    if (s, n) in st.ejected then st.ejected[(s, n)] else []
  }

  function Turn(st: State, s: int, n: int): int {
    if (s, n) in st.rrTurn then st.rrTurn[(s, n)] else 0
  }

  function SubnetTurn(st: State, n: int): int {
    if n in st.rrSubnetTurn then st.rrSubnetTurn[n] else 0
  }

  /** A device the node map knows, mapped to an interface node. */
  predicate ValidDevice(c: Config, st: State, dev: int) {
    0 <= dev < |st.nodeMap| && 0 <= st.nodeMap[dev] < Nodes(c)
  }

  /** The invariant the interface keeps: cursors in range, every boundary
      buffer's packet count in step with its tails and its size within
      capacity, and every ejection buffer within capacity. */
  ghost predicate Inv(c: Config, st: State) {
    0 <= st.gSubnet < c.subnets &&
    (forall n :: 0 <= n < Nodes(c) ==> 0 <= SubnetTurn(st, n) < c.subnets) &&
    (forall s, n :: 0 <= s < c.subnets && 0 <= n < Nodes(c) ==> 0 <= Turn(st, s, n) < c.vcs) &&
    (forall s, n, v :: Valid(Boundary(st, s, n, v)) && Size(Boundary(st, s, n, v)) <= c.boundaryCapacity) &&
    (forall s, n, v :: |Ejection(st, s, n, v)| <= c.ejectionCapacity)
  }

  /** `_CreateBuffer`: every buffer empty and every cursor at zero, with
      the node map `_CreateNodeMap` builds. An absent key reads as an empty
      buffer or a zero cursor, so empty maps stand for the freshly sized
      vectors. */
  function CreateBuffer(c: Config, nodeMap: seq<int>): (st: State)
    ensures forall s, n, v :: Boundary(st, s, n, v) == Empty && Ejection(st, s, n, v) == []
    ensures forall s, n :: QueueLen(st, s, n) == 0 && Ejected(st, s, n) == [] && Turn(st, s, n) == 0
    ensures forall n :: SubnetTurn(st, n) == 0
    ensures st.gSubnet == 0 && st.nodeMap == nodeMap
  {
    State(map[], map[], map[], map[], map[], map[], 0, nodeMap)
  }

  /** The freshly built interface satisfies the invariant when the
      configuration is usable and the capacities are not negative. */
  lemma CreateBufferInv(c: Config, nodeMap: seq<int>)
    requires ConfigOk(c) && c.boundaryCapacity >= 0 && c.ejectionCapacity >= 0
    ensures Inv(c, CreateBuffer(c, nodeMap))
  {
  }
}

=== FILE: mesh3d.dfy ===
/** Addressing of the k x n x s three-dimensional mesh (networks/mesh3D.cpp).

    Routers are numbered with x varying fastest, then y, then the stack
    layer z. Every router has up to four planar neighbours (left, right,
    front, back) and two vertical buses (up and down) shared by all routers
    of its (x, y) column. All functions are pure integer functions of the
    mesh dimensions, the router index and a direction. */
module Mesh3D {
  import opened Outcome
  import opened CppInt

  /** The dimensions read from the configuration keys `k`, `n` and `s`. */
  datatype Mesh = Mesh(k: int, n: int, s: int)

  /** Dimensions for which coordinate decoding is defined: `findCoordinate`
      divides by k and by k*n. */
  predicate Shaped(m: Mesh) {
    m.k >= 1 && m.n >= 1
  }

  /** The sentinel `_adjacentNode` returns when there is no neighbour. */
  const NetworkEdge: int := -1

  /** Coordinate selectors of `findCoordinate`. */
  const CoordX: int := 0
  const CoordY: int := 1
  const CoordZ: int := 2

  /** Planar directions; `p % 2 == 1 ? p - 1 : p + 1` maps each to its
      opposite, which fixes left/right and front/back as pairs. */
  const Left: int := 0
  const Right: int := 1
  const Front: int := 2
  const Back: int := 3

  function Opposite(p: int): int {
    if p % 2 == 1 then p - 1 else p + 1
  }

  /** Routers per stack layer. */
  function LayerSize(m: Mesh): int {
    m.k * m.n
  }

  /** Router, channel and vertical-channel counts fixed by `_ComputeSize`. */
  datatype Sizes = Sizes(size: int, nodes: int, channels: int, vchannels: int)

  /** Planar channels in one stack layer: one per direction per link. */
  function ChannelsPerLayer(m: Mesh): int {
    2 * (m.k * (m.n - 1) + m.n * (m.k - 1))
  }

  /** One router per grid position of every layer, and an up and a down bus
      per column. */
  function ComputeSize(m: Mesh): (z: Sizes)
    ensures z.size == LayerSize(m) * m.s && z.nodes == z.size
    ensures z.vchannels == 2 * LayerSize(m)
    ensures z.channels == ChannelsPerLayer(m) * m.s
  {
    var size := m.k * m.n * m.s;
    Sizes(size, size, ((m.k * (m.n - 1) + m.n * (m.k - 1)) * m.s) * 2, m.k * m.n * 2)
  }

  /** The three coordinates `findCoordinate` computes, with C++ division. */
  function XOf(m: Mesh, node: int): int
    requires Shaped(m)
  {
    Rem(node, m.k)
  }

  function YOf(m: Mesh, node: int): int
    requires Shaped(m)
  {
    Quot(node - Quot(node, LayerSize(m)) * LayerSize(m), m.k)
  }

  function ZOf(m: Mesh, node: int): int
    requires Shaped(m)
  {
    Quot(node, LayerSize(m))
  }

  /** `findCoordinate(cord, node)`: any selector other than _x, _y, _z is an
      error. */
  function FindCoordinate(m: Mesh, cord: int, node: int): (r: Result<int>)
    requires Shaped(m)
    ensures r.Ok? <==> cord == CoordX || cord == CoordY || cord == CoordZ
    ensures cord == CoordX ==> r == Ok(XOf(m, node))
    ensures cord == CoordY ==> r == Ok(YOf(m, node))
    ensures cord == CoordZ ==> r == Ok(ZOf(m, node))
  {
    if cord == CoordX then Ok(XOf(m, node))
    else if cord == CoordY then Ok(YOf(m, node))
    else if cord == CoordZ then Ok(ZOf(m, node))
    else Error("Coordinate does not exist")
  }

  /** The linear router index of grid position (x, y, z). */
  function Encode(m: Mesh, x: int, y: int, z: int): int {
    z * LayerSize(m) + y * m.k + x
  }

  predicate InGrid(m: Mesh, x: int, y: int, z: int) {
    0 <= x < m.k && 0 <= y < m.n && 0 <= z < m.s
  }

  predicate IsNode(m: Mesh, node: int) {
    0 <= node < m.k * m.n * m.s
  }

  /** Decoding a grid position's index gives the position back. */
  lemma {:induction false} EncodeDecodes(m: Mesh, x: int, y: int, z: int)
    requires Shaped(m) && InGrid(m, x, y, z)
    ensures IsNode(m, Encode(m, x, y, z))
    ensures XOf(m, Encode(m, x, y, z)) == x
    ensures YOf(m, Encode(m, x, y, z)) == y
    ensures ZOf(m, Encode(m, x, y, z)) == z
  {
    var kn := LayerSize(m);
    var node := Encode(m, x, y, z);
    var r := y * m.k + x;
    MulMono(y, m.n - 1, m.k);
    assert 0 <= r < kn;
    MulMono(z, m.s - 1, kn);
    assert node < m.k * m.n * m.s;
    DivModUnique(node, kn, z, r);
    DivModUnique(r, m.k, y, x);
    assert node == (z * m.n + y) * m.k + x;
    DivModUnique(node, m.k, z * m.n + y, x);
  }

  /** Digits of a router index in the mixed radix (k, n, s), on plain
      integers. */
  lemma Digits(node: int, k: int, n: int, s: int)
    requires k >= 1 && n >= 1 && 0 <= node < k * n * s
    ensures 0 <= node / (k * n) < s
    ensures 0 <= node % (k * n) / k < n
    ensures node % k == node % (k * n) % k
    ensures node == node / (k * n) * (k * n) + node % (k * n) / k * k + node % k
  {
    var kn := k * n;
    var z, r := node / kn, node % kn;
    var y, x := r / k, r % k;
    assert node == z * kn + r;
    assert r == y * k + x;
    assert node == (z * n + y) * k + x;
    DivModUnique(node, k, z * n + y, x);
    assert kn * s == k * n * s;
    FactorBelow(z, kn, s);
    FactorBelow(y, k, n);
  }

  /** Every router index decodes to a grid position that encodes back to it:
      together with `EncodeDecodes`, a bijection between router indices and
      the grid. */
  lemma {:induction false} DecodeEncodes(m: Mesh, node: int)
    requires Shaped(m) && IsNode(m, node)
    ensures InGrid(m, XOf(m, node), YOf(m, node), ZOf(m, node))
    ensures Encode(m, XOf(m, node), YOf(m, node), ZOf(m, node)) == node
  {
    var kn := LayerSize(m);
    QuotRemNonNegative(node, kn);
    QuotRemNonNegative(node, m.k);
    var z := node / kn;
    assert node - z * kn == node % kn;
    QuotRemNonNegative(node % kn, m.k);
    Digits(node, m.k, m.n, m.s);
  }

  /** `q * b < c * b` with `b > 0` bounds the factor: `q < c`. */
  lemma FactorBelow(q: int, b: int, c: int)
    requires b > 0 && q * b < c * b
    ensures q < c
  {
    if q >= c {
      MulMono(c, q, b);
    }
  }

  /** `_adjacentNode(node, dir)`: the planar neighbour, `NetworkEdge` at the
      mesh boundary, an error for a direction that is not planar. */
  function AdjacentNode(m: Mesh, node: int, dir: int): (r: Result<int>)
    requires Shaped(m)
    ensures r.Ok? <==> Left <= dir <= Back
  {
    if dir == Left then
      (if XOf(m, node) != 0 then Ok(node - 1) else Ok(NetworkEdge))
    else if dir == Right then
      (if XOf(m, node) != m.k - 1 then Ok(node + 1) else Ok(NetworkEdge))
    else if dir == Front then
      (if YOf(m, node) != m.n - 1 then Ok(node + m.k) else Ok(NetworkEdge))
    else if dir == Back then
      (if YOf(m, node) != 0 then Ok(node - m.k) else Ok(NetworkEdge))
    else Error("The port does not exist (Mesh3D::adjacentNode)")
  }

  /** The boundary test of each direction, stated on grid coordinates. */
  predicate AtBoundary(m: Mesh, x: int, y: int, dir: int) {
    (dir == Left && x == 0) || (dir == Right && x == m.k - 1) ||
    (dir == Front && y == m.n - 1) || (dir == Back && y == 0)
  }

  /** A planar direction in which the router has a neighbour. */
  predicate HasNeighbour(m: Mesh, node: int, dir: int)
    requires Shaped(m)
  {
    Left <= dir <= Back && AdjacentNode(m, node, dir) != Ok(NetworkEdge)
  }

  /** The sentinel is never a router index. */
  lemma EdgeIsNotNode(m: Mesh)
    ensures !IsNode(m, NetworkEdge)
  {
  }

  /** The coordinate change of one step in each planar direction. */
  function DX(dir: int): int {
    if dir == Left then -1 else if dir == Right then 1 else 0
  }

  function DY(dir: int): int {
    if dir == Back then -1 else if dir == Front then 1 else 0
  }

  /** `_adjacentNode` reports the edge exactly at the boundary of the
      direction asked for; otherwise it names the router of the same layer
      one step away in x (left/right) or in y (front/back). */
  lemma {:induction false} AdjacentNodeMeaning(m: Mesh, node: int, dir: int)
    requires Shaped(m) && IsNode(m, node) && Left <= dir <= Back
    ensures AdjacentNode(m, node, dir) == Ok(NetworkEdge)
            <==> AtBoundary(m, XOf(m, node), YOf(m, node), dir)
    ensures !AtBoundary(m, XOf(m, node), YOf(m, node), dir) ==>
              var x', y' := XOf(m, node) + DX(dir), YOf(m, node) + DY(dir);
              InGrid(m, x', y', ZOf(m, node)) &&
              AdjacentNode(m, node, dir) == Ok(Encode(m, x', y', ZOf(m, node)))
  {
    DecodeEncodes(m, node);
    var x, y, z := XOf(m, node), YOf(m, node), ZOf(m, node);
    if !AtBoundary(m, x, y, dir) {
      StepIndex(m, x, y, z, dir);
      EncodeDecodes(m, x + DX(dir), y + DY(dir), z);
    }
  }

  /** One planar step inside the grid moves the index by 1 in x or by k in y,
      and never reaches the sentinel. */
  lemma StepIndex(m: Mesh, x: int, y: int, z: int, dir: int)
    requires Shaped(m) && InGrid(m, x, y, z) && Left <= dir <= Back
    requires !AtBoundary(m, x, y, dir)
    ensures InGrid(m, x + DX(dir), y + DY(dir), z)
    ensures Encode(m, x + DX(dir), y + DY(dir), z) == Encode(m, x, y, z) + DX(dir) + DY(dir) * m.k
  {
    if dir == Front {
      assert (y + 1) * m.k == y * m.k + m.k;
    } else if dir == Back {
      assert (y - 1) * m.k == y * m.k - m.k;
    }
  }

  /** The neighbour named by `_adjacentNode` is a router of the mesh whose
      coordinates differ from the router's by the step of the direction. */
  lemma {:induction false} NeighbourCoordinates(m: Mesh, node: int, dir: int)
    requires Shaped(m) && IsNode(m, node) && HasNeighbour(m, node, dir)
    ensures var a := AdjacentNode(m, node, dir).value;
            IsNode(m, a) && ZOf(m, a) == ZOf(m, node) &&
            XOf(m, a) == XOf(m, node) + DX(dir) && YOf(m, a) == YOf(m, node) + DY(dir)
  {
    AdjacentNodeMeaning(m, node, dir);
    EncodeDecodes(m, XOf(m, node) + DX(dir), YOf(m, node) + DY(dir), ZOf(m, node));
  }

  /** Links are two-way: the neighbour in direction p sees the router again
      in the opposite direction. */
  lemma {:induction false} NeighbourSymmetric(m: Mesh, node: int, p: int)
    requires Shaped(m) && IsNode(m, node) && HasNeighbour(m, node, p)
    ensures Left <= Opposite(p) <= Back
    ensures HasNeighbour(m, AdjacentNode(m, node, p).value, Opposite(p))
    ensures AdjacentNode(m, AdjacentNode(m, node, p).value, Opposite(p)) == Ok(node)
  {
    NeighbourCoordinates(m, node, p);
    var a := AdjacentNode(m, node, p).value;
    AdjacentNodeMeaning(m, a, Opposite(p));
    DecodeEncodes(m, node);
  }

  /** `_adjacentChannel(node, dir)`: the index of the planar channel on
      which `node` sends in direction `dir`, by the closed form of the
      source, including its error exits. */
  function AdjacentChannel(m: Mesh, node: int, dir: int): (r: Result<int>)
    requires Shaped(m)
    ensures r.Ok? ==> Left <= dir <= Back
  {
    var x := XOf(m, node);
    var y := YOf(m, node);
    var z := ZOf(m, node);
    var chPerK := 4 * m.k - 2;
    var chPerN := ((m.k - 1) * m.n + (m.n - 1) * m.k) * 2 * z;
    var offset := chPerK * y + chPerN;
    if dir == Left then
      if 0 <= y < m.n - 1 then Ok(4 * (x - 1) + 1 + offset)
      else if y == m.n - 1 then Ok(2 * (x - 1) + 1 + offset)
      else Error("y value out of bounds of mesh dimensions")
    else if dir == Right then
      if 0 <= y < m.n - 1 then Ok(4 * x + offset)
      else if y == m.n - 1 then Ok(2 * x + offset)
      else Error("y value out of bounds of mesh dimensions")
    else if dir == Front then
      if 0 <= x < m.k - 1 then Ok(4 * x + 2 + offset)
      else if x == m.k - 1 then Ok(4 * x + offset)
      else Error("x value out of bounds of mesh dimensions")
    else if dir == Back then
      if 0 <= x < m.k - 1 then Ok(4 * x + 3 + chPerK * (y - 1) + chPerN)
      else if x == m.k - 1 then Ok(4 * x + 1 + chPerK * (y - 1) + chPerN)
      else Error("x value out of bounds of mesh dimensions")
    else Error("The port does not exist (Mesh3D::adjacentChannel)")
  }

  /** For a router of the mesh, `_adjacentChannel` fails only on a direction
      that is not planar. */
  lemma AdjacentChannelDefined(m: Mesh, node: int, dir: int)
    requires Shaped(m) && IsNode(m, node)
    ensures AdjacentChannel(m, node, dir).Ok? <==> Left <= dir <= Back
  {
    DecodeEncodes(m, node);
  }
}

=== FILE: mesh_build.dfy ===
/** Construction and per-cycle evaluation of the 3D mesh
    (`Mesh3D` constructor, `_AllocVerChan`, `_BuildNet`, `Evaluate`).

    The wiring is modelled as data: for every router, the ports it gets and
    the channels attached to them in the order `_BuildNet` attaches them.
    Channels are named by their index in the network's channel arrays. */
module MeshBuild {
  import opened Outcome
  import opened CppInt
  import opened Mesh3D
  import MeshChannels
  import VC = VerticalChannel

  /** The port count `_BuildNet` gives the router at `node`. */
  function Ports(m: Mesh, node: int): int
    requires Shaped(m)
  {
    var x, y := XOf(m, node), YOf(m, node);
    if (x == m.k - 1 || x == 0) && (y == m.n - 1 || y == 0) then 5
    else if (x > 0 && x < m.k - 1) && (y > 0 && y < m.n - 1) then 7
    else 6
  }

  /** Planar directions in [from, 4) in which the router has a neighbour. */
  function NeighbourCount(m: Mesh, node: int, from: nat): nat
    requires Shaped(m) && from <= 4
    decreases 4 - from
  {
    if from == 4 then 0
    else (if HasNeighbour(m, node, from) then 1 else 0) + NeighbourCount(m, node, from + 1)
  }

  /** The port count covers every planar neighbour plus the up bus, the
      down bus and the injection/ejection port; on meshes at least two
      routers wide in x and y it is exactly that many. */
  lemma PortsMatchNeighbours(m: Mesh, node: int)
    requires Shaped(m) && IsNode(m, node)
    ensures Ports(m, node) >= NeighbourCount(m, node, 0) + 3
    ensures m.k >= 2 && m.n >= 2 ==> Ports(m, node) == NeighbourCount(m, node, 0) + 3
  {
    AdjacentNodeMeaning(m, node, Left);
    AdjacentNodeMeaning(m, node, Right);
    AdjacentNodeMeaning(m, node, Front);
    AdjacentNodeMeaning(m, node, Back);
    DecodeEncodes(m, node);
  }

  /** The index of the bus carrying flits up from `node`'s column, which is
      also the index of its up arbiter. */
  function UpIndex(m: Mesh, node: int): int
    requires Shaped(m)
  {
    Rem(node, LayerSize(m))
  }

  /** The bus carrying flits down, `node % (k*n) + k*n`. */
  function DownIndex(m: Mesh, node: int): int
    requires Shaped(m)
  {
    Rem(node, LayerSize(m)) + LayerSize(m)
  }

  /** The credit channel paired with vertical bus `v`. */
  function VerticalCredit(m: Mesh, v: int): int {
    ComputeSize(m).channels + v
  }

  /** The up index is the router's position within its layer and the down
      index the same shifted by k*n; both name one of the `_vchannels`
      buses, and their credit channels follow the planar ones. */
  lemma VerticalIndexing(m: Mesh, node: int)
    requires Shaped(m) && IsNode(m, node)
    ensures UpIndex(m, node) == YOf(m, node) * m.k + XOf(m, node)
    ensures 0 <= UpIndex(m, node) < LayerSize(m)
    ensures DownIndex(m, node) == UpIndex(m, node) + LayerSize(m)
    ensures LayerSize(m) <= DownIndex(m, node) < ComputeSize(m).vchannels
    ensures ComputeSize(m).channels <= VerticalCredit(m, UpIndex(m, node))
    ensures VerticalCredit(m, DownIndex(m, node)) < ComputeSize(m).channels + ComputeSize(m).vchannels
  {
    DecodeEncodes(m, node);
    QuotRemNonNegative(node, LayerSize(m));
    Digits(node, m.k, m.n, m.s);
    QuotRemNonNegative(node % LayerSize(m), m.k);
    QuotRemNonNegative(node, m.k);
  }

  /** Routers share their vertical buses and arbiters exactly when they
      stand in the same (x, y) column. */
  lemma ColumnSharesBuses(m: Mesh, a: int, b: int)
    requires Shaped(m) && IsNode(m, a) && IsNode(m, b)
    ensures UpIndex(m, a) == UpIndex(m, b) <==> XOf(m, a) == XOf(m, b) && YOf(m, a) == YOf(m, b)
    ensures DownIndex(m, a) == DownIndex(m, b) <==> UpIndex(m, a) == UpIndex(m, b)
  {
    VerticalIndexing(m, a);
    VerticalIndexing(m, b);
    DecodeEncodes(m, a);
    DecodeEncodes(m, b);
    if UpIndex(m, a) == UpIndex(m, b) {
      var u := UpIndex(m, a);
      DivModUnique(u, m.k, YOf(m, a), XOf(m, a));
      DivModUnique(u, m.k, YOf(m, b), XOf(m, b));
    }
  }

  /** Port roles, in the order of `updatePortMap` calls. */
  datatype PortKind = PlanarPort(dir: int) | UpPort | DownPort | NodePort

  /** A flit-carrying channel: `_chan[i]`, `_chan_ver[i]`, `_inject[n]` or
      `_eject[n]`. */
  datatype Link = PlanarChannel(index: int) | VerticalBus(index: int)
                | Injection(node: int) | Ejection(node: int)

  /** A credit channel: `_chan_cred[i]`, `_inject_cred[n]` or `_eject_cred[n]`. */
  datatype CreditLink = CreditChannel(index: int) | InjectCredit(node: int) | EjectCredit(node: int)

  /** One port of a router with the channels added to it. */
  datatype Attachment = Attachment(kind: PortKind, input: Link, inputCredit: CreditLink,
                                   output: Link, outputCredit: CreditLink)

  /** The planar part of `_BuildNet`'s loop for directions [p, 4): a
      direction facing the edge is skipped; otherwise the router reads the
      channel its neighbour sends on in the opposite direction and writes
      its own channel in direction p. */
  function PlanarAttachments(m: Mesh, node: int, p: nat): seq<Attachment>
    requires Shaped(m) && IsNode(m, node) && p <= 4
    decreases 4 - p
  {
    if p == 4 then []
    else if AdjacentNode(m, node, p) == Ok(NetworkEdge) then PlanarAttachments(m, node, p + 1)
    else
      var adj := AdjacentNode(m, node, p).value;
      NeighbourCoordinates(m, node, p);
      NeighbourSymmetric(m, node, p);
      AdjacentChannelDefined(m, adj, Opposite(p));
      AdjacentChannelDefined(m, node, p);
      var adjInput := AdjacentChannel(m, adj, Opposite(p)).value;
      var adjOutput := AdjacentChannel(m, node, p).value;
      [Attachment(PlanarPort(p), PlanarChannel(adjInput), CreditChannel(adjInput),
                  PlanarChannel(adjOutput), CreditChannel(adjOutput))]
      + PlanarAttachments(m, node, p + 1)
  }

  /** The router `_BuildNet` creates for `node`. */
  datatype RouterSetup = RouterSetup(ports: int, attachments: seq<Attachment>,
                                     upArbiter: int, downArbiter: int)

  function BuildRouter(m: Mesh, node: int): RouterSetup
    requires Shaped(m) && IsNode(m, node)
  {
    var up := UpIndex(m, node);
    var down := DownIndex(m, node);
    var vertical := [
      Attachment(UpPort, VerticalBus(up), CreditChannel(VerticalCredit(m, up)),
                 VerticalBus(up), CreditChannel(VerticalCredit(m, up))),
      Attachment(DownPort, VerticalBus(down), CreditChannel(VerticalCredit(m, down)),
                 VerticalBus(down), CreditChannel(VerticalCredit(m, down))),
      Attachment(NodePort, Injection(node), InjectCredit(node), Ejection(node), EjectCredit(node))];
    RouterSetup(Ports(m, node), PlanarAttachments(m, node, 0) + vertical, up, down)
  }

  /** What a planar attachment of router `node` must be: a direction with
      a neighbour, the router's own channel in that direction as output,
      and as input the channel on which the neighbour sends back, each with
      its credit channel. */
  predicate PlanarWired(m: Mesh, node: int, a: Attachment)
    requires Shaped(m)
  {
    a.kind.PlanarPort? && HasNeighbour(m, node, a.kind.dir) &&
    a.output.PlanarChannel? && a.input.PlanarChannel? &&
    AdjacentChannel(m, node, a.kind.dir) == Ok(a.output.index) &&
    AdjacentChannel(m, AdjacentNode(m, node, a.kind.dir).value, Opposite(a.kind.dir)) == Ok(a.input.index) &&
    a.outputCredit == CreditChannel(a.output.index) &&
    a.inputCredit == CreditChannel(a.input.index)
  }

  /** A direction with a neighbour contributes one attachment ahead of the
      later directions' ones, and that attachment is wired correctly. */
  lemma PlanarHead(m: Mesh, node: int, p: nat)
    requires Shaped(m) && IsNode(m, node) && p < 4 && AdjacentNode(m, node, p) != Ok(NetworkEdge)
    ensures |PlanarAttachments(m, node, p)| > 0
    ensures PlanarAttachments(m, node, p)[1..] == PlanarAttachments(m, node, p + 1)
    ensures PlanarAttachments(m, node, p)[0].kind == PlanarPort(p)
    ensures PlanarWired(m, node, PlanarAttachments(m, node, p)[0])
  {
    var adj := AdjacentNode(m, node, p).value;
    NeighbourSymmetric(m, node, p);
    NeighbourCoordinates(m, node, p);
    AdjacentChannelDefined(m, adj, Opposite(p));
    AdjacentChannelDefined(m, node, p);
    var cin := AdjacentChannel(m, adj, Opposite(p)).value;
    var cout := AdjacentChannel(m, node, p).value;
    var h := Attachment(PlanarPort(p), PlanarChannel(cin), CreditChannel(cin),
                        PlanarChannel(cout), CreditChannel(cout));
    assert PlanarAttachments(m, node, p) == [h] + PlanarAttachments(m, node, p + 1);
    assert PlanarWired(m, node, h);
  }

  lemma {:induction false} PlanarAttachmentsSound(m: Mesh, node: int, p: nat)
    requires Shaped(m) && IsNode(m, node) && p <= 4
    ensures |PlanarAttachments(m, node, p)| == NeighbourCount(m, node, p)
    ensures forall i :: 0 <= i < |PlanarAttachments(m, node, p)| ==>
              PlanarAttachments(m, node, p)[i].kind.PlanarPort? &&
              p <= PlanarAttachments(m, node, p)[i].kind.dir
    ensures forall i :: 0 <= i < |PlanarAttachments(m, node, p)| ==>
              PlanarWired(m, node, PlanarAttachments(m, node, p)[i])
    ensures forall i, j :: 0 <= i < j < |PlanarAttachments(m, node, p)| ==>
              PlanarAttachments(m, node, p)[i].kind.dir < PlanarAttachments(m, node, p)[j].kind.dir
    decreases 4 - p
  {
    if p < 4 {
      PlanarAttachmentsSound(m, node, p + 1);
      var all := PlanarAttachments(m, node, p);
      var rest := PlanarAttachments(m, node, p + 1);
      if AdjacentNode(m, node, p) != Ok(NetworkEdge) {
        PlanarHead(m, node, p);
        assert HasNeighbour(m, node, p) && |all| == |rest| + 1;
        assert all == [all[0]] + rest;
        PlanarConsSound(m, node, p, all[0], rest, all);
      } else {
        assert !HasNeighbour(m, node, p) && all == rest;
      }
    }
  }

  /** An attachment wired in direction `p` ahead of attachments sound from
      `p + 1` on gives attachments sound from `p` on. */
  lemma PlanarConsSound(m: Mesh, node: int, p: nat, h: Attachment, rest: seq<Attachment>, all: seq<Attachment>)
    requires Shaped(m) && all == [h] + rest && h.kind == PlanarPort(p) && PlanarWired(m, node, h)
    requires forall i :: 0 <= i < |rest| ==> rest[i].kind.PlanarPort? && p + 1 <= rest[i].kind.dir
    requires forall i :: 0 <= i < |rest| ==> PlanarWired(m, node, rest[i])
    requires forall i, j :: 0 <= i < j < |rest| ==> rest[i].kind.dir < rest[j].kind.dir
    ensures forall i :: 0 <= i < |all| ==> all[i].kind.PlanarPort? && p <= all[i].kind.dir
    ensures forall i :: 0 <= i < |all| ==> PlanarWired(m, node, all[i])
    ensures forall i, j :: 0 <= i < j < |all| ==> all[i].kind.dir < all[j].kind.dir
  {
    forall i | 0 < i < |all|
      ensures all[i] == rest[i - 1]
    {
    }
  }

  /** `_BuildNet` gives each router one attachment per planar neighbour, in
      direction order, then the up bus, the down bus and the node port,
      with the arbiters of its column; on meshes at least two routers wide
      the port count matches the attachments exactly. */
  lemma {:induction false} RouterPorts(m: Mesh, node: int)
    requires Shaped(m) && IsNode(m, node)
    ensures var r := BuildRouter(m, node);
            var np := NeighbourCount(m, node, 0);
            |r.attachments| == np + 3 &&
            r.ports >= |r.attachments| &&
            (m.k >= 2 && m.n >= 2 ==> r.ports == |r.attachments|) &&
            r.attachments[np].kind == UpPort &&
            r.attachments[np].input == r.attachments[np].output == VerticalBus(UpIndex(m, node)) &&
            r.attachments[np + 1].kind == DownPort &&
            r.attachments[np + 1].input == r.attachments[np + 1].output == VerticalBus(DownIndex(m, node)) &&
            r.attachments[np + 2].kind == NodePort &&
            r.attachments[np + 2].input == Injection(node) &&
            r.attachments[np + 2].output == Ejection(node) &&
            r.upArbiter == UpIndex(m, node) && r.downArbiter == DownIndex(m, node)
  {
    PlanarAttachmentsSound(m, node, 0);
    PortsMatchNeighbours(m, node);
  }

  /** Every planar attachment is wired as `PlanarWired` says, with indices
      in [0, _channels), and the channel a router reads in direction d is
      the one its neighbour in direction d sends on back towards it. */
  lemma {:induction false} RouterPlanarInputs(m: Mesh, node: int, i: int)
    requires Shaped(m) && IsNode(m, node) && 0 <= i < NeighbourCount(m, node, 0)
    ensures var atts := BuildRouter(m, node).attachments;
            i < |atts| && PlanarWired(m, node, atts[i]) &&
            0 <= atts[i].input.index < ComputeSize(m).channels &&
            0 <= atts[i].output.index < ComputeSize(m).channels &&
            MeshChannels.ChannelSender(m, atts[i].input.index)
              == (AdjacentNode(m, node, atts[i].kind.dir).value, Opposite(atts[i].kind.dir))
  {
    PlanarAttachmentsSound(m, node, 0);
    var atts := BuildRouter(m, node).attachments;
    assert atts[i] == PlanarAttachments(m, node, 0)[i];
    var d := atts[i].kind.dir;
    var adj := AdjacentNode(m, node, d).value;
    NeighbourSymmetric(m, node, d);
    NeighbourCoordinates(m, node, d);
    MeshChannels.ChannelInRange(m, node, d);
    MeshChannels.ChannelInRange(m, adj, Opposite(d));
    var c := atts[i].input.index;
    MeshChannels.ChannelSurjective(m, c);
    var (sn, sd) := MeshChannels.ChannelSender(m, c);
    MeshChannels.ChannelInjective(m, sn, sd, adj, Opposite(d));
  }

  /** No two router ports read the same planar channel: the reader of a
      planar channel is unique, as its writer is. */
  lemma InputChannelUnique(m: Mesh, a: int, da: int, b: int, db: int)
    requires Shaped(m) && IsNode(m, a) && IsNode(m, b)
    requires HasNeighbour(m, a, da) && HasNeighbour(m, b, db)
    requires AdjacentChannel(m, AdjacentNode(m, a, da).value, Opposite(da))
             == AdjacentChannel(m, AdjacentNode(m, b, db).value, Opposite(db))
    ensures a == b && da == db
  {
    NeighbourSymmetric(m, a, da);
    NeighbourSymmetric(m, b, db);
    NeighbourCoordinates(m, a, da);
    NeighbourCoordinates(m, b, db);
    var na, nb := AdjacentNode(m, a, da).value, AdjacentNode(m, b, db).value;
    MeshChannels.ChannelInjective(m, na, Opposite(da), nb, Opposite(db));
  }

  /** The column of vertical channel `i`: bus i and bus i + k*n serve the
      column at x = i mod k, y = i / k. */
  predicate ColumnLabelled(m: Mesh, chans: seq<VC.VChannel>, i: int)
    requires Shaped(m) && 0 <= i && i + LayerSize(m) < |chans|
  {
    var kn := LayerSize(m);
    chans[i].x == ToShort(i % m.k) && chans[i].y == ToShort(i / m.k) && chans[i].dir &&
    chans[i + kn].x == ToShort(i % m.k) && chans[i + kn].y == ToShort(i / m.k) && !chans[i + kn].dir
  }

  /** Only the utilisation coordinates of a vertical channel differ. */
  predicate SameRegistry(a: VC.VChannel, b: VC.VChannel) {
    a.sources == b.sources && a.sinks == b.sinks && a.sourcePort == b.sourcePort &&
    a.sinkPort == b.sinkPort && a.active == b.active && a.idle == b.idle
  }

  /** A bus after a router at (x, y) stamps it with its coordinates and
      direction. */
  function Stamp(c: VC.VChannel, x: int, y: int, up: bool): VC.VChannel {
    VC.SetDir(VC.SetY(VC.SetX(c, ToShort(x)), ToShort(y)), up)
  }

  /** One router's stamping: its up bus with direction up, its down bus
      with direction down. */
  function StampColumn(m: Mesh, r: seq<VC.VChannel>, node: int): seq<VC.VChannel>
    requires Shaped(m) && node >= 0 && |r| == 2 * LayerSize(m)
  {
    ColumnOfNode(m, node);
    var up, down := UpIndex(m, node), DownIndex(m, node);
    var x, y := XOf(m, node), YOf(m, node);
    r[up := Stamp(r[up], x, y, true)][down := Stamp(r[down], x, y, false)]
  }

  /** Stamping by router `node` labels its column and keeps every other
      column's label and every bus's registrations. */
  lemma StampColumnStep(m: Mesh, r: seq<VC.VChannel>, node: int)
    requires Shaped(m) && node >= 0 && |r| == 2 * LayerSize(m)
    requires forall i :: 0 <= i < LayerSize(m) && i < node ==> ColumnLabelled(m, r, i)
    ensures |StampColumn(m, r, node)| == |r|
    ensures forall i :: 0 <= i < |r| ==> SameRegistry(StampColumn(m, r, node)[i], r[i])
    ensures forall i :: 0 <= i < LayerSize(m) && i <= node ==> ColumnLabelled(m, StampColumn(m, r, node), i)
  {
    ColumnOfNode(m, node);
    StampRegistry(m, r, node);
    forall i | 0 <= i < LayerSize(m) && i <= node
      ensures ColumnLabelled(m, StampColumn(m, r, node), i)
    {
      if i == UpIndex(m, node) {
        StampLabels(m, r, node);
      } else {
        assert i < node;
        StampKeeps(m, r, node, i);
      }
    }
  }

  lemma StampLabels(m: Mesh, r: seq<VC.VChannel>, node: int)
    requires Shaped(m) && node >= 0 && |r| == 2 * LayerSize(m)
    ensures 0 <= UpIndex(m, node) < LayerSize(m)
    ensures ColumnLabelled(m, StampColumn(m, r, node), UpIndex(m, node))
  {
    ColumnOfNode(m, node);
    var r' := StampColumn(m, r, node);
    var up, down := UpIndex(m, node), DownIndex(m, node);
    var x, y := XOf(m, node), YOf(m, node);
    assert r'[up] == Stamp(r[up], x, y, true);
    assert r'[down] == Stamp(r[down], x, y, false);
  }

  lemma StampKeeps(m: Mesh, r: seq<VC.VChannel>, node: int, i: int)
    requires Shaped(m) && node >= 0 && |r| == 2 * LayerSize(m)
    requires 0 <= i < LayerSize(m) && i != UpIndex(m, node) && ColumnLabelled(m, r, i)
    ensures ColumnLabelled(m, StampColumn(m, r, node), i)
  {
    ColumnOfNode(m, node);
    var r' := StampColumn(m, r, node);
    assert r'[i] == r[i] && r'[i + LayerSize(m)] == r[i + LayerSize(m)];
  }

  lemma StampRegistry(m: Mesh, r: seq<VC.VChannel>, node: int)
    requires Shaped(m) && node >= 0 && |r| == 2 * LayerSize(m)
    ensures |StampColumn(m, r, node)| == |r|
    ensures forall i :: 0 <= i < |r| ==> SameRegistry(StampColumn(m, r, node)[i], r[i])
  {
    ColumnOfNode(m, node);
  }

  /** The router count's sign follows the stack depth. */
  lemma SizeBounds(m: Mesh)
    requires Shaped(m)
    ensures m.s < 1 ==> m.k * m.n * m.s <= 0
    ensures m.s >= 1 ==> LayerSize(m) <= m.k * m.n * m.s
  {
    if m.s < 1 {
      MulMono(m.s, 0, LayerSize(m));
    } else {
      MulMono(1, m.s, LayerSize(m));
    }
  }

  /** The vertical-channel bookkeeping of `_BuildNet`: every router stamps
      its column's up bus with (x, y, up) and its down bus with
      (x, y, down). */
  method LabelVerticalChannels(m: Mesh, chans: seq<VC.VChannel>) returns (r: seq<VC.VChannel>)
    requires Shaped(m) && |chans| == ComputeSize(m).vchannels
    ensures |r| == |chans|
    ensures forall i :: 0 <= i < |r| ==> SameRegistry(r[i], chans[i])
    ensures m.s >= 1 ==> forall i :: 0 <= i < LayerSize(m) ==> ColumnLabelled(m, r, i)
    ensures m.s < 1 ==> r == chans
  {
    var kn := LayerSize(m);
    var size := m.k * m.n * m.s;
    SizeBounds(m);
    r := chans;
    var node := 0;
    while node < size
      invariant 0 <= node && (size >= 0 ==> node <= size)
      invariant |r| == |chans|
      invariant forall i :: 0 <= i < |r| ==> SameRegistry(r[i], chans[i])
      invariant forall i :: 0 <= i < kn && i < node ==> ColumnLabelled(m, r, i)
      invariant node == 0 ==> r == chans
      invariant size <= 0 ==> node == 0
    {
      StampColumnStep(m, r, node);
      r := StampColumn(m, r, node);
      node := node + 1;
    }
  }

  /** A router's coordinates are those of its column's bus index. */
  lemma ColumnOfNode(m: Mesh, node: int)
    requires Shaped(m) && node >= 0
    ensures 0 <= UpIndex(m, node) < LayerSize(m) && DownIndex(m, node) == UpIndex(m, node) + LayerSize(m)
    ensures XOf(m, node) == UpIndex(m, node) % m.k && YOf(m, node) == UpIndex(m, node) / m.k
    ensures node < LayerSize(m) ==> UpIndex(m, node) == node
  {
    var kn := LayerSize(m);
    QuotRemNonNegative(node, kn);
    QuotRemNonNegative(node, m.k);
    var z := node / kn;
    assert node - z * kn == node % kn;
    QuotRemNonNegative(node % kn, m.k);
    var r := node % kn;
    assert node == (z * m.n) * m.k + r;
    var y, x := r / m.k, r % m.k;
    assert node == (z * m.n + y) * m.k + x;
    DivModUnique(node, m.k, z * m.n + y, x);
    if node < kn {
      DivModUnique(node, kn, 0, node);
    }
  }

  /** Timed modules, in the order they are pushed onto `_timed_modules`. */
  datatype TimedModule = BaseModule(id: int)    // pushed by the Network base class
                       | VerticalModule(index: int)
                       | CreditModule(index: int)
                       | RouterModule(node: int)

  /** `_AllocVerChan` pushes, for each bus cv, the bus and then its credit
      channel `_channels + cv`. */
  function VerticalModules(channels: int, vchannels: nat): (ms: seq<TimedModule>)
    ensures |ms| == 2 * vchannels
    ensures forall cv :: 0 <= cv < vchannels ==>
              ms[2 * cv] == VerticalModule(cv) && ms[2 * cv + 1] == CreditModule(channels + cv)
    decreases vchannels
  {
    if vchannels == 0 then []
    else VerticalModules(channels, vchannels - 1) +
         [VerticalModule(vchannels - 1), CreditModule(channels + vchannels - 1)]
  }

  /** `_BuildNet` pushes the routers in index order. */
  function RouterModules(size: nat): (ms: seq<TimedModule>)
    ensures |ms| == size
    ensures forall node :: 0 <= node < size ==> ms[node] == RouterModule(node)
  {
    seq(size, node requires 0 <= node < size => RouterModule(node))
  }

  /** The network `Mesh3D`'s constructor builds, reduced to what this model
      covers. */
  datatype Network = Network(mesh: Mesh, sizes: Sizes, chanVer: seq<VC.VChannel>,
                             creditChannels: int, arbiterInputs: seq<int>,
                             routers: seq<RouterSetup>, timed: seq<TimedModule>)

  /** `VerticalChannels()`. */
  function VerticalChannels(net: Network): int {
    net.sizes.vchannels
  }

  /** `GetVerticalChannels()`. */
  function GetVerticalChannels(net: Network): seq<VC.VChannel> {
    net.chanVer
  }

  /** The constructor: `_ComputeSize`, then `_AllocVerChan` (one new bus,
      one credit channel and one s-input arbiter per vertical channel),
      then `_BuildNet`. The base class's channels and modules are given as
      `baseModules`; new buses start with the uninitialised coordinates
      `x0`, `y0`, `d0`. The routers' registration on the buses is router
      code and is not part of this model. */
  method NewMesh3D(m: Mesh, classes: int, baseModules: seq<TimedModule>,
                   x0: Short, y0: Short, d0: bool) returns (net: Network)
    requires m.k >= 1 && m.n >= 1 && m.s >= 1 && classes >= 0
    ensures net.sizes == ComputeSize(m)
    ensures VerticalChannels(net) == 2 * m.k * m.n == |GetVerticalChannels(net)|
    ensures |net.arbiterInputs| == VerticalChannels(net)
    ensures forall a :: 0 <= a < |net.arbiterInputs| ==> net.arbiterInputs[a] == m.s
    ensures net.creditChannels == net.sizes.channels + net.sizes.vchannels
    ensures forall i :: 0 <= i < LayerSize(m) ==> ColumnLabelled(m, GetVerticalChannels(net), i)
    ensures |net.routers| == net.sizes.size
    ensures forall node :: 0 <= node < |net.routers| ==> net.routers[node] == BuildRouter(m, node)
    ensures net.timed == baseModules + VerticalModules(net.sizes.channels, net.sizes.vchannels)
                         + RouterModules(net.sizes.size)
  {
    var sizes := ComputeSize(m);
    assert sizes.vchannels == 2 * m.k * m.n;
    var blank := VC.New(classes, x0, y0, d0);
    var chans := seq(sizes.vchannels, _ => blank);
    var arbiters := seq(sizes.vchannels, _ => m.s);
    chans := LabelVerticalChannels(m, chans);
    var routers := seq(sizes.size, node requires 0 <= node < sizes.size => BuildRouter(m, node));
    var timed := baseModules + VerticalModules(sizes.channels, sizes.vchannels) + RouterModules(sizes.size);
    net := Network(m, sizes, chans, sizes.channels + sizes.vchannels, arbiters, routers, timed);
  }

  /** One action of `Mesh3D::Evaluate`. */
  datatype Step = MainEvaluate(timedModule: TimedModule)
                | AfterSwitchAllocation(router: int)
                | ClearVerticalArbiters(router: int)

  function PhaseOf(st: Step): int {
    match st
    case MainEvaluate(_) => 0
    case AfterSwitchAllocation(_) => 1
    case ClearVerticalArbiters(_) => 2
  }

  /** `Evaluate()`: every timed module's `Evaluate`, then every router's
      `Evaluate_AfterSA`, then every router's `ClearVerticalArbiters`. */
  function Evaluate(timed: seq<TimedModule>, routers: seq<int>): seq<Step> {
    seq(|timed|, i requires 0 <= i < |timed| => MainEvaluate(timed[i])) +
    seq(|routers|, i requires 0 <= i < |routers| => AfterSwitchAllocation(routers[i])) +
    seq(|routers|, i requires 0 <= i < |routers| => ClearVerticalArbiters(routers[i]))
  }

  /** The phases never interleave: no vertical-arbitration step precedes a
      main evaluation and no arbiter is cleared before every router has
      resolved its vertical arbitration. Each router takes part in each
      later phase exactly once, in router order. */
  lemma EvaluatePhases(timed: seq<TimedModule>, routers: seq<int>)
    ensures var ev := Evaluate(timed, routers);
            |ev| == |timed| + 2 * |routers| &&
            (forall i, j :: 0 <= i < j < |ev| ==> PhaseOf(ev[i]) <= PhaseOf(ev[j])) &&
            (forall i :: 0 <= i < |timed| ==> ev[i] == MainEvaluate(timed[i])) &&
            (forall i :: 0 <= i < |routers| ==>
               ev[|timed| + i] == AfterSwitchAllocation(routers[i]) &&
               ev[|timed| + |routers| + i] == ClearVerticalArbiters(routers[i]))
  {
    var ev := Evaluate(timed, routers);
    forall i | 0 <= i < |ev|
      ensures PhaseOf(ev[i]) == (if i < |timed| then 0 else if i < |timed| + |routers| then 1 else 2)
    {
    }
  }
}

=== FILE: mesh_channels.dfy ===
/** The planar channel numbering of `Mesh3D::_adjacentChannel`.

    Each stack layer owns a contiguous block of `ChannelsPerLayer` channel
    indices, layer z starting at z times that count. Inside a layer, every
    row y below the last one owns a block of 4k-2 indices holding, for each
    x < k-1, the channels right from (x, y), left from (x+1, y), front from
    (x, y) and back from (x, y+1), followed by front from (k-1, y) and back
    from (k-1, y+1); the last row holds only the right/left pairs. This
    module proves that the closed form gives every directed planar link its
    own index and that the indices fill [0, _channels) exactly. */
module MeshChannels {
  import opened Outcome
  import opened CppInt
  import opened Mesh3D

  /** Width of one row block, `ch_per_k` in the source. */
  function RowBlock(m: Mesh): int {
    4 * m.k - 2
  }

  /** Whether the link sits in the last row's right/left block rather than
      in a row block. */
  predicate InLastRow(m: Mesh, x: int, y: int, dir: int) {
    (dir == Left || dir == Right) && y == m.n - 1
  }

  /** The row block holding a row-block link: a back link from row y is
      stored in block y-1. */
  function RowOf(y: int, dir: int): int {
    if dir == Back then y - 1 else y
  }

  /** The position of a row-block link inside its block. */
  function SlotOf(m: Mesh, x: int, dir: int): int {
    if dir == Right then 4 * x
    else if dir == Left then 4 * (x - 1) + 1
    else if dir == Front then (if x < m.k - 1 then 4 * x + 2 else 4 * x)
    else (if x < m.k - 1 then 4 * x + 3 else 4 * x + 1)
  }

  /** The index of the channel leaving grid position (x, y) in direction
      `dir`, relative to the start of its layer. */
  function LocalIndex(m: Mesh, x: int, y: int, dir: int): int {
    if InLastRow(m, x, y, dir) then
      (m.n - 1) * RowBlock(m) + (if dir == Right then 2 * x else 2 * (x - 1) + 1)
    else
      RowOf(y, dir) * RowBlock(m) + SlotOf(m, x, dir)
  }

  /** The sending end of a planar link: grid position and direction. */
  datatype Sender = Sender(x: int, y: int, dir: int)

  /** A position of one layer together with a direction in which it has a
      neighbour. */
  predicate ValidSender(m: Mesh, t: Sender) {
    0 <= t.x < m.k && 0 <= t.y < m.n && Left <= t.dir <= Back &&
    !AtBoundary(m, t.x, t.y, t.dir)
  }

  /** Inverse of `LocalIndex`: the sender of the local channel index `r`. */
  function DecodeLocal(m: Mesh, r: int): Sender
    requires Shaped(m)
  {
    var w := RowBlock(m);
    if r < (m.n - 1) * w then RowSender(m, r / w, r % w)
    else LastRowSender(m, r - (m.n - 1) * w)
  }

  /** The sender at slot `q` of row block `y`. */
  function RowSender(m: Mesh, y: int, q: int): Sender {
    if q < 4 * (m.k - 1) then
      var x := q / 4;
      var j := q % 4;
      if j == 0 then Sender(x, y, Right)
      else if j == 1 then Sender(x + 1, y, Left)
      else if j == 2 then Sender(x, y, Front)
      else Sender(x, y + 1, Back)
    else if q == 4 * (m.k - 1) then Sender(m.k - 1, y, Front)
    else Sender(m.k - 1, y + 1, Back)
  }

  /** The sender at position `q` of the last row's right/left block. */
  function LastRowSender(m: Mesh, q: int): Sender {
    var x := q / 2;
    if q % 2 == 0 then Sender(x, m.n - 1, Right) else Sender(x + 1, m.n - 1, Left)
  }

  /** The layer block is the row blocks plus the last row's 2(k-1) channels. */
  lemma LayerSplit(m: Mesh)
    requires Shaped(m)
    ensures ChannelsPerLayer(m) == (m.n - 1) * RowBlock(m) + 2 * (m.k - 1)
  {
  }

  /** A row-block link lies in a block below the last row, at a slot
      inside the block. */
  lemma RowSlot(m: Mesh, t: Sender)
    requires Shaped(m) && ValidSender(m, t) && !InLastRow(m, t.x, t.y, t.dir)
    ensures 0 <= RowOf(t.y, t.dir) < m.n - 1
    ensures 0 <= SlotOf(m, t.x, t.dir) < RowBlock(m)
  {
  }

  /** A block index below the last row starts a block that ends inside the
      row blocks. */
  lemma BlockBelow(yb: int, rows: int, w: int, slot: int)
    requires 0 <= yb < rows && 0 <= slot < w
    ensures 0 <= yb * w + slot < rows * w
  {
    MulMono(yb + 1, rows, w);
    MulMono(0, yb, w);
  }

  /** Every link's local index lies inside the layer block. */
  lemma LocalInRange(m: Mesh, t: Sender)
    requires Shaped(m) && ValidSender(m, t)
    ensures 0 <= LocalIndex(m, t.x, t.y, t.dir) < ChannelsPerLayer(m)
  {
    LayerSplit(m);
    var w := RowBlock(m);
    var rows := (m.n - 1) * w;
    if !InLastRow(m, t.x, t.y, t.dir) {
      var yb, slot := RowOf(t.y, t.dir), SlotOf(m, t.x, t.dir);
      RowSlot(m, t);
      BlockBelow(yb, m.n - 1, w, slot);
      assert LocalIndex(m, t.x, t.y, t.dir) == yb * w + slot;
    } else {
      MulMono(0, m.n - 1, w);
      assert rows >= 0;
      var pos := if t.dir == Right then 2 * t.x else 2 * (t.x - 1) + 1;
      assert 0 <= pos < 2 * (m.k - 1);
      assert LocalIndex(m, t.x, t.y, t.dir) == rows + pos;
    }
  }

  /** Decoding a link's local index gives the link back. */
  lemma {:induction false} DecodeLocalIndex(m: Mesh, t: Sender)
    requires Shaped(m) && ValidSender(m, t)
    ensures DecodeLocal(m, LocalIndex(m, t.x, t.y, t.dir)) == t
  {
    var w := RowBlock(m);
    var r := LocalIndex(m, t.x, t.y, t.dir);
    if InLastRow(m, t.x, t.y, t.dir) {
      var q := r - (m.n - 1) * w;
      if t.dir == Right {
        DivModUnique(q, 2, t.x, 0);
      } else {
        DivModUnique(q, 2, t.x - 1, 1);
      }
    } else {
      var yb, slot := RowOf(t.y, t.dir), SlotOf(m, t.x, t.dir);
      RowSlot(m, t);
      BlockBelow(yb, m.n - 1, w, slot);
      DivModUnique(r, w, yb, slot);
      if slot < 4 * (m.k - 1) {
        var xb := if t.dir == Left then t.x - 1 else t.x;
        var j := if t.dir == Right then 0 else if t.dir == Left then 1
                 else if t.dir == Front then 2 else 3;
        DivModUnique(slot, 4, xb, j);
      }
    }
  }

  /** Every local index of the layer block decodes to a link whose index is
      that local index. */
  lemma {:induction false} DecodeLocalValid(m: Mesh, r: int)
    requires Shaped(m) && 0 <= r < ChannelsPerLayer(m)
    ensures ValidSender(m, DecodeLocal(m, r))
    ensures LocalIndex(m, DecodeLocal(m, r).x, DecodeLocal(m, r).y, DecodeLocal(m, r).dir) == r
  {
    LayerSplit(m);
    if r < (m.n - 1) * RowBlock(m) {
      DecodeRowBlock(m, r);
    } else {
      DecodeLastRow(m, r);
    }
  }

  lemma {:induction false} DecodeRowBlock(m: Mesh, r: int)
    requires Shaped(m) && 0 <= r < (m.n - 1) * RowBlock(m)
    ensures ValidSender(m, DecodeLocal(m, r))
    ensures LocalIndex(m, DecodeLocal(m, r).x, DecodeLocal(m, r).y, DecodeLocal(m, r).dir) == r
  {
    var w := RowBlock(m);
    var y, q := r / w, r % w;
    DivNonNegative(r, w);
    FactorBelow(y, w, m.n - 1);
    assert DecodeLocal(m, r) == RowSender(m, y, q);
    RowSenderSlot(m, y, q);
  }

  /** The sender at a slot of a row block is a link whose row block and
      slot are those. */
  lemma RowSenderSlot(m: Mesh, y: int, q: int)
    requires Shaped(m) && 0 <= y < m.n - 1 && 0 <= q < RowBlock(m)
    ensures ValidSender(m, RowSender(m, y, q))
    ensures !InLastRow(m, RowSender(m, y, q).x, RowSender(m, y, q).y, RowSender(m, y, q).dir)
    ensures RowOf(RowSender(m, y, q).y, RowSender(m, y, q).dir) == y
    ensures SlotOf(m, RowSender(m, y, q).x, RowSender(m, y, q).dir) == q
  {
    if q < 4 * (m.k - 1) {
      FactorBelow(q / 4, 4, m.k - 1);
    }
  }

  lemma {:induction false} DecodeLastRow(m: Mesh, r: int)
    requires Shaped(m) && (m.n - 1) * RowBlock(m) <= r < (m.n - 1) * RowBlock(m) + 2 * (m.k - 1)
    ensures ValidSender(m, DecodeLocal(m, r))
    ensures LocalIndex(m, DecodeLocal(m, r).x, DecodeLocal(m, r).y, DecodeLocal(m, r).dir) == r
  {
    var q := r - (m.n - 1) * RowBlock(m);
    FactorBelow(q / 2, 2, m.k - 1);
  }

  /** `_adjacentChannel` of a router with a neighbour in `dir` is its
      layer's base index plus the local index of the link. */
  lemma {:induction false} ChannelOfLink(m: Mesh, node: int, dir: int)
    requires Shaped(m) && IsNode(m, node) && HasNeighbour(m, node, dir)
    ensures ValidSender(m, Sender(XOf(m, node), YOf(m, node), dir))
    ensures AdjacentChannel(m, node, dir)
            == Ok(ZOf(m, node) * ChannelsPerLayer(m) + LocalIndex(m, XOf(m, node), YOf(m, node), dir))
  {
    AdjacentNodeMeaning(m, node, dir);
    DecodeEncodes(m, node);
    LayerBase(m, ZOf(m, node));
    var y := YOf(m, node);
    assert RowBlock(m) * y == y * RowBlock(m);
    assert RowBlock(m) * (y - 1) == (y - 1) * RowBlock(m);
  }

  /** The source's layer offset `ch_per_n` is z layer blocks. */
  lemma LayerBase(m: Mesh, z: int)
    ensures ((m.k - 1) * m.n + (m.n - 1) * m.k) * 2 * z == z * ChannelsPerLayer(m)
  {
    var a := (m.k - 1) * m.n + (m.n - 1) * m.k;
    assert (m.k - 1) * m.n == m.k * m.n - m.n;
    assert (m.n - 1) * m.k == m.k * m.n - m.k;
    assert m.k * (m.n - 1) == m.k * m.n - m.k;
    assert m.n * (m.k - 1) == m.k * m.n - m.n;
    assert ChannelsPerLayer(m) == 2 * a;
  }

  /** The channel index of every link lies in [0, _channels). */
  lemma {:induction false} ChannelInRange(m: Mesh, node: int, dir: int)
    requires Shaped(m) && IsNode(m, node) && HasNeighbour(m, node, dir)
    ensures AdjacentChannel(m, node, dir).Ok?
    ensures 0 <= AdjacentChannel(m, node, dir).value < ComputeSize(m).channels
  {
    ChannelOfLink(m, node, dir);
    DecodeEncodes(m, node);
    var z := ZOf(m, node);
    var lpl := ChannelsPerLayer(m);
    var local := LocalIndex(m, XOf(m, node), YOf(m, node), dir);
    LocalInRange(m, Sender(XOf(m, node), YOf(m, node), dir));
    BlockBelow(z, m.s, lpl, local);
    assert AdjacentChannel(m, node, dir).value == z * lpl + local;
    assert ComputeSize(m).channels == m.s * lpl;
  }

  /** Distinct links get distinct channel indices, so every planar channel
      has exactly one sending router. */
  lemma {:induction false} ChannelInjective(m: Mesh, a: int, da: int, b: int, db: int)
    requires Shaped(m) && IsNode(m, a) && IsNode(m, b)
    requires HasNeighbour(m, a, da) && HasNeighbour(m, b, db)
    requires AdjacentChannel(m, a, da) == AdjacentChannel(m, b, db)
    ensures a == b && da == db
  {
    ChannelOfLink(m, a, da);
    ChannelOfLink(m, b, db);
    var lpl := ChannelsPerLayer(m);
    var ta := Sender(XOf(m, a), YOf(m, a), da);
    var tb := Sender(XOf(m, b), YOf(m, b), db);
    LocalInRange(m, ta);
    LocalInRange(m, tb);
    var c := AdjacentChannel(m, a, da).value;
    DivModUnique(c, lpl, ZOf(m, a), LocalIndex(m, ta.x, ta.y, ta.dir));
    DivModUnique(c, lpl, ZOf(m, b), LocalIndex(m, tb.x, tb.y, tb.dir));
    DecodeLocalIndex(m, ta);
    DecodeLocalIndex(m, tb);
    DecodeEncodes(m, a);
    DecodeEncodes(m, b);
  }

  /** The router and direction that send on planar channel `c`. */
  function ChannelSender(m: Mesh, c: int): (nd: (int, int))
    requires Shaped(m) && 0 <= c < ComputeSize(m).channels
  {
    var lpl := ChannelsPerLayer(m);
    LayerSplit(m);
    var t := DecodeLocal(m, c % lpl);
    (Encode(m, t.x, t.y, c / lpl), t.dir)
  }

  /** Every index in [0, _channels) is the channel of some link: with
      `ChannelInRange` and `ChannelInjective`, `_adjacentChannel` is a
      bijection from the mesh's directed planar links onto [0, _channels),
      so `_ComputeSize`'s count is exactly the number of such links. */
  lemma {:induction false} ChannelSurjective(m: Mesh, c: int)
    requires Shaped(m) && 0 <= c < ComputeSize(m).channels
    ensures var (node, dir) := ChannelSender(m, c);
            IsNode(m, node) && HasNeighbour(m, node, dir) &&
            AdjacentChannel(m, node, dir) == Ok(c)
  {
    var lpl := ChannelsPerLayer(m);
    LayerNonEmpty(m);
    assert c < lpl * m.s;
    LayerDigits(c, lpl, m.s);
    var z, r := c / lpl, c % lpl;
    var t := DecodeLocal(m, r);
    DecodeLocalValid(m, r);
    EncodeDecodes(m, t.x, t.y, z);
    var node := Encode(m, t.x, t.y, z);
    AdjacentNodeMeaning(m, node, t.dir);
    ChannelOfLink(m, node, t.dir);
  }

  /** A mesh with any planar channel has channels in every layer. */
  lemma LayerNonEmpty(m: Mesh)
    requires Shaped(m) && ComputeSize(m).channels > 0
    ensures ChannelsPerLayer(m) > 0
  {
    LayerSplit(m);
    MulMono(0, m.n - 1, RowBlock(m));
    assert ComputeSize(m).channels == ChannelsPerLayer(m) * m.s;
  }

  /** Splitting a channel index into its layer and its local index. */
  lemma LayerDigits(c: int, lpl: int, s: int)
    requires lpl > 0 && 0 <= c < lpl * s
    ensures 0 <= c / lpl < s && 0 <= c % lpl < lpl
    ensures c == c / lpl * lpl + c % lpl
  {
    FactorBelow(c / lpl, lpl, s);
  }
}

=== FILE: node_map.dfy ===
/** The device-to-network node map of the interconnect interface
    (`_CreateNodeMap`).

    Devices `0 .. n_shader-1` are shader cores and devices
    `n_shader .. n_shader+n_mem-1` are memory partitions. Without a map
    every device uses the network node of the same number. With a map,
    memory device `n_shader + i` uses the `i`-th memory node of a list
    (configured, or the built-in one that puts memory after the shaders),
    and the shaders take the remaining node numbers in increasing order.
    The reverse map sends a node back to the first device using it. */
module NodeMap {
  import opened Outcome

  /** `unsigned` holds 32 bits. */
  const U32: int := 0x1_0000_0000

  /** Copying an `int` into an `unsigned`: the value modulo 2^32. */
  function ToUnsigned(v: int): (u: int)
    ensures 0 <= u < U32 && (v - u) % U32 == 0
    ensures 0 <= v < U32 ==> u == v
  {
    v % U32
  }

  /** The built-in list for the 3D mesh: the memory nodes follow the
      shaders, `n_shader .. n_node-1`. */
  function PresetMemoryNodes(nShader: nat, nMem: nat): (mem: seq<int>)
    ensures |mem| == nMem
    ensures forall i :: 0 <= i < nMem ==> mem[i] == nShader + i
  {
    seq(nMem, i requires 0 <= i < nMem => nShader + i)
  }

  /** The memory node list in use: a non-empty configured list must have
      exactly `n_mem` entries and overrides the built-in one; an empty
      result means no mapping exists for this configuration. */
  function MemoryNodes(nShader: nat, nMem: nat, config: seq<int>): (r: Result<seq<int>>)
    ensures r.Ok? ==> |r.value| == nMem > 0
    ensures r.Ok? && |config| > 0 ==> |config| == nMem && forall i :: 0 <= i < nMem ==> r.value[i] == ToUnsigned(config[i])
    ensures r.Ok? && |config| == 0 ==> r.value == PresetMemoryNodes(nShader, nMem)
    ensures r.Error? <==> (|config| > 0 && |config| != nMem) || (|config| == 0 && nMem == 0)
  {
    if |config| > 0 && |config| != nMem then
      Error("Number of memory nodes in memory_node_map should equal to memory ports")
    else
      var mem := if |config| > 0 then seq(|config|, i requires 0 <= i < |config| => ToUnsigned(config[i]))
                 else PresetMemoryNodes(nShader, nMem);
      if |mem| == 0 then Error("ERROR!!! NO MAPPING IMPLEMENTED YET FOR THIS CONFIG")
      else Ok(mem)
  }

  /** The `while` loop that steps `next_node` past memory nodes, as the
      source writes it: it reads `memory_node[memory_node_index]` without
      checking the index against the list's size. */
  function SkipAsWritten(mem: seq<int>, next: int, idx: nat): Result<(int, nat)>
    decreases |mem| - idx
  {
    if idx >= |mem| then Error("memory_node[memory_node_index] read past the end of the list")
    else if next == mem[idx] then SkipAsWritten(mem, next + 1, idx + 1)
    else Ok((next, idx))
  }

  /** The same loop with the index checked: once the list is used up,
      no node is a memory node any more. */
  function Skip(mem: seq<int>, next: int, idx: nat): (r: (int, nat))
    ensures r.0 - next == r.1 - idx && r.1 >= idx
    ensures idx <= |mem| ==> r.1 <= |mem|
    decreases |mem| - idx
  {
    if idx < |mem| && next == mem[idx] then Skip(mem, next + 1, idx + 1)
    else (next, idx)
  }

  /** The shader loop as written: `count` more shaders from `next_node`
      and `memory_node_index`. */
  function ShaderNodesAsWritten(mem: seq<int>, count: nat, next: int, idx: nat): Result<seq<int>>
    decreases count
  {
    if count == 0 then Ok([])
    else
      match SkipAsWritten(mem, next, idx)
      case Error(e) => Error(e)
      case Ok((n, j)) =>
        match ShaderNodesAsWritten(mem, count - 1, n + 1, j)
        case Error(e) => Error(e)
        case Ok(rest) => Ok([n] + rest)
  }

  /** The shader loop with the corrected skip. */
  function ShaderNodes(mem: seq<int>, count: nat, next: int, idx: nat): (r: seq<int>)
    ensures |r| == count
    decreases count
  {
    if count == 0 then []
    else
      var skip := Skip(mem, next, idx);
      [skip.0] + ShaderNodes(mem, count - 1, skip.0 + 1, skip.1)
  }

  /** The corrected `_CreateNodeMap`: the node of each device, shaders
      first. With a map, the shaders' nodes are followed by the memory
      list. The source fills the built-in list with the nodes
      `n_shader .. n_node-1` into an array of `n_mem` entries, so `n_node`
      may not exceed `n_shader + n_mem`, and must equal it when that list
      is the one used. */
  function CreateNodeMap(nShader: nat, nMem: nat, nNode: nat, useMap: int, config: seq<int>): (r: Result<seq<int>>)
    requires useMap != 0 ==> nNode <= nShader + nMem
    requires useMap != 0 && |config| == 0 ==> nNode == nShader + nMem
    ensures useMap == 0 ==> r.Ok? && |r.value| == nNode && forall i :: 0 <= i < nNode ==> r.value[i] == i
    ensures useMap != 0 ==> (r.Error? <==> MemoryNodes(nShader, nMem, config).Error?)
    ensures useMap != 0 && r.Ok? ==>
              |r.value| == nShader + nMem &&
              forall i :: 0 <= i < nMem ==> r.value[nShader + i] == MemoryNodes(nShader, nMem, config).value[i]
  {
    if useMap == 0 then Ok(seq(nNode, i requires 0 <= i < nNode => i))
    else
      match MemoryNodes(nShader, nMem, config)
      case Error(e) => Error(e)
      case Ok(mem) => Ok(ShaderNodes(mem, nShader, 0, 0) + mem)
  }

  /** `_CreateNodeMap` as written, with the unchecked skip. */
  function CreateNodeMapAsWritten(nShader: nat, nMem: nat, nNode: nat, useMap: int, config: seq<int>): Result<seq<int>>
    requires useMap != 0 ==> nNode <= nShader + nMem
    requires useMap != 0 && |config| == 0 ==> nNode == nShader + nMem
  {
    if useMap == 0 then Ok(seq(nNode, i requires 0 <= i < nNode => i))
    else
      match MemoryNodes(nShader, nMem, config)
      case Error(e) => Error(e)
      case Ok(mem) =>
        match ShaderNodesAsWritten(mem, nShader, 0, 0)
        case Error(e) => Error(e)
        case Ok(shaders) => Ok(shaders + mem)
  }

  /** The unchecked skip fails exactly when the checked one runs to the
      end of the list, and otherwise agrees with it. */
  lemma {:induction false} SkipAgrees(mem: seq<int>, next: int, idx: nat)
    requires idx <= |mem|
    ensures SkipAsWritten(mem, next, idx).Ok? <==> Skip(mem, next, idx).1 < |mem|
    ensures SkipAsWritten(mem, next, idx).Ok? ==> SkipAsWritten(mem, next, idx).value == Skip(mem, next, idx)
    decreases |mem| - idx
  {
    if idx < |mem| && next == mem[idx] {
      SkipAgrees(mem, next + 1, idx + 1);
    }
  }

  /** Wherever the as-written shader loop completes, it computes what the
      corrected one does. */
  lemma {:induction false} ShaderNodesAgree(mem: seq<int>, count: nat, next: int, idx: nat)
    requires idx <= |mem|
    ensures ShaderNodesAsWritten(mem, count, next, idx).Ok? ==>
              ShaderNodesAsWritten(mem, count, next, idx).value == ShaderNodes(mem, count, next, idx)
    decreases count
  {
    if count > 0 {
      SkipAgrees(mem, next, idx);
      var skip := Skip(mem, next, idx);
      ShaderNodesAgree(mem, count - 1, skip.0 + 1, skip.1);
    }
  }

  /** And so for the whole map: the as-written map, where it exists, is
      the corrected one. */
  lemma CreateNodeMapAgrees(nShader: nat, nMem: nat, nNode: nat, useMap: int, config: seq<int>)
    requires useMap != 0 ==> nNode <= nShader + nMem
    requires useMap != 0 && |config| == 0 ==> nNode == nShader + nMem
    ensures CreateNodeMapAsWritten(nShader, nMem, nNode, useMap, config).Ok? ==>
              CreateNodeMapAsWritten(nShader, nMem, nNode, useMap, config) == CreateNodeMap(nShader, nMem, nNode, useMap, config)
  {
    if useMap != 0 && MemoryNodes(nShader, nMem, config).Ok? {
      ShaderNodesAgree(MemoryNodes(nShader, nMem, config).value, nShader, 0, 0);
    }
  }

  /** The 8-shader, 8-memory layout of a 4x4 mesh with memory nodes
      {1, 3, 4, 6, 9, 11, 12, 14}: the last shader comes after the last
      memory node, so the as-written loop reads one entry past the end of
      the list. */
  lemma MeshLayoutReadsPastEnd()
    ensures CreateNodeMapAsWritten(8, 8, 16, 1, MeshMemory).Error?
  {
    var mem := MeshMemory;
    MeshMemoryConfigured();
    assert SkipAsWritten(mem, 14, 7).Error?;
    assert ShaderNodesAsWritten(mem, 1, 14, 7).Error?;
    assert ShaderNodesAsWritten(mem, 2, 11, 5).Error?;
    assert ShaderNodesAsWritten(mem, 3, 9, 4).Error?;
    assert ShaderNodesAsWritten(mem, 4, 8, 4).Error?;
    assert ShaderNodesAsWritten(mem, 5, 6, 3).Error?;
    assert ShaderNodesAsWritten(mem, 6, 3, 1).Error?;
    assert ShaderNodesAsWritten(mem, 7, 1, 0).Error?;
    assert ShaderNodesAsWritten(mem, 8, 0, 0).Error?;
  }

  /** For the same layout the corrected loop places the shaders on the
      eight nodes the memory leaves free. */
  lemma MeshLayoutCorrected(config: seq<int>)
    requires config == MeshMemory
    ensures CreateNodeMap(8, 8, 16, 1, config)
            == Ok([0, 2, 5, 7, 8, 10, 13, 15, 1, 3, 4, 6, 9, 11, 12, 14])
  {
    MeshMemoryConfigured();
    var mem := MemoryNodes(8, 8, config).value;
    assert mem == config;
    MeshShaders(mem);
    MeshLayoutJoin(ShaderNodes(mem, 8, 0, 0), mem);
    assert CreateNodeMap(8, 8, 16, 1, config) == Ok(ShaderNodes(mem, 8, 0, 0) + mem);
  }

  /** The shaders' nodes followed by the memory nodes. */
  lemma MeshLayoutJoin(shaders: seq<int>, mem: seq<int>)
    requires shaders == [0, 2, 5, 7, 8, 10, 13, 15] && mem == MeshMemory
    ensures shaders + mem == [0, 2, 5, 7, 8, 10, 13, 15, 1, 3, 4, 6, 9, 11, 12, 14]
  {
  }

  /** All eight shaders of that layout. */
  lemma MeshShaders(mem: seq<int>)
    requires |mem| == 8 && mem[0] == 1 && mem[1] == 3 && mem[2] == 4 && mem[3] == 6
    requires mem[4] == 9 && mem[5] == 11 && mem[6] == 12 && mem[7] == 14
    ensures ShaderNodes(mem, 8, 0, 0) == [0, 2, 5, 7, 8, 10, 13, 15]
  {
    var rest := ShaderNodes(mem, 7, 1, 0);
    MeshShadersAfterFirst(mem);
    assert Skip(mem, 0, 0) == (0, 0);
    ShaderStep(mem, 8, 7, 0, 0, 0, 0, rest, [0] + rest);
    MeshLayoutFirst(ShaderNodes(mem, 8, 0, 0), rest);
  }

  /** The first shader goes ahead of the other seven. */
  lemma MeshLayoutFirst(shaders: seq<int>, rest: seq<int>)
    requires rest == [2, 5, 7, 8, 10, 13, 15] && shaders == [0] + rest
    ensures shaders == [0, 2, 5, 7, 8, 10, 13, 15]
  {
  }

  /** The last seven shaders of that layout. */
  lemma MeshShadersAfterFirst(mem: seq<int>)
    requires |mem| == 8 && mem[0] == 1 && mem[1] == 3 && mem[2] == 4 && mem[3] == 6
    requires mem[4] == 9 && mem[5] == 11 && mem[6] == 12 && mem[7] == 14
    ensures ShaderNodes(mem, 7, 1, 0) == [2, 5, 7, 8, 10, 13, 15]
  {
    MeshShadersMiddle(mem);
    assert Skip(mem, 2, 1) == (2, 1);
    assert Skip(mem, 1, 0) == (2, 1);
    ShaderStep(mem, 7, 6, 1, 0, 2, 1, [5, 7, 8, 10, 13, 15], [2, 5, 7, 8, 10, 13, 15]);
  }

  /** The last six shaders of that layout. */
  lemma MeshShadersMiddle(mem: seq<int>)
    requires |mem| == 8 && mem[0] == 1 && mem[1] == 3 && mem[2] == 4 && mem[3] == 6
    requires mem[4] == 9 && mem[5] == 11 && mem[6] == 12 && mem[7] == 14
    ensures ShaderNodes(mem, 6, 3, 1) == [5, 7, 8, 10, 13, 15]
  {
    MeshShadersTail(mem);
    assert Skip(mem, 7, 4) == (7, 4);
    assert Skip(mem, 6, 3) == (7, 4);
    ShaderStep(mem, 5, 4, 6, 3, 7, 4, [8, 10, 13, 15], [7, 8, 10, 13, 15]);
    assert Skip(mem, 5, 3) == (5, 3);
    assert Skip(mem, 4, 2) == (5, 3);
    assert Skip(mem, 3, 1) == (5, 3);
    ShaderStep(mem, 6, 5, 3, 1, 5, 3, [7, 8, 10, 13, 15], [5, 7, 8, 10, 13, 15]);
  }

  /** The last four shaders of that layout. */
  lemma MeshShadersTail(mem: seq<int>)
    requires |mem| == 8 && mem[0] == 1 && mem[1] == 3 && mem[2] == 4 && mem[3] == 6
    requires mem[4] == 9 && mem[5] == 11 && mem[6] == 12 && mem[7] == 14
    ensures ShaderNodes(mem, 4, 8, 4) == [8, 10, 13, 15]
  {
    assert Skip(mem, 14, 7) == (15, 8);
    assert ShaderNodes(mem, 0, 16, 8) == [];
    ShaderStep(mem, 1, 0, 14, 7, 15, 8, [], [15]);
    assert Skip(mem, 13, 7) == (13, 7);
    assert Skip(mem, 12, 6) == (13, 7);
    assert Skip(mem, 11, 5) == (13, 7);
    ShaderStep(mem, 2, 1, 11, 5, 13, 7, [15], [13, 15]);
    assert Skip(mem, 10, 5) == (10, 5);
    assert Skip(mem, 9, 4) == (10, 5);
    ShaderStep(mem, 3, 2, 9, 4, 10, 5, [13, 15], [10, 13, 15]);
    assert Skip(mem, 8, 4) == (8, 4);
    ShaderStep(mem, 4, 3, 8, 4, 8, 4, [10, 13, 15], [8, 10, 13, 15]);
  }

  /** One turn of the shader loop: the shader takes the node the skip
      lands on, and the rest follow from the node after it. */
  lemma ShaderStep(mem: seq<int>, count: nat, rest: nat, next: int, idx: nat, n: int, j: nat,
                   tail: seq<int>, whole: seq<int>)
    requires count == rest + 1 && Skip(mem, next, idx) == (n, j)
    requires ShaderNodes(mem, rest, n + 1, j) == tail && whole == [n] + tail
    ensures ShaderNodes(mem, count, next, idx) == whole
  {
  }

  /** The memory nodes of that layout. */
  const MeshMemory: seq<int> := [1, 3, 4, 6, 9, 11, 12, 14]

  /** Read through `MemoryNodes`, the list is used as configured. */
  lemma MeshMemoryConfigured()
    ensures MemoryNodes(8, 8, MeshMemory) == Ok(MeshMemory)
  {
    var conv := MemoryNodes(8, 8, MeshMemory).value;
    assert forall i :: 0 <= i < 8 ==> conv[i] == MeshMemory[i];
    assert conv == MeshMemory;
  }

  /** The list is strictly increasing. */
  predicate Increasing(mem: seq<int>) {
    forall i, j :: 0 <= i < j < |mem| ==> mem[i] < mem[j]
  }

  /** The loop's invariant: the memory nodes before `idx` lie below
      `next`, those from `idx` on at or above it. */
  predicate Split(mem: seq<int>, idx: int, next: int) {
    0 <= idx <= |mem| &&
    (forall k :: 0 <= k < idx ==> mem[k] < next) &&
    (forall k :: idx <= k < |mem| ==> mem[k] >= next)
  }

  /** On an increasing list, the skip lands on the first node at or after
      `next` that is not a memory node, and keeps the invariant for the
      node after it. */
  lemma {:induction false} SkipSpec(mem: seq<int>, next: int, idx: nat)
    requires Increasing(mem) && Split(mem, idx, next)
    ensures Skip(mem, next, idx).0 >= next
    ensures forall k :: 0 <= k < |mem| ==> mem[k] != Skip(mem, next, idx).0
    ensures Split(mem, Skip(mem, next, idx).1, Skip(mem, next, idx).0 + 1)
    decreases |mem| - idx
  {
    if idx < |mem| && next == mem[idx] {
      SkipSpec(mem, next + 1, idx + 1);
    }
  }

  /** The shaders' nodes are strictly increasing, start at `next`, are
      never memory nodes, and stay within the nodes the list leaves
      free. */
  lemma {:induction false} ShaderNodesSpec(mem: seq<int>, count: nat, next: int, idx: nat)
    requires Increasing(mem) && Split(mem, idx, next)
    ensures forall i :: 0 <= i < count ==>
              next <= ShaderNodes(mem, count, next, idx)[i] &&
              ShaderNodes(mem, count, next, idx)[i] - i <= next + |mem| - idx
    ensures forall i, k :: 0 <= i < count && 0 <= k < |mem| ==> mem[k] != ShaderNodes(mem, count, next, idx)[i]
    ensures forall i, j :: 0 <= i < j < count ==> ShaderNodes(mem, count, next, idx)[i] < ShaderNodes(mem, count, next, idx)[j]
    decreases count
  {
    if count > 0 {
      SkipSpec(mem, next, idx);
      var n, j := Skip(mem, next, idx).0, Skip(mem, next, idx).1;
      ShaderNodesSpec(mem, count - 1, n + 1, j);
      var r := ShaderNodes(mem, count, next, idx);
      var rest := ShaderNodes(mem, count - 1, n + 1, j);
      assert r == [n] + rest;
      forall i | 0 <= i < count
        ensures next <= r[i] && r[i] - i <= next + |mem| - idx
        ensures forall k :: 0 <= k < |mem| ==> mem[k] != r[i]
      {
        if i > 0 {
          assert r[i] == rest[i - 1];
        }
      }
      forall i, i' | 0 <= i < i' < count
        ensures r[i] < r[i']
      {
        assert r[i'] == rest[i' - 1];
        if i > 0 {
          assert r[i] == rest[i - 1];
        }
      }
    }
  }

  /** With an increasing memory list: shader `i` sits on node `map[i]`,
      the shaders' nodes increase strictly, none is a memory node, and all
      lie in `[0, n_shader + n_mem)`; memory device `n_shader + i` sits on
      the `i`-th memory node. */
  lemma CreateNodeMapLayout(nShader: nat, nMem: nat, nNode: nat, useMap: int, config: seq<int>)
    requires useMap != 0 && nNode <= nShader + nMem
    requires |config| == 0 ==> nNode == nShader + nMem
    requires CreateNodeMap(nShader, nMem, nNode, useMap, config).Ok?
    requires Increasing(MemoryNodes(nShader, nMem, config).value)
    ensures var m := CreateNodeMap(nShader, nMem, nNode, useMap, config).value;
            var mem := MemoryNodes(nShader, nMem, config).value;
            (forall i :: 0 <= i < nShader ==> 0 <= m[i] < nShader + nMem) &&
            (forall i, j :: 0 <= i < j < nShader ==> m[i] < m[j]) &&
            (forall i, k :: 0 <= i < nShader && 0 <= k < nMem ==> m[i] != mem[k]) &&
            (forall i :: 0 <= i < nMem ==> m[nShader + i] == mem[i])
  {
    var mem := MemoryNodes(nShader, nMem, config).value;
    var m := CreateNodeMap(nShader, nMem, nNode, useMap, config).value;
    ShaderNodesSpec(mem, nShader, 0, 0);
    assert m[..nShader] == ShaderNodes(mem, nShader, 0, 0);
    forall i | 0 <= i < nShader
      ensures m[i] == ShaderNodes(mem, nShader, 0, 0)[i]
    {
      assert m[i] == m[..nShader][i];
    }
  }

  /** With the built-in list the map is the identity: the memory nodes
      follow the shaders, so the shaders keep their own numbers. */
  lemma PresetIsIdentity(nShader: nat, nMem: nat)
    requires nMem > 0
    ensures CreateNodeMap(nShader, nMem, nShader + nMem, 1, []) == Ok(seq(nShader + nMem, i requires 0 <= i < nShader + nMem => i))
  {
    var mem := PresetMemoryNodes(nShader, nMem);
    PresetShaders(nShader, nMem, 0);
    var m := CreateNodeMap(nShader, nMem, nShader + nMem, 1, []).value;
    var shaders := ShaderNodes(mem, nShader, 0, 0);
    assert m == shaders + mem;
    forall i | 0 <= i < nShader + nMem
      ensures m[i] == i
    {
      if i < nShader {
        assert m[i] == shaders[i];
      } else {
        assert m[i] == mem[i - nShader];
      }
    }
    assert m == seq(nShader + nMem, i requires 0 <= i < nShader + nMem => i);
  }

  /** Below the first memory node, the shaders keep their own numbers. */
  lemma {:induction false} PresetShaders(nShader: nat, nMem: nat, next: nat)
    requires nMem > 0 && next <= nShader
    ensures ShaderNodes(PresetMemoryNodes(nShader, nMem), nShader - next, next, 0)
            == seq(nShader - next, i requires 0 <= i < nShader - next => next + i)
    decreases nShader - next
  {
    if next < nShader {
      PresetShaders(nShader, nMem, next + 1);
    }
  }

  /** The first `j' >= j` below `limit` with `m[j'] == i`, if any. */
  function FirstIndexOf(m: seq<int>, i: int, j: nat, limit: nat): (r: Option<nat>)
    requires limit <= |m|
    ensures r.Some? ==> j <= r.value < limit && m[r.value] == i &&
                        forall l :: j <= l < r.value ==> m[l] != i
    ensures r.None? ==> forall l :: j <= l < limit ==> m[l] != i
    decreases limit - j
  {
    if j >= limit then None
    else if m[j] == i then Some(j)
    else FirstIndexOf(m, i, j + 1, limit)
  }

  /** `_reverse_node_map`: for each node `i < n_node`, the first device
      `j < n_node` with `_node_map[j] == i`; a node no device uses has no
      entry. */
  function ReverseNodeMap(m: seq<int>, nNode: nat): (r: seq<Option<nat>>)
    requires nNode <= |m|
    ensures |r| == nNode
  {
    seq(nNode, i requires 0 <= i < nNode => FirstIndexOf(m, i, 0, nNode))
  }

  /** The map is one-to-one on the first `n` devices. */
  predicate InjectiveOn(m: seq<int>, n: nat)
    requires n <= |m|
  {
    forall i, j :: 0 <= i < j < n ==> m[i] != m[j]
  }

  /** The reverse map sends each node back to the first device on it; on
      a one-to-one map whose nodes lie in `[0, n_node)`, it inverts the
      map: `reverse[map[j]] == j`. */
  lemma ReverseNodeMapInverts(m: seq<int>, nNode: nat)
    requires nNode <= |m|
    ensures forall i :: 0 <= i < nNode && ReverseNodeMap(m, nNode)[i].Some? ==>
              m[ReverseNodeMap(m, nNode)[i].value] == i
    ensures InjectiveOn(m, nNode) ==>
              forall j :: 0 <= j < nNode && 0 <= m[j] < nNode ==> ReverseNodeMap(m, nNode)[m[j]] == Some(j)
  {
    var r := ReverseNodeMap(m, nNode);
    if InjectiveOn(m, nNode) {
      forall j | 0 <= j < nNode && 0 <= m[j] < nNode
        ensures r[m[j]] == Some(j)
      {
        assert r[m[j]] == FirstIndexOf(m, m[j], 0, nNode);
      }
    }
  }

  /** With an increasing memory list inside `[0, n_shader + n_mem)` and
      `n_node == n_shader + n_mem`, the map is one-to-one into the
      network's nodes, so the reverse map inverts it for every device. */
  lemma NodeMapRoundTrip(nShader: nat, nMem: nat, useMap: int, config: seq<int>)
    requires useMap != 0
    requires CreateNodeMap(nShader, nMem, nShader + nMem, useMap, config).Ok?
    requires Increasing(MemoryNodes(nShader, nMem, config).value)
    requires forall k :: 0 <= k < nMem ==> MemoryNodes(nShader, nMem, config).value[k] < nShader + nMem
    ensures var m := CreateNodeMap(nShader, nMem, nShader + nMem, useMap, config).value;
            InjectiveOn(m, nShader + nMem) &&
            (forall j :: 0 <= j < nShader + nMem ==> 0 <= m[j] < nShader + nMem) &&
            forall j :: 0 <= j < nShader + nMem ==> ReverseNodeMap(m, nShader + nMem)[m[j]] == Some(j)
  {
    var n := nShader + nMem;
    var m := CreateNodeMap(nShader, nMem, n, useMap, config).value;
    var mem := MemoryNodes(nShader, nMem, config).value;
    CreateNodeMapLayout(nShader, nMem, n, useMap, config);
    forall j | 0 <= j < n
      ensures 0 <= m[j] < n
    {
      if j >= nShader {
        assert m[j] == mem[j - nShader];
      }
    }
    forall i, j | 0 <= i < j < n
      ensures m[i] != m[j]
    {
      if j >= nShader && i >= nShader {
        assert m[i] == mem[i - nShader] && m[j] == mem[j - nShader];
      } else if j >= nShader {
        assert m[j] == mem[j - nShader];
      }
    }
    ReverseNodeMapInverts(m, n);
  }
}

=== FILE: outcome.dfy ===
/** Failure-carrying results shared by every module of the model.

    The simulator has two ways of giving up: booksim's `Error(...)`, which
    prints a message and ends the process, and a C++ `assert` that fails.
    Both are modelled as an `Error` outcome whose `reason` names the check
    that failed; a NULL pointer return is modelled as `None`. */
module Outcome {

  /** A value that may be absent (a pointer that may be NULL). */
  datatype Option<+T> = None | Some(value: T)

  /** The outcome of an operation that may stop the simulator. */
  datatype Result<+T> = Ok(value: T) | Error(reason: string)
}

=== FILE: ring.dfy ===
/** Cursors that walk a ring of `n` slots: the round-robin subnet and VC
    turns of the interconnect interface. A cursor advances with
    `turn++; if (turn == n) turn = 0;`, which on a cursor in range is one
    step modulo `n`. */
module Ring {
  import opened CppInt

  /** One step of a cursor, written as the source writes it. */
  function Next(i: int, n: int): (r: int)
    ensures 0 <= i < n ==> 0 <= r < n && r == (i + 1) % n
  {
    if i + 1 == n then
      0
    else
      assert 0 <= i < n ==> i + 1 < n ==> (i + 1) % n == i + 1 by {
        if 0 <= i && i + 1 < n {
          DivModUnique(i + 1, n, 0, i + 1);
        }
      }
      i + 1
  }

  /** The slot `j` steps around the ring from cursor `g`. */
  function RingAt(g: int, j: int, n: int): (r: int)
    requires n > 0
    ensures 0 <= r < n
  {
    (g + j) % n
  }

  /** How many steps lead from cursor `from` to slot `to`. */
  function Offset(from: int, to: int, n: int): (r: int)
    requires n > 0
    ensures 0 <= r < n
  {
    (to - from) % n
  }

  /** Zero steps from a cursor in range is the cursor itself. */
  lemma RingStart(g: int, n: int)
    requires 0 <= g < n
    ensures RingAt(g, 0, n) == g
  {
    DivModUnique(g, n, 0, g);
  }

  /** Stepping the cursor first and then `j` more is `j + 1` steps from
      where it was. */
  lemma NextIsRingStep(g: int, j: int, n: int)
    requires 0 <= g < n && j >= 0
    ensures RingAt(Next(g, n), j, n) == RingAt(g, j + 1, n)
  {
    if g + 1 == n {
      DivModUnique(j + n, n, j / n + 1, j % n);
    }
  }

  /** Every slot lies within one lap of every cursor: `Offset` steps from
      `g` reach `s`. */
  lemma RingCovers(g: int, s: int, n: int)
    requires 0 <= g < n && 0 <= s < n
    ensures RingAt(g, Offset(g, s, n), n) == s
  {
    if s >= g {
      DivModUnique(s - g, n, 0, s - g);
      DivModUnique(s, n, 0, s);
    } else {
      DivModUnique(s - g, n, -1, s - g + n);
      DivModUnique(s + n, n, 1, s);
    }
  }

  /** Within one lap no slot is visited twice: `Offset` undoes `RingAt`. */
  lemma RingOffset(g: int, j: int, n: int)
    requires 0 <= g < n && 0 <= j < n
    ensures Offset(g, RingAt(g, j, n), n) == j
  {
    if g + j < n {
      DivModUnique(g + j, n, 0, g + j);
      DivModUnique(j, n, 0, j);
    } else {
      DivModUnique(g + j, n, 1, g + j - n);
      DivModUnique(j - n, n, -1, j);
    }
  }

  /** Stepping the cursor past a slot other than `v` brings it one step
      nearer to `v`. */
  lemma OffsetNext(g: int, v: int, n: int)
    requires 0 <= g < n && 0 <= v < n && v != g
    ensures Offset(g, v, n) == Offset(Next(g, n), v, n) + 1
  {
    var j := Offset(Next(g, n), v, n);
    RingCovers(Next(g, n), v, n);
    NextIsRingStep(g, j, n);
    if j + 1 == n {
      DivModUnique(g + n, n, 1, g);
      assert false;
    }
    RingOffset(g, j + 1, n);
  }
}

=== FILE: vertical_channel.dfy ===
/** The vertical bus channel (vertical_channel.cpp / .hpp).

    A vertical channel is one bus shared by all routers of an (x, y) column
    of the 3D mesh. It records every router registered as a source or a
    sink, in registration order, and the port number of the first
    registration, which all later ones share. Routers are represented by
    their integer ids (`Router::GetID`). The flit-channel behaviour the
    class inherits is not part of this model. */
module VerticalChannel {
  import opened Outcome
  import opened CppInt

  type RouterId = int

  datatype VChannel = VChannel(
    sourcePort: int,          // _routerSourcePort
    sinkPort: int,            // _routerSinkPort
    sources: seq<RouterId>,   // _routerSources
    sinks: seq<RouterId>,     // _routerSinks
    x: Short,                 // _x, utilisation bookkeeping
    y: Short,                 // _y
    dir: bool,                // _dir, true when the bus carries flits up
    active: seq<int>,         // _active, one counter per class
    idle: int)                // _idle

  /** The constructor. It does not initialise `_x`, `_y` and `_dir`; the
      model takes whatever values they start with as parameters. */
  function New(classes: int, x0: Short, y0: Short, dir0: bool): (c: VChannel)
    requires classes >= 0
    ensures c.sourcePort < 0 && c.sinkPort < 0
    ensures c.sources == [] && c.sinks == []
    ensures c.idle == 0 && |c.active| == classes
    ensures forall i :: 0 <= i < |c.active| ==> c.active[i] == 0
  {
    VChannel(-1, -1, [], [], x0, y0, dir0, seq(classes, _ => 0), 0)
  }

  /** `SetVerticalSource`: the port is kept only while none is recorded;
      the router is always appended. */
  function SetVerticalSource(c: VChannel, router: RouterId, port: int): (c': VChannel)
    ensures c'.sources == c.sources + [router]
    ensures c'.sourcePort == (if c.sourcePort < 0 then port else c.sourcePort)
    ensures c' == c.(sources := c'.sources, sourcePort := c'.sourcePort)
  {
    c.(sourcePort := if c.sourcePort < 0 then port else c.sourcePort,
       sources := c.sources + [router])
  }

  /** `SetVerticalSink`: the same first-wins rule for sinks. */
  function SetVerticalSink(c: VChannel, router: RouterId, port: int): (c': VChannel)
    ensures c'.sinks == c.sinks + [router]
    ensures c'.sinkPort == (if c.sinkPort < 0 then port else c.sinkPort)
    ensures c' == c.(sinks := c'.sinks, sinkPort := c'.sinkPort)
  {
    c.(sinkPort := if c.sinkPort < 0 then port else c.sinkPort,
       sinks := c.sinks + [router])
  }

  /** A registration: a router and the port it uses on the bus. */
  datatype Registration = Registration(router: RouterId, port: int)

  function RegisterSources(c: VChannel, regs: seq<Registration>): VChannel
    decreases |regs|
  {
    if |regs| == 0 then c
    else RegisterSources(SetVerticalSource(c, regs[0].router, regs[0].port), regs[1..])
  }

  function Routers(regs: seq<Registration>): (rs: seq<RouterId>)
    ensures |rs| == |regs|
    ensures forall i :: 0 <= i < |regs| ==> rs[i] == regs[i].router
  {
    seq(|regs|, i requires 0 <= i < |regs| => regs[i].router)
  }

  /** Some registration carries a valid (non-negative) port. */
  predicate HasValidPort(regs: seq<Registration>) {
    exists i :: 0 <= i < |regs| && regs[i].port >= 0
  }

  /** Reference definition of the recorded port after a run of
      registrations: a recorded (non-negative) port stays; otherwise the
      first non-negative port registered wins; when every registered port
      is negative, each one overwrites the last and the final one stays. */
  function CanonicalPort(current: int, regs: seq<Registration>): int {
    if current >= 0 then current
    else if HasValidPort(regs) then regs[FirstValidPort(regs)].port
    else if |regs| > 0 then regs[|regs| - 1].port
    else current
  }

  function FirstValidPort(regs: seq<Registration>): (i: nat)
    requires HasValidPort(regs)
    ensures i < |regs| && regs[i].port >= 0
    ensures forall j :: 0 <= j < i ==> regs[j].port < 0
  {
    if regs[0].port >= 0 then 0
    else
      HasValidPortTail(regs);
      1 + FirstValidPort(regs[1..])
  }

  lemma HasValidPortTail(regs: seq<Registration>)
    requires |regs| > 0
    ensures HasValidPort(regs) <==> regs[0].port >= 0 || HasValidPort(regs[1..])
  {
    if HasValidPort(regs) && regs[0].port < 0 {
      var i :| 0 <= i < |regs| && regs[i].port >= 0;
      assert regs[1..][i - 1] == regs[i];
    }
    if HasValidPort(regs[1..]) {
      var i :| 0 <= i < |regs[1..]| && regs[1..][i].port >= 0;
      assert regs[i + 1] == regs[1..][i];
    }
  }

  /** Registering sources appends them in order and never reorders or
      removes an earlier one; the sinks are untouched. */
  lemma {:induction false} RegisterSourcesAppends(c: VChannel, regs: seq<Registration>)
    ensures RegisterSources(c, regs).sources == c.sources + Routers(regs)
    ensures RegisterSources(c, regs).sinks == c.sinks
    decreases |regs|
  {
    if |regs| > 0 {
      var c1 := SetVerticalSource(c, regs[0].router, regs[0].port);
      RegisterSourcesAppends(c1, regs[1..]);
      assert Routers(regs) == [regs[0].router] + Routers(regs[1..]);
    }
  }

  /** After a run of registrations the source port is the one the
      first-wins rule picks. */
  lemma {:induction false} RegisterSourcesPort(c: VChannel, regs: seq<Registration>)
    ensures RegisterSources(c, regs).sourcePort == CanonicalPort(c.sourcePort, regs)
    decreases |regs|
  {
    if |regs| > 0 {
      var c1 := SetVerticalSource(c, regs[0].router, regs[0].port);
      RegisterSourcesPort(c1, regs[1..]);
      HasValidPortTail(regs);
      if c.sourcePort < 0 && regs[0].port < 0 && HasValidPort(regs[1..]) {
        assert FirstValidPort(regs) == 1 + FirstValidPort(regs[1..]);
      }
    }
  }

  /** When the first source registered on a fresh channel gives a valid
      port, that port is the channel's source port for good. */
  lemma FirstRegistrationWins(c: VChannel, regs: seq<Registration>)
    requires c.sourcePort < 0 && |regs| > 0 && regs[0].port >= 0
    ensures RegisterSources(c, regs).sourcePort == regs[0].port
  {
    RegisterSourcesPort(c, regs);
  }

  function RegisterSinks(c: VChannel, regs: seq<Registration>): VChannel
    decreases |regs|
  {
    if |regs| == 0 then c
    else RegisterSinks(SetVerticalSink(c, regs[0].router, regs[0].port), regs[1..])
  }

  /** Sinks follow the same rules: appended in order, the sources
      untouched, and the first valid port kept. */
  lemma {:induction false} RegisterSinksSpec(c: VChannel, regs: seq<Registration>)
    ensures RegisterSinks(c, regs).sinks == c.sinks + Routers(regs)
    ensures RegisterSinks(c, regs).sources == c.sources
    ensures RegisterSinks(c, regs).sinkPort == CanonicalPort(c.sinkPort, regs)
  {
    RegisterSinksAppends(c, regs);
    RegisterSinksPort(c, regs);
  }

  lemma {:induction false} RegisterSinksAppends(c: VChannel, regs: seq<Registration>)
    ensures RegisterSinks(c, regs).sinks == c.sinks + Routers(regs)
    ensures RegisterSinks(c, regs).sources == c.sources
    decreases |regs|
  {
    if |regs| > 0 {
      var c1 := SetVerticalSink(c, regs[0].router, regs[0].port);
      RegisterSinksAppends(c1, regs[1..]);
      assert Routers(regs) == [regs[0].router] + Routers(regs[1..]);
    }
  }

  lemma {:induction false} RegisterSinksPort(c: VChannel, regs: seq<Registration>)
    ensures RegisterSinks(c, regs).sinkPort == CanonicalPort(c.sinkPort, regs)
    decreases |regs|
  {
    if |regs| > 0 {
      var c1 := SetVerticalSink(c, regs[0].router, regs[0].port);
      RegisterSinksPort(c1, regs[1..]);
      HasValidPortTail(regs);
      if c.sinkPort < 0 && regs[0].port < 0 && HasValidPort(regs[1..]) {
        assert FirstValidPort(regs) == 1 + FirstValidPort(regs[1..]);
      }
    }
  }

  /** `Sources()`: the registered sources. */
  function Sources(c: VChannel): seq<RouterId> {
    c.sources
  }

  /** On a new channel, `Sources()` lists exactly the registered routers in
      registration order. */
  lemma SourcesInRegistrationOrder(classes: int, x0: Short, y0: Short, d0: bool, regs: seq<Registration>)
    requires classes >= 0
    ensures Sources(RegisterSources(New(classes, x0, y0, d0), regs)) == Routers(regs)
  {
    RegisterSourcesAppends(New(classes, x0, y0, d0), regs);
  }

  /** `GetVerticalSource(id)`: the first registered source whose id is
      `id`; a router that never registered is an error. */
  method GetVerticalSource(c: VChannel, id: int) returns (r: Result<RouterId>)
    ensures r.Ok? <==> id in c.sources
    ensures r.Ok? ==> r.value == id
  {
    var i := 0;
    var size := |c.sources|;
    while i < size
      invariant 0 <= i <= size
      invariant forall j :: 0 <= j < i ==> c.sources[j] != id
    {
      if c.sources[i] == id {
        break;
      }
      i := i + 1;
    }
    if i == size {
      return Error("Router not a source");
    }
    return Ok(c.sources[i]);
  }

  /** Two router ids lie in the same stack layer. */
  predicate SameLayer(a: int, b: int, layerSize: int)
    requires layerSize > 0
  {
    Quot(a, layerSize) == Quot(b, layerSize)
  }

  /** `GetVerticalSink(id)`: the first registered sink in the same layer as
      `id` (layer size gK * gN); none is an error. */
  method GetVerticalSink(c: VChannel, id: int, layerSize: int) returns (r: Result<RouterId>)
    requires layerSize > 0
    ensures r.Ok? <==> exists i :: 0 <= i < |c.sinks| && SameLayer(c.sinks[i], id, layerSize)
    ensures r.Ok? ==> exists i :: 0 <= i < |c.sinks| && c.sinks[i] == r.value &&
                        SameLayer(r.value, id, layerSize) &&
                        forall j :: 0 <= j < i ==> !SameLayer(c.sinks[j], id, layerSize)
  {
    var i := 0;
    var size := |c.sinks|;
    while i < size
      invariant 0 <= i <= size
      invariant forall j :: 0 <= j < i ==> !SameLayer(c.sinks[j], id, layerSize)
    {
      if Quot(c.sinks[i], layerSize) == Quot(id, layerSize) {
        break;
      }
      i := i + 1;
    }
    if i == size {
      return Error("Router not a sink.");
    }
    return Ok(c.sinks[i]);
  }

  function GetX(c: VChannel): Short { c.x }
  function GetY(c: VChannel): Short { c.y }
  function GetDir(c: VChannel): bool { c.dir }

  function SetX(c: VChannel, v: Short): VChannel { c.(x := v) }
  function SetY(c: VChannel, v: Short): VChannel { c.(y := v) }
  function SetDir(c: VChannel, d: bool): VChannel { c.(dir := d) }

  /** Each getter returns what its setter stored, and each setter leaves
      every other field, the source and sink lists included, as it was. */
  lemma AccessorsRoundTrip(c: VChannel, v: Short, d: bool)
    ensures GetX(SetX(c, v)) == v && GetY(SetY(c, v)) == v && GetDir(SetDir(c, d)) == d
    ensures GetY(SetX(c, v)) == GetY(c) && GetDir(SetX(c, v)) == GetDir(c)
    ensures GetX(SetY(c, v)) == GetX(c) && GetDir(SetY(c, v)) == GetDir(c)
    ensures GetX(SetDir(c, d)) == GetX(c) && GetY(SetDir(c, d)) == GetY(c)
    ensures SetX(c, v).sources == c.sources && SetX(c, v).sinks == c.sinks
    ensures SetY(c, v).sources == c.sources && SetY(c, v).sinks == c.sinks
    ensures SetDir(c, d).sources == c.sources && SetDir(c, d).sinks == c.sinks
  {
  }
}
